=== FILE: README.md ===
# Habit and study planner: a Dafny model of its core

This project models the logic of a habit tracker built around the "Atomic
Habits" framework. The tracker has two halves. A React client keeps habits,
daily completion logs, streaks and points in an IndexedDB store. A Flask
server keeps the same data in PostgreSQL tables. The model covers these parts:

- the client's streak count: consecutive days ending today or yesterday;
- the weekly recap card;
- the logging hook's bookkeeping: a log upsert, the streak row update,
  points and levels, badges, habit creation and deletion;
- the server's copy of the same rules;
- the CSV backup: export, the importer's scanner, and the round trip
  between them;
- the yearly heat map: per-day counts, the week grid and the month labels;
- the streak badge and its tiers;
- the celebration messages;
- the focus timer;
- the persisted user store and the identity badge;
- the habit form's validation;
- the dashboard's figures.

Everything is pure functions over immutable datatypes. Calendar dates are
`CivilDate.Date` values in the proleptic Gregorian calendar, numbered by
`Ord`. The current day and the current year are parameters, and so is the
list of files handed to the importer. Store tables are sequences in insertion
order on the client and maps keyed like the SQL tables on the server.

Modules, one per source concern:

| file | module | models |
|---|---|---|
| wrappers.dfy | Wrappers | `Option` |
| text.dfy | Text | digits, padding, trimming, lower-casing, code-point order |
| civil_date.dfy | CivilDate | dates, day numbers, weekdays, `YYYY-MM-DD` text |
| percent.dfy | Percent | `Math.round(part / whole * 100)` |
| records.dfy | Records | the habit and log records |
| streak_engine.dfy, streak_lemmas.dfy | StreakEngine, StreakLemmas | `calculateStreak` and the recap's copy of it |
| weekly_recap.dfy | WeeklyRecap | the weekly recap card |
| habit_progress.dfy | HabitProgress | the logging hook |
| backend_rules.dfy | BackendRules | `create_log`, `update_streak` and `award_points` on the server |
| csv_export.dfy | CsvExport | `exportData` |
| csv_import.dfy | CsvImport | `parseCsv`, `stripQuotes` and `importDataFromFiles` |
| csv_backup.dfy, backup_restore.dfy | CsvBackup, BackupRestore | export followed by import |
| heatmap.dfy | Heatmap | the heat map |
| streak_badge.dfy | StreakBadge | the streak badge |
| celebration.dfy | Celebration | confetti budgets and messages |
| timer.dfy | Timer | the focus timer |
| user_store.dfy | UserStore | the persisted user store |
| identity_badge.dfy | IdentityBadge | the identity badge |
| habit_form.dfy | HabitForm | the habit form |
| dashboard.dfy | Dashboard | the dashboard's figures |

Where the code and the project's own description disagree, the model follows the code:

- The description lists a streak status, a longest streak and an
  is-completed-today flag as outputs of the streak hook. The hook computes
  only the current count.
- The description calls the weekly recap's streak "longest". It is the
  largest *current* full-log streak among the habits.

## Model

| member | source | states |
|---|---|---|
| CivilDate.OrdMonotone | frontend/src/hooks/useStreaks.ts:40-46 | Day numbers order dates exactly as the calendar does, and equal numbers mean equal dates. This is what "one day before" in the walk relies on. |
| CivilDate.DayDiffCases | backend/main.py:401-412 | The server's whole-day difference is 1 exactly for the previous day, 0 exactly for the same day, and negative exactly for a later stored date. |
| CivilDate.PredSuccInverse | frontend/src/hooks/useStreaks.ts:41-42 | Stepping back a day and forward a day are inverse to each other on valid dates. |
| CivilDate.PredIsImmediate | frontend/src/hooks/useStreaks.ts:41-44 | No valid date lies strictly between a date and the day before it. |
| CivilDate.IsoRoundTrip | frontend/src/hooks/useStreaks.ts:19 | The `YYYY-MM-DD` text of a date in years 0 to 9999 parses back to the same date. |
| CivilDate.IsoParseRoundTrip | frontend/src/hooks/useStreaks.ts:15 | A string that parses as a date is exactly that date's `YYYY-MM-DD` text. |
| CivilDate.IsoInjective | frontend/src/hooks/useStreaks.ts:15 | Two dates have the same ISO text exactly when they are equal. Deduplicating the strings therefore deduplicates the days. |
| CivilDate.IsoLexOrderIsChronological | frontend/src/hooks/useStreaks.ts:15 | Code-point order on ISO texts is chronological order on the dates. Sorting the strings in descending order therefore puts the newest day first. |
| CivilDate.WeekdayOfMonday | frontend/src/components/Heatmap.tsx:72 | Anchors `getDay`: 0001-01-01 is a Monday, with weekday numbers counted from 0 for Sunday. |
| StreakEngine.SortDistinctDescending | frontend/src/hooks/useStreaks.ts:15 | The deduplicated, newest-first date list is strictly descending and holds exactly the input's dates. |
| StreakEngine.DescendingUnique | frontend/src/hooks/useStreaks.ts:15 | Only one strictly descending list has a given set of dates, so the order the store returns does not matter. |
| StreakEngine.RunBack | frontend/src/hooks/useStreaks.ts:27-52 | Reference definition of the count: the run of consecutive days ending on a date. It is a genuine run, not followed by the day before it, and no longer than the date set. |
| StreakEngine.RunUnique | frontend/src/hooks/useStreaks.ts:27-52 | A set and an end day determine the length of the run. |
| StreakEngine.CurrentStreak | frontend/src/hooks/useStreaks.ts:12-52 | The count is 0 without logs and 0 when the newest day is neither today nor yesterday. Otherwise it is the run of consecutive logged days ending at the newest day, and never more than the number of distinct days. |
| StreakEngine.CalculateStreak | frontend/src/hooks/useStreaks.ts:5-53 | The source's procedure gives the reference count for every log list and every day: sort, check the anchor, then walk back. |
| StreakEngine.WalkBack | frontend/src/hooks/useStreaks.ts:27-52 | The loop counts from the newest date while each date is the day before the previous one. It returns a count between 1 and the list length, and that count is exactly the run ending at the newest date. |
| StreakEngine.WalkStopsAtGap | frontend/src/hooks/useStreaks.ts:44-49 | Where the walk breaks, the run ends. No later date in the list fills the gap. |
| StreakLemmas.DatesDetermineStreak | frontend/src/hooks/useStreaks.ts:15 | Two histories with the same set of qualifying dates have the same streak. |
| StreakLemmas.ReorderingKeepsStreak | frontend/src/hooks/useStreaks.ts:6-10 | Any permutation of the logs leaves the streak unchanged. |
| StreakLemmas.SameDayLogKeepsStreak | frontend/src/hooks/useStreaks.ts:15 | A second log on a day that already counts changes nothing. |
| StreakLemmas.NonQualifyingLogIgnored | frontend/src/components/WeeklyRecap.tsx:35-37 | Another habit's log, or a tiny log under the full-only rule, leaves the streak as it was. |
| StreakLemmas.StreakFromLatest | frontend/src/hooks/useStreaks.ts:23-52 | When the newest day is today or yesterday, the count is the run ending there. |
| StreakLemmas.TodayExtendsStreak | frontend/src/hooks/useStreaks.ts:19-52 | When the newest logged day is yesterday, a qualifying log today raises the streak by exactly one. |
| StreakLemmas.FullOnlyIsEveryLogOfFullLogs | frontend/src/components/WeeklyRecap.tsx:34-75 | The recap's copy of the count is the hook's count run on the full logs only. |
| StreakLemmas.OnlyTinyScoresZero | frontend/src/components/WeeklyRecap.tsx:35-39 | A habit with only tiny logs has a recap streak of 0, however many logs it has. |
| StreakLemmas.TinyCountsForEveryLog | frontend/src/hooks/useStreaks.ts:15 | The hook itself counts a tiny log like a full one. |
| WeeklyRecap.WeekDates | frontend/src/components/WeeklyRecap.tsx:13-19 | Seven valid dates, oldest first, ending today, each the day after the one before. |
| WeeklyRecap.WeekIsAscending | frontend/src/components/WeeklyRecap.tsx:15-19 | The week's dates are in strictly increasing calendar order. |
| WeeklyRecap.FullWeekLogs | frontend/src/components/WeeklyRecap.tsx:22-25 | A log is in the list exactly when it is a full log dated inside the week. |
| WeeklyRecap.FullWeekCounts | frontend/src/components/WeeklyRecap.tsx:22-25 | Duplicates are kept: each full log of the week occurs in the list exactly as often as among all logs, and nothing else occurs. |
| WeeklyRecap.TotalCompletions | frontend/src/components/WeeklyRecap.tsx:22-25 | The total is at most the number of logs, and is 0 exactly when no full log falls inside the week. |
| WeeklyRecap.DaysWithCompletions | frontend/src/components/WeeklyRecap.tsx:28-30 | The number of distinct days is at most seven and never more than the total of full logs. |
| WeeklyRecap.CompletionRate | frontend/src/components/WeeklyRecap.tsx:31 | The rate is the day count over seven, in percent, rounded half up, and lies between 0 and 100. |
| WeeklyRecap.DuplicateRaisesTotalOnly | frontend/src/components/WeeklyRecap.tsx:25-30 | A second full log on a day already counted adds one to the total and nothing to the day count. |
| WeeklyRecap.LongestStreak | frontend/src/components/WeeklyRecap.tsx:77-81 | The figure is at least every eligible habit's streak. It is either 0 or equal to the streak of some habit that is not archived and has an id. |
| WeeklyRecap.HiddenIffNoActivity | frontend/src/components/WeeklyRecap.tsx:84 | The card is hidden exactly when no full log falls in the week and no eligible habit has a running full-only streak. |
| Percent.RoundPercent | frontend/src/pages/Dashboard.tsx:35-37 | `Math.round(part / whole * 100)` as an exact integer: the result is within half a point of the true percentage, with halves rounded up. |
| HabitProgress.StreakAfter | frontend/src/hooks/useHabitLog.ts:109-124 | One more after a completion yesterday, unchanged for the same day, and 1 after any gap, an earlier date or an empty row. |
| HabitProgress.NextStreak | frontend/src/hooks/useHabitLog.ts:126-133 | The row written back keeps its habit and records the date. Its longest is the larger of the new count and the old longest. |
| HabitProgress.MilestoneBonuses | frontend/src/hooks/useHabitLog.ts:136-141 | 50 is awarded exactly at multiples of 7 and 200 exactly at multiples of 30, in that order. |
| HabitProgress.LevelFor | frontend/src/hooks/useHabitLog.ts:159 | The level is the hundred-point band of the total, counted from 1. |
| HabitProgress.AddHabitPoints | frontend/src/hooks/useHabitLog.ts:147-153 | Only the habits with the given id gain the points. Every other field and habit is unchanged. |
| HabitProgress.AwardPoints | frontend/src/hooks/useHabitLog.ts:145-170 | The habit gains the points. The progress row, if there is one, gains them too and takes the level of its new total. Its stored badges are kept as a prefix. No other table changes. |
| HabitProgress.AwardAll | frontend/src/hooks/useHabitLog.ts:136-141 | Awarding bonuses in turn adds their sum to the user's total and to the habit. |
| HabitProgress.CheckBadgesFrom | frontend/src/hooks/useHabitLog.ts:191-197 | The loop only appends. What it appends is earned. Every earned badge from the given position on ends up in the list, and no badge appears twice. |
| HabitProgress.CheckBadges | frontend/src/hooks/useHabitLog.ts:173-202 | The stored badges are kept as a prefix. Each of the seven conditions that holds puts its badge in the list, and nothing is added twice. |
| HabitProgress.FirstStreakRow | frontend/src/hooks/useHabitLog.ts:106 | The first streak row of the habit, or none when no row has that habit. |
| HabitProgress.UpdateStreak | frontend/src/hooks/useHabitLog.ts:105-142 | A habit without a streak row changes nothing. Otherwise its first row becomes the next streak record (one more after yesterday, unchanged on the same day, else 1, with the longest kept as a maximum). The habit and the user total each gain the milestone bonuses of the new streak. Logs and reminders stay as they were. |
| HabitProgress.SameDayRowStable | frontend/src/hooks/useHabitLog.ts:109-133 | A second completion on the same day leaves the streak rows exactly as the first one wrote them: the day difference is 0, so the streak holds and the longest already covers it. |
| HabitProgress.FindLog | frontend/src/hooks/useHabitLog.ts:61-64 | The position of the habit's log for the day, or none when there is no such log. |
| HabitProgress.UpsertLog | frontend/src/hooks/useHabitLog.ts:60-87 | After the write the day's log holds the new flag. Every other log is kept. A row is added only when none existed, and one row per habit and day is preserved. |
| HabitProgress.LogHabit | frontend/src/hooks/useHabitLog.ts:49-102 | Logging upserts the row. An uncompleted log touches nothing else. |
| HabitProgress.CompletionPoints | frontend/src/hooks/useHabitLog.ts:89-93 | A completion earns the habit 10 points plus the milestone bonuses of its new streak. |
| HabitProgress.MissedDayEarnsNothing | frontend/src/hooks/useHabitLog.ts:90-93 | An uncompleted log leaves habits, streaks and progress unchanged. |
| HabitProgress.CreateHabit | frontend/src/hooks/useHabitLog.ts:17-46 | A new habit starts at 0 points with a 0/0 streak row that has no completion date. Nothing else changes. |
| HabitProgress.DeleteHabit | frontend/src/hooks/useHabitLog.ts:205-218 | Deletion removes exactly the habit and its logs, streak rows and reminders. Every other row stays, as many times as it occurred. Progress is untouched. |
| HabitProgress.DeleteUndoesCreate | frontend/src/hooks/useHabitLog.ts:205-218 | Deleting a habit just created restores the habit and streak tables. |
| BackendRules.NewStreak | backend/main.py:398-414 | The server's new count is one more after yesterday, unchanged on the same day, and 1 otherwise, including when no date is stored yet. |
| BackendRules.NextRow | backend/main.py:416-425 | The stored row records the date. Its longest is the larger of the new count and the old longest. |
| BackendRules.SqlDiv | backend/main.py:453 | PostgreSQL's integer division truncates toward zero, for negative totals as well. |
| BackendRules.AwardPoints | backend/main.py:433-455 | The habit gains the points. A named owner's progress row is inserted at level 1 or updated to the banded level. A NULL owner never conflicts on the UNIQUE `user_id`, so a fresh row (points, level 1) is inserted and the keyed rows stay. Other rows and tables are unchanged. |
| BackendRules.AwardAll | backend/main.py:428-431 | Successive awards add the sum of the bonuses to the habit and to its owner's progress total, starting from 0 when the owner has no row. Other users keep their rows. A NULL owner instead gets one new level-1 row per bonus. An unknown habit or an empty list leaves progress unchanged. |
| BackendRules.UpdateStreak | backend/main.py:389-431 | A habit without a streak row changes nothing. Otherwise its row becomes the next row. The habit gains the milestone bonuses of the new streak, and so does a named owner's progress total, which is created when missing. A NULL owner gets one new level-1 row per bonus instead. Other users' rows are unchanged, and with no bonus the progress table is too. |
| BackendRules.CreateLog | backend/main.py:196-230 | A log of a habit that is not in the habits table fails, because `habit_id` references `habits(id)`, and nothing changes. Otherwise the (habit, date) key holds the new flag and every other key keeps its value. An uncompleted log touches nothing else. |
| BackendRules.CompletionPoints | backend/main.py:222-224 | A completed log earns its habit 10 points plus the milestone bonuses. |
| BackendRules.AwardedLevelIsBand | backend/main.py:448-455 | For a user with progress and a non-negative new total, the stored level is the hundred-point band of the total. |
| BackendRules.FirstAwardLevel | backend/main.py:449-450 | A user's first award inserts level 1 whatever the points, so that level can lag the total. |
| BackendRules.NullOwnerRowsApart | backend/main.py:444-455 | Two awards to a habit whose `user_id` is NULL (stored by `create_habit` when the request sends null, main.py:120) leave the keyed progress rows unchanged and insert two separate rows at level 1. They never add up. |
| BackendRules.LevelsAgree | backend/main.py:453 | For totals of 0 or more, the server level equals the client's `floor(total / 100) + 1`. At -1 the two differ. |
| BackendRules.StreakTransitionsAgree | backend/main.py:389-425 | The server's and the client's streak transitions produce the same row. |
| BackendRules.UpsertsAgree | backend/main.py:205-213 | The client's upsert and the server's `ON CONFLICT` update give the same (habit, date) table. |
| CsvExport.FormatDateTime | frontend/src/utils/export.ts:5-25 | A missing or invalid value gives "". A valid one gives `year-MM-DD HH:mm:ss` with two-digit fields. |
| CsvExport.ExportedStampIsoLike | frontend/src/utils/export.ts:5-25 | An exported stamp matches the importer's ISO-like pattern exactly when its year has four digits. |
| CsvExport.ExportedStampReadsBack | frontend/src/utils/export.ts:5-25 | Reading an exported stamp with a four-digit year gives back its calendar fields. |
| CsvBackup.CellScan | frontend/src/utils/export.ts:36-40 | A rendered cell followed by a comma, a line break or the end is scanned back as exactly its text, when it is a bare cell without comma, quote or line break or a quoted cell without quote: the quotes the exporter puts around a cell are the ones the parser drops. |
| CsvExport.HabitTable | frontend/src/utils/export.ts:32-42 | The habits file is the header row followed by one six-cell row per habit, in table order. |
| CsvExport.LogTable | frontend/src/utils/export.ts:46-56 | The logs file is the header row followed by one six-cell row per log, in table order. |
| CsvExport.OptionalNumber | frontend/src/utils/export.ts:53 | An empty cell stands exactly for an absent number. A present number is written as digits with no leading zero whose decimal value is the number. |
| CsvBackup.BomRoundTrip | frontend/src/utils/export.ts:61 | The importer strips exactly the mark the exporter puts in front, so the body reaches the parser unchanged. |
| CsvImport.ScanPreserves | frontend/src/utils/import.ts:16-22 | The scan keeps only rows with a cell that is not blank. On text without doubled quotes it puts no quote character in any cell. |
| CsvImport.ParseCsv | frontend/src/utils/import.ts:5-56 | No returned row is empty or blank. Text without doubled quotes gives cells without quote characters. |
| CsvImport.ScanText | frontend/src/utils/import.ts:24-53 | The index-skipping loop of the source computes the scanner's result. |
| CsvImport.TrailingNewlineAddsNoRow | frontend/src/utils/import.ts:49-53 | A line feed at the end of text that is outside quotes adds no row. |
| CsvImport.UnescapeEscape | frontend/src/utils/import.ts:60 | Undoubling quotes undoes doubling them. |
| CsvImport.StripQuotes | frontend/src/utils/import.ts:58-61 | A value not enclosed in quotes is returned as it is. Stripping never lengthens a value. |
| CsvImport.StripQuotesOfQuoted | frontend/src/utils/import.ts:58-61 | Stripping a quoted, escaped value gives back the value. |
| CsvImport.MarkIsInvisible | frontend/src/utils/import.ts:103 | A file starting with one byte-order mark parses to the same rows as the same file without it. |
| CsvImport.Classify | frontend/src/utils/import.ts:104-111 | A file is the habits file exactly when its header has `title` and `cue`. It is the logs file exactly when it does not, but has `habit id` and `date`. |
| CsvImport.LastOfKind | frontend/src/utils/import.ts:102-112 | The position of the last file of a kind, or none when no file has that kind. |
| CsvImport.ChooseFiles | frontend/src/utils/import.ts:99-112 | Each table is read from the last file recognised as that kind. |
| CsvImport.NumberOf | frontend/src/utils/import.ts:150 | A digit string is read as its value, and `Number` of a truthy cell is never absent. |
| CsvImport.NumberOrAbsent | frontend/src/utils/import.ts:153 | The number is absent exactly when the cell is missing or empty. |
| CsvImport.HabitOfRow | frontend/src/utils/import.ts:123-136 | An imported habit is daily, not pinned and not archived, with its title unquoted. It has no id exactly when the id cell is empty. |
| CsvImport.HabitRecords | frontend/src/utils/import.ts:119-139 | Every data row with a title becomes a habit, and every habit comes from such a row. |
| CsvImport.LogOfRow | frontend/src/utils/import.ts:145-155 | A row shorter than four cells makes the source throw. Otherwise the log carries the unquoted date and type. |
| CsvImport.LogRecords | frontend/src/utils/import.ts:141-158 | The import fails exactly when a kept row is shorter than four cells. Otherwise every kept row becomes a log, and every log comes from such a row. |
| CsvImport.ImportFiles | frontend/src/utils/import.ts:89-176 | No files means no change. A table without a recognised file is emptied. |
| CsvImport.CountsOf | frontend/src/utils/import.ts:172-175 | The counts are the numbers of records written. They are 0 and 0 without files, and there are none when the import throws. |
| CsvBackup.ParseBody | frontend/src/utils/import.ts:5-56 | Scanning an exported body gives back exactly the cells' values, quotes removed. |
| BackupRestore.StampIsPlain | frontend/src/utils/export.ts:5-25 | An exported time stamp holds no comma, quote or line break. |
| BackupRestore.FileRows | frontend/src/utils/export.ts:32-61 | An exported file, mark included, reads back as its table's cell values. |
| BackupRestore.HabitsCsvKind | frontend/src/utils/import.ts:107-108 | The exported habits file is recognised as the habits file. |
| BackupRestore.LogsCsvKind | frontend/src/utils/import.ts:109-110 | The exported logs file is recognised as the logs file. |
| BackupRestore.HabitRowReadsBack | frontend/src/utils/import.ts:123-136 | An exported habit row is kept and rebuilds the habit's text fields and id. |
| BackupRestore.LogRowReadsBack | frontend/src/utils/import.ts:145-155 | An exported log row is kept and rebuilds the log's id, habit, date, type and value. |
| BackupRestore.NumberCellReadsBack | frontend/src/utils/import.ts:153 | An exported optional number reads back as the same number, or as absent. |
| BackupRestore.BackupRoundTrip | frontend/src/utils/import.ts:89-176 | Importing the two exported files, in either order, replaces the tables with the restored habits and logs. |
| Heatmap.Bump | frontend/src/components/Heatmap.tsx:44-45 | Bumping a date adds one to that date's count and to the total, and leaves every other date's count alone. The map grows by one entry exactly when the date is new, and keys stay distinct. |
| Heatmap.HeatmapData | frontend/src/components/Heatmap.tsx:17-51 | The map has distinct keys and positive counts. Its keys are the dates of the counted logs, and each count is the number of counted logs on that date. |
| Heatmap.SummaryTotals | frontend/src/components/Heatmap.tsx:203-212 | "Total Days" is the number of distinct counted dates, and it never exceeds "Total Completions". |
| Heatmap.DayColor | frontend/src/components/Heatmap.tsx:53-60 | Counts 0 to 4 give the five shades in order. Anything above 4 is the darkest, and anything at or below 0 is the lightest. |
| Heatmap.DayColorMonotone | frontend/src/components/Heatmap.tsx:53-60 | More completions never give a lighter cell. |
| Heatmap.GridStart | frontend/src/components/Heatmap.tsx:68-72 | The grid starts on the Sunday that is on or at most six days before 1 January. |
| Heatmap.GenerateCalendar | frontend/src/components/Heatmap.tsx:62-87 | The weeks are rows of seven consecutive days from that Sunday. The last week starts on or before 31 December and ends on or after it. |
| Heatmap.GridWeeks | frontend/src/components/Heatmap.tsx:77-84 | Every week starts on a Sunday, and within a week each day follows the one before. |
| Heatmap.MonthPositions | frontend/src/components/Heatmap.tsx:89-110 | Labels sit on weeks whose first day lies in the year, in week order, and two neighbouring labels never share a month. |
| Heatmap.LabelMonthsIncrease | frontend/src/components/Heatmap.tsx:89-110 | On a calendar-ordered grid, the labelled months strictly increase. |
| Heatmap.LabelsAreFirstWeeks | frontend/src/components/Heatmap.tsx:89-110 | On a calendar-ordered grid, a week is labelled exactly when it is the first week of the year whose first day falls in that month. |
| StreakBadge.StatusStylesDistinct | frontend/src/components/StreakBadge.tsx:15-29 | Each status has its own colour classes and its own emoji. |
| StreakBadge.TierStylesDistinct | frontend/src/components/StreakBadge.tsx:31-39 | Each tier has its own label and its own emoji. |
| StreakBadge.StreakLevel | frontend/src/components/StreakBadge.tsx:31-39 | The tier's rank is the number of milestones the streak has reached. |
| StreakBadge.TierMonotone | frontend/src/components/StreakBadge.tsx:31-39 | A longer streak never has a lower tier. |
| StreakBadge.TierChangesAtMilestones | frontend/src/components/StreakBadge.tsx:31-39 | The tier changes from one day to the next exactly on a milestone. |
| StreakBadge.NextMilestone | frontend/src/components/StreakBadge.tsx:79-80 | Below 100 days this is the smallest milestone above the streak. From 100 days on it is 100. |
| StreakBadge.NextMilestoneIsNextTier | frontend/src/components/StreakBadge.tsx:79-80 | Below 100 days the next milestone is where the tier next rises by one. Until then the tier stays the same. |
| StreakBadge.ShowBadge | frontend/src/components/StreakBadge.tsx:41-96 | The best row is shown exactly for a positive longest streak. The progress box is shown exactly below 100 days. It aims at the next milestone, the one whose reaching raises the shown tier by one, and has at least one day to go. |
| Celebration.ParticleCount | frontend/src/utils/celebration.ts:6-7 | Light is 50 particles, heavy is 200, and medium or absent is 100. |
| Celebration.CelebrateStreakMilestone | frontend/src/utils/celebration.ts:54-69 | The result is present exactly for 7, 30, 100 and other positive multiples of 7. Heavy confetti goes exactly with the three special streaks. |
| Celebration.MessagesIdentifyStreak | frontend/src/utils/celebration.ts:54-69 | Two streaks that get a message get the same message only if they are equal. |
| Celebration.CompletionMessage | frontend/src/utils/celebration.ts:74-79 | The message names the habit and opens with a sparkle for a tiny log or a target for a full one. |
| Celebration.CompletionMessageInjective | frontend/src/utils/celebration.ts:74-79 | Different titles or kinds always give different messages. |
| Timer.NewTimer | frontend/src/components/Timer.tsx:9-12 | A fresh timer plans the given minutes, 25 without the prop, and starts stopped with all its seconds left. |
| Timer.Step | frontend/src/components/Timer.tsx:15-29 | A running timer with time left loses one second. At zero it stops and finishes. A paused timer with time left is unchanged. |
| Timer.Toggle | frontend/src/components/Timer.tsx:31 | Only the running flag flips. |
| Timer.Reset | frontend/src/components/Timer.tsx:33-37 | Resetting gives exactly a fresh timer for the same plan. |
| Timer.EventsKeepSane | frontend/src/components/Timer.tsx:15-37 | Every event keeps the seconds left between 0 and the plan, and a finished timer at 0. |
| Timer.RunsDown | frontend/src/components/Timer.tsx:15-24 | A running timer with n seconds left is stopped and finished after n + 1 firings. |
| Timer.FinishReportsPlan | frontend/src/components/Timer.tsx:39-41 | However long it ran, finishing reports the planned minutes, not the time elapsed. |
| Timer.FormatTimeRoundTrip | frontend/src/components/Timer.tsx:43-47 | The `MM:SS` display reads back as the seconds it shows. |
| Timer.TwentyFiveMinutes | frontend/src/__tests__/Timer.test.tsx:6-24 | A fresh 25-minute timer shows 25:00, and one second after starting it shows 24:59. |
| UserStore.SetIdentity | frontend/src/stores/userStore.ts:20-25 | The text is stored. Progress survives only when the text is exactly the one already stored, and is 0 otherwise. |
| UserStore.Increment | frontend/src/stores/userStore.ts:26-29 | Adds the amount, 1 by default, and never goes above 100. |
| UserStore.CompleteOnboarding | frontend/src/stores/userStore.ts:30 | Only the onboarding flag changes, and it becomes true. |
| UserStore.Reset | frontend/src/stores/userStore.ts:31 | Reset returns the store to its initial state. |
| UserStore.ActionsKeepRange | frontend/src/stores/userStore.ts:17-31 | With non-negative amounts every action keeps progress between 0 and 100. |
| UserStore.IncrementsCapOnce | frontend/src/stores/userStore.ts:26-29 | From 0, capping at each step equals capping once: the result is the sum of the increments, or 100 once that sum passes 100. |
| IdentityBadge.IdentityText | frontend/src/components/IdentityBadge.tsx:34-38 | With no identity the prompt is shown. Otherwise the text reads "i am" in any letter case and ends with the identity, and an identity that already starts that way is shown unchanged. |
| IdentityBadge.IdentityTextIdempotent | frontend/src/components/IdentityBadge.tsx:34-38 | Framing an already framed identity changes nothing. |
| IdentityBadge.CompletionPercentage | frontend/src/components/IdentityBadge.tsx:30 | The share done times 100, 0 without habits, and between 0 and 100 when no more are done than exist. |
| IdentityBadge.RingLabel | frontend/src/components/IdentityBadge.tsx:79-85 | The counter `done/total` is shown exactly once something is done. |
| HabitForm.InitialForm | frontend/src/components/HabitForm.tsx:15-28 | Every field gets a value. A non-empty initial value wins. A field with no initial form, or whose initial value is missing or empty, takes its default: study, daily, books, blue, or today. |
| HabitForm.ReopenKeepsForm | frontend/src/components/HabitForm.tsx:15-28 | Opening the form on the values it already shows gives the same form, because a field is left empty only when its default is empty. |
| HabitForm.Validate | frontend/src/components/HabitForm.tsx:32-44 | Exactly the blank required fields get their message, and the form is valid exactly when there is none. |
| HabitForm.HandleSubmit | frontend/src/components/HabitForm.tsx:46-51 | The form is submitted unchanged exactly when every required field has text. |
| HabitForm.HandleChange | frontend/src/components/HabitForm.tsx:53-58 | The field takes the value. Its error is blanked and every other error is kept. |
| HabitForm.FillingFieldDropsItsError | frontend/src/components/HabitForm.tsx:53-58 | Filling a field with text removes exactly that field's error at the next validation. |
| Dashboard.CalculateTodayStats | frontend/src/pages/Dashboard.tsx:22-29 | While either list is loading the stats stay. Otherwise the total is the number of daily habits and the done figure the number of completed logs of any habit: each at most its list's length, 0 exactly when none qualifies, and the full length exactly when all do. |
| Dashboard.DailyHabits | frontend/src/pages/Dashboard.tsx:25 | Each daily habit is kept as often as it occurs, and nothing else is, so the count is the number of daily habits. All are kept exactly when every habit is daily. |
| Dashboard.CompletedLogs | frontend/src/pages/Dashboard.tsx:26 | Each completed log is kept as often as it occurs, and nothing else is. All are kept exactly when every log is completed. |
| Dashboard.CompletionPercentage | frontend/src/pages/Dashboard.tsx:35-37 | Rounded percentage done, 0 without daily habits, and within 0 to 100 when no more are done than exist. |
| Dashboard.LevelFiguresAgree | frontend/src/pages/Dashboard.tsx:64-76 | The bar and the points still needed always fill one hundred. The points needed bring the total to exactly the start of the next level. |

## Left out

- The clock. The current day, the current year, and "yesterday" are parameters. The source takes them from `new Date()` in UTC or local time, and the model does not follow time zones or daylight saving.
- Date parsing of log dates (`new Date(log.date)` in UTC) and of import time stamps (`parseDateTime`, whose fallback takes the current time). Creation and update time stamps are not modelled.
- `localeCompare` in the date sort is taken as code-point order. The two agree on `YYYY-MM-DD` strings.
- Floating point.
  - The identity badge's percentage is an exact fraction.
  - The dashboard and recap percentages are exact integer roundings.
  - The streak progress bar width, the ring's stroke offset, the heat map's "Avg per Day", and the confetti ratios are left out.
- Text handling. `trim` and `toLowerCase` are modelled on ASCII spaces and letters only, with no Unicode whitespace or case folding. `Number(s)` is modelled for digit strings only.
- The heat map's month label text (`toLocaleDateString`) is modelled as the month number 1 to 12. The label's year test uses the year parameter.
- Store I/O: Dexie, PostgreSQL and Flask requests, `useLiveQuery` subscriptions, the zustand `persist` middleware, and the downloads. Tables are sequences or maps passed in and returned.
- The declared client schema. `frontend/src/db/db.ts` declares a `habitLogs` table without a `[habitId+date]` compound index, while the streak hook, the weekly recap, the importer and the exporter read `db.logs`, and `logHabit` queries the compound index, which Dexie rejects for an undeclared index. `HabitProgress.FindLog`, `HabitProgress.UpsertLog`, `HabitProgress.LogHabit` and the readers of `Records.Log` model the intended table and index, not the declared schema.
- Integer widths. Counts, points, totals and levels are unbounded integers. On the server `points` and `total_points` are PostgreSQL `INTEGER` columns, so a sum past 2^31 - 1 raises "integer out of range" and the request aborts. On the client they are JavaScript doubles, exact only up to 2^53.
- `setInterval`. Each one-second firing of the interval that the timer's effect starts is one `Timer.Step`, and timer minutes are natural numbers.
- Log fields the logic never reads: notes, duration, mood, the sync status, `pinned`, and `archived` beyond the recap's filter.
- `getHabitStats` in the logging hook and the server's read-only endpoints, because they only query.
- Dashboard.LevelBarWidth: defined on non-negative totals only. The client only ever adds points, so the `%` of a negative total does not arise there.
- CsvExport.Render: quotes inside habit text are not doubled on export. The round trip is therefore proved only for habits whose text holds no quote character and whose title is not blank, and for logs whose date and type hold no comma, quote or line break.

=== FILE: backend_rules.dfy ===
/** The server's copy of the completion rules: the log upsert keyed by
    (habit, date), the streak row update and the points award with its
    per-user progress upsert. Tables are maps keyed by their UNIQUE
    columns. */
module BackendRules {
  import opened Wrappers
  import opened CivilDate
  import opened Records
  import HabitProgress

  /** A `streaks` row; `last` is None while `last_completed_date` is NULL. */
  datatype StreakRow = StreakRow(current: int, longest: int, last: Option<Date>)

  /** A `habits` row; `userId` is None while `user_id` is NULL, which
      `create_habit` stores when the request sends an explicit null. */
  datatype HabitRow = HabitRow(userId: Option<string>, points: int)

  datatype ProgressRow = ProgressRow(totalPoints: int, level: int)

  /** `progress` holds the `user_progress` rows keyed by their UNIQUE
      `user_id`; `unowned` holds the rows whose `user_id` is NULL, which the
      UNIQUE constraint admits any number of, in insertion order. */
  datatype Db = Db(
    habits: map<int, HabitRow>,
    logs: map<(int, Date), bool>,
    streaks: map<int, StreakRow>,
    progress: map<string, ProgressRow>,
    unowned: seq<ProgressRow>)

  predicate RowValid(row: StreakRow) {
    row.last.Some? ==> Valid(row.last.value)
  }

  predicate StreaksValid(db: Db) {
    forall h :: h in db.streaks ==> RowValid(db.streaks[h])
  }

  /** `update_streak`'s new current streak. */
  function NewStreak(row: StreakRow, date: Date): (n: int)
    requires RowValid(row) && Valid(date)
    ensures row.last == Some(Pred(date)) ==> n == row.current + 1
    ensures row.last == Some(date) ==> n == row.current
    ensures row.last != Some(Pred(date)) && row.last != Some(date) ==> n == 1
  {
    if row.last.Some? then
      var daysDiff := DayDiff(row.last.value, date);
      DayDiffCases(row.last.value, date);
      if daysDiff == 1 then row.current + 1
      else if daysDiff == 0 then row.current
      else 1
    else 1
  }

  /** The row written back: the longest is the larger of the new and stored
      streak, and the completion date is overwritten even when earlier. */
  function NextRow(row: StreakRow, date: Date): (r: StreakRow)
    requires RowValid(row) && Valid(date)
    ensures RowValid(r) && r.last == Some(date)
    ensures r.current == NewStreak(row, date)
    ensures r.longest >= r.current && r.longest >= row.longest
    ensures r.longest == r.current || r.longest == row.longest
  {
    var n := NewStreak(row, date);
    StreakRow(n, if n > row.longest then n else row.longest, Some(date))
  }

  /** PostgreSQL's INTEGER division, which truncates toward zero. */
  function SqlDiv(a: int, b: int): (q: int)
    requires b > 0
    ensures a >= 0 ==> q * b <= a < (q + 1) * b
    ensures a < 0 ==> (q - 1) * b < a <= q * b
  {
    if a >= 0 then a / b else -((-a) / b)
  }

  /** `award_points`: add to the habit, then upsert the owner's progress. A
      first row is inserted with the points as total and level 1; an
      existing row gets the sum and `(old + points) / 100 + 1`. A NULL owner
      never conflicts with a stored row, so every award to its habit inserts
      a fresh row. */
  function AwardPoints(db: Db, habitId: int, points: int): (r: Db)
    ensures r.logs == db.logs && r.streaks == db.streaks
    ensures r.habits.Keys == db.habits.Keys
    ensures forall h :: h in r.habits ==>
              r.habits[h] == db.habits[h].(points := db.habits[h].points + (if h == habitId then points else 0))
    ensures habitId !in db.habits ==> r.progress == db.progress && r.unowned == db.unowned
    ensures habitId in db.habits && db.habits[habitId].userId.None? ==>
              r.progress == db.progress && r.unowned == db.unowned + [ProgressRow(points, 1)]
    ensures habitId in db.habits && db.habits[habitId].userId.Some? ==>
              var u := db.habits[habitId].userId.value;
              && r.unowned == db.unowned
              && r.progress.Keys == db.progress.Keys + {u}
              && (forall v :: v in db.progress && v != u ==> r.progress[v] == db.progress[v])
              && (u in db.progress ==> r.progress[u].totalPoints == db.progress[u].totalPoints + points)
              && (u !in db.progress ==> r.progress[u] == ProgressRow(points, 1))
  {
    if habitId in db.habits then
      var hb := db.habits[habitId];
      var habits := db.habits[habitId := hb.(points := hb.points + points)];
      match hb.userId
      case None => db.(habits := habits, unowned := db.unowned + [ProgressRow(points, 1)])
      case Some(u) =>
        var row :=
          if u in db.progress then
            var total := db.progress[u].totalPoints + points;
            ProgressRow(total, SqlDiv(total, 100) + 1)
          else ProgressRow(points, 1);
        db.(habits := habits, progress := db.progress[u := row])
    else db
  }

  /** The rows NULL-owner awards insert, one per award at level 1. */
  function FreshRows(awards: seq<nat>): (rows: seq<ProgressRow>)
    ensures |rows| == |awards|
    ensures forall i :: 0 <= i < |awards| ==> rows[i] == ProgressRow(awards[i], 1)
  {
    seq(|awards|, i requires 0 <= i < |awards| => ProgressRow(awards[i], 1))
  }

  function AwardAll(db: Db, habitId: int, bonuses: seq<nat>): (r: Db)
    ensures r.logs == db.logs && r.streaks == db.streaks
    ensures r.habits.Keys == db.habits.Keys
    ensures forall h :: h in r.habits ==>
              r.habits[h] == db.habits[h].(points := db.habits[h].points + (if h == habitId then HabitProgress.Sum(bonuses) else 0))
    ensures habitId !in db.habits || |bonuses| == 0 ==> r.progress == db.progress && r.unowned == db.unowned
    ensures habitId in db.habits && db.habits[habitId].userId.None? ==>
              r.progress == db.progress && r.unowned == db.unowned + FreshRows(bonuses)
    ensures habitId in db.habits && db.habits[habitId].userId.Some? && |bonuses| > 0 ==>
              var u := db.habits[habitId].userId.value;
              && r.unowned == db.unowned
              && r.progress.Keys == db.progress.Keys + {u}
              && (forall v :: v in db.progress && v != u ==> r.progress[v] == db.progress[v])
              && r.progress[u].totalPoints == (if u in db.progress then db.progress[u].totalPoints else 0) + HabitProgress.Sum(bonuses)
    decreases |bonuses|
  {
    if |bonuses| == 0 then db
    else
      var r := AwardAll(AwardPoints(db, habitId, bonuses[0]), habitId, bonuses[1..]);
      assert FreshRows(bonuses) == [ProgressRow(bonuses[0], 1)] + FreshRows(bonuses[1..]);
      r
  }

  /** `update_streak`: no streak row, no change; otherwise write the next
      row and award the milestone bonuses. */
  function UpdateStreak(db: Db, habitId: int, date: Date): (r: Db)
    requires StreaksValid(db) && Valid(date)
    ensures StreaksValid(r) && r.logs == db.logs
    ensures habitId !in db.streaks ==> r == db
    ensures habitId in db.streaks ==>
              r.streaks == db.streaks[habitId := NextRow(db.streaks[habitId], date)]
    ensures habitId in db.streaks && habitId in db.habits ==>
              var bonus := HabitProgress.Sum(HabitProgress.MilestoneBonuses(NextRow(db.streaks[habitId], date).current));
              && habitId in r.habits && r.habits[habitId].points == db.habits[habitId].points + bonus
              && (bonus == 0 || db.habits[habitId].userId.None? ==> r.progress == db.progress)
              && (db.habits[habitId].userId.None? ==>
                    r.unowned == db.unowned + FreshRows(HabitProgress.MilestoneBonuses(NextRow(db.streaks[habitId], date).current)))
              && (db.habits[habitId].userId.Some? ==> r.unowned == db.unowned)
              && (db.habits[habitId].userId.Some? && bonus > 0 ==>
                    var u := db.habits[habitId].userId.value;
                    && r.progress.Keys == db.progress.Keys + {u}
                    && (forall v :: v in db.progress && v != u ==> r.progress[v] == db.progress[v])
                    && r.progress[u].totalPoints == (if u in db.progress then db.progress[u].totalPoints else 0) + bonus)
  {
    if habitId in db.streaks then
      var row := NextRow(db.streaks[habitId], date);
      AwardAll(db.(streaks := db.streaks[habitId := row]), habitId, HabitProgress.MilestoneBonuses(row.current))
    else db
  }

  /** `create_log`: the insert-or-update on (habit, date), then the streak
      and the base 10 points for a completed log. `habit_id` references
      `habits(id)`, so a log of an unknown habit violates the foreign key:
      the request fails and nothing is committed. */
  function CreateLog(db: Db, habitId: int, date: Date, completed: bool): (r: Option<Db>)
    requires StreaksValid(db) && Valid(date)
    ensures r.None? <==> habitId !in db.habits
    ensures r.Some? ==> StreaksValid(r.value)
    ensures r.Some? ==> r.value.logs.Keys == db.logs.Keys + {(habitId, date)}
    ensures r.Some? ==> r.value.logs[(habitId, date)] == completed
    ensures r.Some? ==> forall k :: k in db.logs && k != (habitId, date) ==> r.value.logs[k] == db.logs[k]
    ensures r.Some? && !completed ==> r.value == db.(logs := r.value.logs)
  {
    if habitId !in db.habits then None
    else
      var db1 := db.(logs := db.logs[(habitId, date) := completed]);
      Some(if completed then AwardPoints(UpdateStreak(db1, habitId, date), habitId, 10) else db1)
  }

  /** A completed log earns its habit 10 points plus the milestone bonuses
      of the streak it reaches. */
  lemma {:induction false} CompletionPoints(db: Db, habitId: int, date: Date)
    requires StreaksValid(db) && Valid(date) && habitId in db.habits
    ensures CreateLog(db, habitId, date, true).Some?
    ensures habitId in CreateLog(db, habitId, date, true).value.habits
    ensures CreateLog(db, habitId, date, true).value.habits[habitId].points == db.habits[habitId].points + 10 +
              if habitId in db.streaks
              then HabitProgress.Sum(HabitProgress.MilestoneBonuses(NextRow(db.streaks[habitId], date).current))
              else 0
  {
    var db1 := db.(logs := db.logs[(habitId, date) := true]);
    var db2 := UpdateStreak(db1, habitId, date);
    assert habitId in db2.habits;
  }

  /** After an award to a user who already has progress, the level is the
      hundred-point band of the new total, as long as the total is not
      negative. */
  lemma AwardedLevelIsBand(db: Db, habitId: int, points: int)
    requires habitId in db.habits && db.habits[habitId].userId.Some?
    requires db.habits[habitId].userId.value in db.progress
    requires db.progress[db.habits[habitId].userId.value].totalPoints + points >= 0
    ensures var p := AwardPoints(db, habitId, points).progress[db.habits[habitId].userId.value];
            (p.level - 1) * 100 <= p.totalPoints < p.level * 100
  {
  }

  /** A user's first award inserts level 1 whatever the points, so the level
      is the band of the total only when the award is below 100. */
  lemma FirstAwardLevel(db: Db, habitId: int, points: int)
    requires habitId in db.habits && db.habits[habitId].userId.Some?
    requires db.habits[habitId].userId.value !in db.progress
    requires points >= 0
    ensures var p := AwardPoints(db, habitId, points).progress[db.habits[habitId].userId.value];
            p.level == 1 && ((p.level - 1) * 100 <= p.totalPoints < p.level * 100 <==> points < 100)
  {
  }

  /** A habit with a NULL owner never accumulates progress: two awards leave
      the keyed rows alone and insert two separate rows at level 1, where an
      owned habit's second award adds to the first. */
  lemma {:induction false} NullOwnerRowsApart(db: Db, habitId: int, a: int, b: int)
    requires habitId in db.habits && db.habits[habitId].userId.None?
    ensures var r := AwardPoints(AwardPoints(db, habitId, a), habitId, b);
            && r.progress == db.progress
            && r.unowned == db.unowned + [ProgressRow(a, 1), ProgressRow(b, 1)]
  {
    var r1 := AwardPoints(db, habitId, a);
    assert habitId in r1.habits && r1.habits[habitId].userId.None?;
    assert r1.unowned + [ProgressRow(b, 1)] == db.unowned + [ProgressRow(a, 1), ProgressRow(b, 1)];
  }

  /** The server level and the client level `Math.floor(total / 100) + 1`
      agree on every non-negative total; below zero truncation and flooring
      part ways, first at -1. */
  lemma LevelsAgree(total: int)
    ensures total >= 0 ==> SqlDiv(total, 100) + 1 == HabitProgress.LevelFor(total)
    ensures SqlDiv(-1, 100) + 1 == 1 && HabitProgress.LevelFor(-1) == 0
  {
  }

  /** The client's streak row read as the server's. */
  function AsServerRow(row: HabitProgress.StreakRow): StreakRow {
    StreakRow(row.currentStreak, row.longestStreak, row.lastCompleted)
  }

  /** Both copies of the transition give the same row for every stored row
      and every logged date. */
  lemma StreakTransitionsAgree(row: HabitProgress.StreakRow, date: Date)
    requires HabitProgress.RowDateValid(row) && Valid(date)
    ensures NextRow(AsServerRow(row), date) == AsServerRow(HabitProgress.NextStreak(row, date))
  {
  }

  /** The client's log rows read as the server's table: with one row per
      (habit, date), each key maps to its row's completion flag. */
  function LogTable(logs: seq<CompletionLog>): (t: map<(int, Date), bool>)
    ensures forall l :: l in logs ==> (l.habitId, l.date) in t
    ensures forall k :: k in t ==> exists l :: l in logs && (l.habitId, l.date) == k
  {
    if |logs| == 0 then map[]
    else
      var rest := LogTable(logs[1..]);
      assert forall l :: l in logs ==> l == logs[0] || l in logs[1..];
      rest[(logs[0].habitId, logs[0].date) := logs[0].completed]
  }

  lemma {:induction false} LogTableRow(logs: seq<CompletionLog>, i: nat)
    requires HabitProgress.OneRowPerDay(logs) && i < |logs|
    ensures LogTable(logs)[(logs[i].habitId, logs[i].date)] == logs[i].completed
  {
    if i > 0 {
      LogTableRow(logs[1..], i - 1);
    }
  }

  /** The client's upsert and the server's `ON CONFLICT` update build the
      same table. */
  lemma UpsertsAgree(logs: seq<CompletionLog>, habitId: int, date: Date, completed: bool)
    requires HabitProgress.OneRowPerDay(logs)
    ensures LogTable(HabitProgress.UpsertLog(logs, habitId, date, completed))
         == LogTable(logs)[(habitId, date) := completed]
  {
    var a := LogTable(HabitProgress.UpsertLog(logs, habitId, date, completed));
    var b := LogTable(logs)[(habitId, date) := completed];
    forall k | k in a || k in b
      ensures k in a && k in b && a[k] == b[k]
    {
      UpsertKey(logs, habitId, date, completed, k);
    }
    MapExt(a, b);
  }

  lemma MapExt(a: map<(int, Date), bool>, b: map<(int, Date), bool>)
    requires forall k :: k in a || k in b ==> k in a && k in b && a[k] == b[k]
    ensures a == b
  {
    assert a.Keys == b.Keys;
  }

  lemma UpsertKey(logs: seq<CompletionLog>, habitId: int, date: Date, completed: bool, k: (int, Date))
    requires HabitProgress.OneRowPerDay(logs)
    ensures var a := LogTable(HabitProgress.UpsertLog(logs, habitId, date, completed));
            var b := LogTable(logs)[(habitId, date) := completed];
            (k in a <==> k in b) && (k in a ==> a[k] == b[k])
  {
    UpsertKeyKept(logs, habitId, date, completed, k);
    UpsertKeyFound(logs, habitId, date, completed, k);
  }

  /** A key the upsert table holds is in the updated table, with its value. */
  lemma UpsertKeyKept(logs: seq<CompletionLog>, habitId: int, date: Date, completed: bool, k: (int, Date))
    requires HabitProgress.OneRowPerDay(logs)
    ensures var a := LogTable(HabitProgress.UpsertLog(logs, habitId, date, completed));
            var b := LogTable(logs)[(habitId, date) := completed];
            k in a ==> k in b && a[k] == b[k]
  {
    if k == (habitId, date) {
      UpsertedKey(logs, habitId, date, completed);
    } else {
      OtherKey(logs, habitId, date, completed, k);
    }
  }

  /** The upserted key holds the new flag. */
  lemma UpsertedKey(logs: seq<CompletionLog>, habitId: int, date: Date, completed: bool)
    requires HabitProgress.OneRowPerDay(logs)
    ensures var a := LogTable(HabitProgress.UpsertLog(logs, habitId, date, completed));
            (habitId, date) in a && a[(habitId, date)] == completed
  {
    var r := HabitProgress.UpsertLog(logs, habitId, date, completed);
    var i :| 0 <= i < |r| && r[i] == CompletionLog(habitId, date, completed);
    LogTableRow(r, i);
  }

  /** Any other key keeps the flag of its row. */
  lemma OtherKey(logs: seq<CompletionLog>, habitId: int, date: Date, completed: bool, k: (int, Date))
    requires HabitProgress.OneRowPerDay(logs) && k != (habitId, date)
    ensures var a := LogTable(HabitProgress.UpsertLog(logs, habitId, date, completed));
            k in a ==> k in LogTable(logs) && a[k] == LogTable(logs)[k]
  {
    var r := HabitProgress.UpsertLog(logs, habitId, date, completed);
    if k in LogTable(r) {
      var l :| l in r && (l.habitId, l.date) == k;
      var i :| 0 <= i < |r| && r[i] == l;
      var j :| 0 <= j < |logs| && logs[j] == l;
      LogTableRow(r, i);
      LogTableRow(logs, j);
    }
  }

  /** A key of the updated table is in the upsert table. */
  lemma UpsertKeyFound(logs: seq<CompletionLog>, habitId: int, date: Date, completed: bool, k: (int, Date))
    requires HabitProgress.OneRowPerDay(logs)
    ensures var a := LogTable(HabitProgress.UpsertLog(logs, habitId, date, completed));
            var b := LogTable(logs)[(habitId, date) := completed];
            k in b ==> k in a
  {
    var r := HabitProgress.UpsertLog(logs, habitId, date, completed);
    if k != (habitId, date) && k in LogTable(logs) {
      var l :| l in logs && (l.habitId, l.date) == k;
      assert l in r;
    }
  }
}

=== FILE: backup_restore.dfy ===
/** Exporting the two backup files and importing them again: which records
    come back, and what changes on the way. */
module BackupRestore {
  import opened Wrappers
  import opened Text
  import opened Records
  import opened CsvImport
  import opened CsvExport
  import opened CsvBackup

  /** A habit the exporter writes in a form the importer reads back: no
      quote inside a quoted field, and a title that is not blank. */
  predicate HabitExportable(h: BackupHabit) {
    && '"' !in h.title && '"' !in h.cue && '"' !in h.tinyVersion
    && '"' !in h.temptationBundle.GetOr("")
    && !IsBlank(h.title)
  }

  /** A log the exporter writes in a form the importer reads back: date and
      type are bare cells, so neither may hold a delimiter or a quote, and
      the date is not empty. */
  predicate LogExportable(l: BackupLog) {
    PlainText(l.date) && PlainText(l.kind) && l.date != ""
  }

  /** An optional number after export and import. */
  function NumberCell(n: Option<nat>): NumCell {
    match n
    case None => Absent
    case Some(k) => Num(k)
  }

  /** The habit the importer rebuilds: the same text fields, an empty
      bundle read as no bundle, and the defaults for the fields the file
      does not carry. */
  function RestoredHabit(h: BackupHabit): ImportedHabit {
    ImportedHabit(
      NumberCell(h.id), h.title, h.cue, h.tinyVersion,
      if h.temptationBundle.GetOr("") == "" then None else h.temptationBundle,
      Daily, false, false)
  }

  function RestoredLog(l: BackupLog): ImportedLog {
    ImportedLog(NumberCell(l.id), Num(l.habitId), l.date, l.kind, NumberCell(l.value))
  }

  function RestoredHabits(hs: seq<BackupHabit>): (r: seq<ImportedHabit>)
    ensures |r| == |hs| && forall i :: 0 <= i < |hs| ==> r[i] == RestoredHabit(hs[i])
  {
    seq(|hs|, i requires 0 <= i < |hs| => RestoredHabit(hs[i]))
  }

  function RestoredLogs(ls: seq<BackupLog>): (r: seq<ImportedLog>)
    ensures |r| == |ls| && forall i :: 0 <= i < |ls| ==> r[i] == RestoredLog(ls[i])
  {
    seq(|ls|, i requires 0 <= i < |ls| => RestoredLog(ls[i]))
  }

  lemma DigitsArePlain(s: string)
    requires AllDigits(s)
    ensures PlainText(s)
  {
  }

  /** The characters an exported time stamp is made of. */
  predicate StampChars(s: string) {
    forall i :: 0 <= i < |s| ==> IsDigit(s[i]) || s[i] == '-' || s[i] == ' ' || s[i] == ':'
  }

  lemma StampCharsConcat(a: string, b: string)
    requires StampChars(a) && StampChars(b)
    ensures StampChars(a + b)
  {
    forall i | 0 <= i < |a + b|
      ensures IsDigit((a + b)[i]) || (a + b)[i] == '-' || (a + b)[i] == ' ' || (a + b)[i] == ':'
    {
      if i >= |a| {
        assert (a + b)[i] == b[i - |a|];
      }
    }
  }

  /** An exported time stamp holds only digits, dashes, a space and
      colons, so it never needs escaping. */
  lemma StampIsPlain(v: Stamp)
    ensures PlainText(FormatDateTime(v))
  {
    var r := FormatDateTime(v);
    if v.At? {
      var y := YearText(v.year);
      assert StampChars(y) by {
        if v.year < 0 {
          assert forall i :: 1 <= i < |y| ==> y[1..][i - 1] == y[i];
        }
      }
      StampCharsConcat(y, "-");
      StampCharsConcat(y + "-", Pad2(v.month));
      StampCharsConcat(y + "-" + Pad2(v.month), "-");
      StampCharsConcat(y + "-" + Pad2(v.month) + "-", Pad2(v.day));
      StampCharsConcat(y + "-" + Pad2(v.month) + "-" + Pad2(v.day), " ");
      StampCharsConcat(y + "-" + Pad2(v.month) + "-" + Pad2(v.day) + " ", Pad2(v.hour));
      StampCharsConcat(y + "-" + Pad2(v.month) + "-" + Pad2(v.day) + " " + Pad2(v.hour), ":");
      StampCharsConcat(y + "-" + Pad2(v.month) + "-" + Pad2(v.day) + " " + Pad2(v.hour) + ":", Pad2(v.minute));
      StampCharsConcat(y + "-" + Pad2(v.month) + "-" + Pad2(v.day) + " " + Pad2(v.hour) + ":" + Pad2(v.minute), ":");
      StampCharsConcat(y + "-" + Pad2(v.month) + "-" + Pad2(v.day) + " " + Pad2(v.hour) + ":" + Pad2(v.minute) + ":", Pad2(v.second));
    }
    if !PlainText(r) {
      var i :| 0 <= i < |r| && r[i] in "\",\n\r";
    }
  }

  /** The exported habit row's values, in column order. */
  lemma HabitValues(h: BackupHabit)
    ensures Values(HabitCells(h))
         == [OptionalNumber(h.id), h.title, h.cue, h.tinyVersion, h.temptationBundle.GetOr(""), FormatDateTime(h.createdAt)]
  {
  }

  lemma LogValues(l: BackupLog)
    ensures Values(LogCells(l))
         == [OptionalNumber(l.id), NatToDecimal(l.habitId), l.date, l.kind, OptionalNumber(l.value), FormatDateTime(l.createdAt)]
  {
  }

  lemma OptionalNumberIsPlain(n: Option<nat>)
    ensures PlainText(OptionalNumber(n))
  {
    if n.Some? {
      DigitsArePlain(NatToDecimal(n.value));
    }
  }

  /** A row of writable cells with one cell that is not blank. */
  lemma RowOkOf(cells: seq<CsvCell>, k: nat)
    requires forall i :: 0 <= i < |cells| ==> CellOk(cells[i])
    requires k < |cells| && Trim(cells[k].text) != ""
    ensures RowOk(cells)
  {
    assert Trim(Values(cells)[k]) != "";
  }

  lemma HabitRowOk(h: BackupHabit)
    requires HabitExportable(h)
    ensures RowOk(HabitCells(h))
  {
    var cells := HabitCells(h);
    HabitCellsOk(h);
    assert Trim(cells[1].text) != "";
    RowOkOf(cells, 1);
  }

  lemma HabitCellsOk(h: BackupHabit)
    requires HabitExportable(h)
    ensures forall i :: 0 <= i < |HabitCells(h)| ==> CellOk(HabitCells(h)[i])
  {
    OptionalNumberIsPlain(h.id);
    StampIsPlain(h.createdAt);
    SixCellsOk(Bare(OptionalNumber(h.id)), Quoted(h.title), Quoted(h.cue), Quoted(h.tinyVersion),
               Quoted(h.temptationBundle.GetOr("")), Quoted(FormatDateTime(h.createdAt)));
  }

  lemma LogRowOk(l: BackupLog)
    requires LogExportable(l)
    ensures RowOk(LogCells(l))
  {
    LogCellsOk(l);
    IdCellRow(LogCells(l), l.habitId);
  }

  /** Writable cells whose second is a habit id make a row the scanner
      keeps. */
  lemma IdCellRow(cells: seq<CsvCell>, n: nat)
    requires forall i :: 0 <= i < |cells| ==> CellOk(cells[i])
    requires |cells| > 1 && cells[1] == Bare(NatToDecimal(n))
    ensures RowOk(cells)
  {
    HabitIdCellOk(n);
    RowOkOf(cells, 1);
  }

  lemma LogCellsOk(l: BackupLog)
    requires LogExportable(l)
    ensures forall i :: 0 <= i < |LogCells(l)| ==> CellOk(LogCells(l)[i])
  {
    OptionalNumberIsPlain(l.id);
    OptionalNumberIsPlain(l.value);
    HabitIdCellOk(l.habitId);
    StampIsPlain(l.createdAt);
    SixCellsOk(Bare(OptionalNumber(l.id)), Bare(NatToDecimal(l.habitId)), Bare(l.date), Bare(l.kind),
               Bare(OptionalNumber(l.value)), Quoted(FormatDateTime(l.createdAt)));
  }

  /** The habit id is written as bare digits: a writable cell that is not
      blank. */
  lemma HabitIdCellOk(n: nat)
    ensures CellOk(Bare(NatToDecimal(n))) && Trim(NatToDecimal(n)) != ""
  {
    var d := NatToDecimal(n);
    DigitsArePlain(d);
    assert !IsBlank(d) by {
      assert IsDigit(d[0]);
    }
  }

  lemma SixCellsOk(c0: CsvCell, c1: CsvCell, c2: CsvCell, c3: CsvCell, c4: CsvCell, c5: CsvCell)
    requires CellOk(c0) && CellOk(c1) && CellOk(c2) && CellOk(c3) && CellOk(c4) && CellOk(c5)
    ensures forall i :: 0 <= i < 6 ==> CellOk([c0, c1, c2, c3, c4, c5][i])
  {
  }

  /** Letters and spaces only, as in every column name. */
  predicate Letters(s: string) {
    forall i :: 0 <= i < |s| ==> 'A' <= s[i] <= 'Z' || 'a' <= s[i] <= 'z' || s[i] == ' '
  }

  predicate Tidy(s: string) {
    |s| > 0 && !IsSpace(s[0]) && !IsSpace(s[|s| - 1])
  }

  lemma ColumnNames()
    ensures forall k :: 0 <= k < |HabitColumns| ==> Letters(HabitColumns[k]) && Tidy(HabitColumns[k])
    ensures forall k :: 0 <= k < |LogColumns| ==> Letters(LogColumns[k]) && Tidy(LogColumns[k]) && |LogColumns[k]| != 3
  {
    HabitColumnNames();
    LogColumnNames();
  }

  lemma HabitColumnNames()
    ensures forall k :: 0 <= k < |HabitColumns| ==> Letters(HabitColumns[k]) && Tidy(HabitColumns[k])
  {
    forall k | 0 <= k < |HabitColumns|
      ensures Letters(HabitColumns[k]) && Tidy(HabitColumns[k])
    {
      HabitNameOk(HabitColumns[k]);
    }
  }

  lemma LogColumnNames()
    ensures forall k :: 0 <= k < |LogColumns| ==> Letters(LogColumns[k]) && Tidy(LogColumns[k]) && |LogColumns[k]| != 3
  {
    forall k | 0 <= k < |LogColumns|
      ensures Letters(LogColumns[k]) && Tidy(LogColumns[k]) && |LogColumns[k]| != 3
    {
      LogNameOk(LogColumns[k]);
    }
  }

  /** Every column name is made of letters and spaces, with a letter at
      each end. */
  lemma HabitNameOk(name: string)
    requires name in HabitColumns
    ensures Letters(name) && Tidy(name)
  {
  }

  lemma LogNameOk(name: string)
    requires name in LogColumns
    ensures Letters(name) && Tidy(name)
  {
  }

  /** A header of tidy letter-only names is a row the scanner reads back. */
  lemma HeaderOk(names: seq<string>)
    requires |names| > 0 && forall k :: 0 <= k < |names| ==> Letters(names[k]) && Tidy(names[k])
    ensures RowOk(HeaderRow(names))
  {
    var cells := HeaderRow(names);
    forall k | 0 <= k < |cells| ensures CellOk(cells[k]) {
      assert forall c :: c in names[k] ==> 'A' <= c <= 'Z' || 'a' <= c <= 'z' || c == ' ';
    }
    TrimUnchanged(names[0]);
    RowOkOf(cells, 0);
  }

  lemma HeadersOk()
    ensures RowOk(HabitsHeader) && RowOk(LogsHeader)
  {
    ColumnNames();
    HeaderOk(HabitColumns);
    HeaderOk(LogColumns);
  }

  lemma HabitTableOk(hs: seq<BackupHabit>)
    requires forall i :: 0 <= i < |hs| ==> HabitExportable(hs[i])
    ensures forall i :: 0 <= i < |HabitTable(hs)| ==> RowOk(HabitTable(hs)[i])
  {
    var rows := HabitTable(hs);
    HeadersOk();
    forall i | 0 <= i < |rows| ensures RowOk(rows[i]) {
      if i > 0 {
        HabitRowOk(hs[i - 1]);
      }
    }
  }

  lemma LogTableOk(ls: seq<BackupLog>)
    requires forall i :: 0 <= i < |ls| ==> LogExportable(ls[i])
    ensures forall i :: 0 <= i < |LogTable(ls)| ==> RowOk(LogTable(ls)[i])
  {
    var rows := LogTable(ls);
    HeadersOk();
    forall i | 0 <= i < |rows| ensures RowOk(rows[i]) {
      if i > 0 {
        LogRowOk(ls[i - 1]);
      }
    }
  }

  /** An exported file reads back as its table's cell values. */
  lemma FileRows(rows: seq<seq<CsvCell>>)
    requires forall i :: 0 <= i < |rows| ==> RowOk(rows[i])
    ensures RowsOf(AddBom(Body(rows))) == ValueRows(rows)
  {
    BomRoundTrip(Body(rows));
    ParseBody(rows);
  }

  /** A trimmed, lower-cased header cell, for a cell with no space at
      either end. */
  lemma HeaderKey(s: string, t: string)
    requires |s| > 0 && !IsSpace(s[0]) && !IsSpace(s[|s| - 1])
    requires |s| == |t| && forall i :: 0 <= i < |s| ==> ToLowerChar(s[i]) == t[i]
    ensures ToLower(Trim(s)) == t
  {
    TrimUnchanged(s);
  }

  lemma KeyLengths(rows: seq<seq<string>>)
    requires |rows| > 0 && forall k :: 0 <= k < |rows[0]| ==> Tidy(rows[0][k])
    ensures forall k :: 0 <= k < |rows[0]| ==> |Header(rows)[k]| == |rows[0][k]|
  {
    forall k | 0 <= k < |rows[0]| ensures |Header(rows)[k]| == |rows[0][k]| {
      TrimUnchanged(rows[0][k]);
    }
  }

  lemma HabitsKind(rows: seq<seq<string>>)
    requires |rows| > 0 && |rows[0]| > 2 && rows[0][1] == "Title" && rows[0][2] == "Cue"
    ensures Classify(rows) == HabitsFile
  {
    TitleKey();
    CueKey();
    var h := Header(rows);
    assert h[1] == "title" && h[2] == "cue";
  }

  /** No header key of the logs file is `cue`, so it is not taken for the
      habits file. */
  lemma LogsKind(rows: seq<seq<string>>)
    requires |rows| > 0 && |rows[0]| > 2 && rows[0][1] == "Habit ID" && rows[0][2] == "Date"
    requires forall k :: 0 <= k < |rows[0]| ==> Tidy(rows[0][k]) && |rows[0][k]| != 3
    ensures Classify(rows) == LogsFile
  {
    HabitIdKey();
    DateKey();
    var h := Header(rows);
    assert h[1] == "habit id" && h[2] == "date";
    NoCueKey(rows);
  }

  /** A header whose column names are tidy and none three letters long has
      no `cue` key. */
  lemma NoCueKey(rows: seq<seq<string>>)
    requires |rows| > 0
    requires forall k :: 0 <= k < |rows[0]| ==> Tidy(rows[0][k]) && |rows[0][k]| != 3
    ensures "cue" !in Header(rows)
  {
    KeyLengths(rows);
  }

  lemma TitleKey()
    ensures ToLower(Trim("Title")) == "title"
  {
    HeaderKey("Title", "title");
  }

  lemma CueKey()
    ensures ToLower(Trim("Cue")) == "cue"
  {
    HeaderKey("Cue", "cue");
  }

  lemma HabitIdKey()
    ensures ToLower(Trim("Habit ID")) == "habit id"
  {
    HeaderKey("Habit ID", "habit id");
  }

  lemma DateKey()
    ensures ToLower(Trim("Date")) == "date"
  {
    HeaderKey("Date", "date");
  }

  lemma HeaderValues(names: seq<string>)
    ensures Values(HeaderRow(names)) == names
  {
  }

  /** The exported habits file reads back as the habit table's values. */
  lemma HabitsCsvRows(hs: seq<BackupHabit>)
    requires forall i :: 0 <= i < |hs| ==> HabitExportable(hs[i])
    ensures RowsOf(HabitsCsv(hs)) == ValueRows(HabitTable(hs))
  {
    HabitTableOk(hs);
    FileRows(HabitTable(hs));
  }

  lemma LogsCsvRows(ls: seq<BackupLog>)
    requires forall i :: 0 <= i < |ls| ==> LogExportable(ls[i])
    ensures RowsOf(LogsCsv(ls)) == ValueRows(LogTable(ls))
  {
    LogTableOk(ls);
    FileRows(LogTable(ls));
  }

  /** The exported habits file is recognised as the habits file. */
  lemma HabitsCsvKind(hs: seq<BackupHabit>)
    requires forall i :: 0 <= i < |hs| ==> HabitExportable(hs[i])
    ensures KindOf(HabitsCsv(hs)) == HabitsFile
  {
    var rows := ValueRows(HabitTable(hs));
    HabitsCsvRows(hs);
    HeaderValues(HabitColumns);
    assert rows[0] == HabitColumns;
    HabitsKind(rows);
  }

  /** The exported logs file is recognised as the logs file. */
  lemma LogsCsvKind(ls: seq<BackupLog>)
    requires forall i :: 0 <= i < |ls| ==> LogExportable(ls[i])
    ensures KindOf(LogsCsv(ls)) == LogsFile
  {
    var rows := ValueRows(LogTable(ls));
    LogsCsvRows(ls);
    HeaderValues(LogColumns);
    assert rows[0] == LogColumns;
    ColumnNames();
    LogsKind(rows);
  }

  /** An exported optional number reads back as the same number, or as
      absent. */
  lemma NumberCellReadsBack(n: Option<nat>)
    ensures NumberOrAbsent(Some(OptionalNumber(n))) == NumberCell(n)
  {
    if n.Some? {
      DecimalRoundTrip(n.value);
    }
  }

  lemma DigitsReadBack(k: nat)
    ensures NumberOf(NatToDecimal(k)) == Num(k)
  {
    DecimalRoundTrip(k);
  }

  /** An exported habit row is kept and rebuilds the restored habit. */
  lemma HabitRowReadsBack(h: BackupHabit)
    requires HabitExportable(h)
    ensures KeepsHabitRow(Values(HabitCells(h)))
    ensures HabitOfRow(Values(HabitCells(h))) == RestoredHabit(h)
  {
    HabitValues(h);
    var bundle := h.temptationBundle.GetOr("");
    assert h.title != "" by {
      assert !IsBlank(h.title);
    }
    assert RestoredHabit(h)
        == ImportedHabit(NumberCell(h.id), h.title, h.cue, h.tinyVersion,
                         if bundle == "" then None else Some(bundle), Daily, false, false);
    HabitOfSix(OptionalNumber(h.id), h.title, h.cue, h.tinyVersion, bundle, FormatDateTime(h.createdAt));
    StripPlain(h.title);
    StripPlain(h.cue);
    StripPlain(h.tinyVersion);
    StripPlain(bundle);
    NumberCellReadsBack(h.id);
  }

  /** A six-cell habit row with a title. */
  lemma HabitOfSix(a: string, b: string, c: string, d: string, e: string, f: string)
    requires b != ""
    ensures KeepsHabitRow([a, b, c, d, e, f])
    ensures HabitOfRow([a, b, c, d, e, f])
         == ImportedHabit(NumberOrAbsent(Some(a)), StripQuotes(b), StripQuotes(c), StripQuotes(d),
                          if StripQuotes(e) == "" then None else Some(StripQuotes(e)), Daily, false, false)
  {
  }

  /** An exported log row is kept and rebuilds the restored log. */
  lemma LogRowReadsBack(l: BackupLog)
    requires LogExportable(l)
    ensures KeepsLogRow(Values(LogCells(l)))
    ensures LogOfRow(Values(LogCells(l))) == Some(RestoredLog(l))
  {
    LogValues(l);
    var d := NatToDecimal(l.habitId);
    LogOfSix(OptionalNumber(l.id), d, l.date, l.kind, OptionalNumber(l.value), FormatDateTime(l.createdAt));
    StripPlain(l.date);
    StripPlain(l.kind);
    NumberCellReadsBack(l.id);
    NumberCellReadsBack(l.value);
    DigitsReadBack(l.habitId);
  }

  /** A six-cell log row with a habit id and a date. */
  lemma LogOfSix(a: string, b: string, c: string, d: string, e: string, f: string)
    requires b != "" && c != ""
    ensures KeepsLogRow([a, b, c, d, e, f])
    ensures LogOfRow([a, b, c, d, e, f])
         == Some(ImportedLog(NumberOrAbsent(Some(a)), NumberOf(b), StripQuotes(c), StripQuotes(d), NumberOrAbsent(Some(e))))
  {
  }

  /** Text without a quote character is not changed by `stripQuotes`. */
  lemma StripPlain(v: string)
    requires '"' !in v
    ensures StripQuotes(v) == v
  {
  }

  lemma {:induction false} HabitRecordsReadBack(rows: seq<seq<string>>, hs: seq<BackupHabit>)
    requires |rows| == |hs|
    requires forall i :: 0 <= i < |hs| ==> HabitExportable(hs[i]) && rows[i] == Values(HabitCells(hs[i]))
    ensures HabitRecords(rows) == RestoredHabits(hs)
  {
    if |rows| > 0 {
      HabitRecordsReadBack(rows[1..], hs[1..]);
      HabitRecordsStep(rows, hs);
    }
  }

  lemma HabitRecordsStep(rows: seq<seq<string>>, hs: seq<BackupHabit>)
    requires |rows| == |hs| > 0 && HabitExportable(hs[0]) && rows[0] == Values(HabitCells(hs[0]))
    requires HabitRecords(rows[1..]) == RestoredHabits(hs[1..])
    ensures HabitRecords(rows) == RestoredHabits(hs)
  {
    HabitRowReadsBack(hs[0]);
    HabitRecordsCons(rows);
    RestoredHabitsCons(hs);
  }

  lemma RestoredHabitsCons(hs: seq<BackupHabit>)
    requires |hs| > 0
    ensures RestoredHabits(hs) == [RestoredHabit(hs[0])] + RestoredHabits(hs[1..])
  {
  }

  lemma HabitRecordsCons(rows: seq<seq<string>>)
    requires |rows| > 0 && KeepsHabitRow(rows[0])
    ensures HabitRecords(rows) == [HabitOfRow(rows[0])] + HabitRecords(rows[1..])
  {
  }

  lemma {:induction false} LogRecordsReadBack(rows: seq<seq<string>>, ls: seq<BackupLog>)
    requires |rows| == |ls|
    requires forall i :: 0 <= i < |ls| ==> LogExportable(ls[i]) && rows[i] == Values(LogCells(ls[i]))
    ensures LogRecords(rows) == Some(RestoredLogs(ls))
  {
    if |rows| > 0 {
      LogRecordsReadBack(rows[1..], ls[1..]);
      LogRecordsStep(rows, ls);
    }
  }

  lemma LogRecordsStep(rows: seq<seq<string>>, ls: seq<BackupLog>)
    requires |rows| == |ls| > 0 && LogExportable(ls[0]) && rows[0] == Values(LogCells(ls[0]))
    requires LogRecords(rows[1..]) == Some(RestoredLogs(ls[1..]))
    ensures LogRecords(rows) == Some(RestoredLogs(ls))
  {
    LogRowReadsBack(ls[0]);
    LogRecordsCons(rows, RestoredLog(ls[0]), RestoredLogs(ls[1..]));
    RestoredLogsCons(ls);
  }

  lemma RestoredLogsCons(ls: seq<BackupLog>)
    requires |ls| > 0
    ensures RestoredLogs(ls) == [RestoredLog(ls[0])] + RestoredLogs(ls[1..])
  {
  }

  lemma LogRecordsCons(rows: seq<seq<string>>, l: ImportedLog, rest: seq<ImportedLog>)
    requires |rows| > 0 && KeepsLogRow(rows[0]) && LogOfRow(rows[0]) == Some(l)
    requires LogRecords(rows[1..]) == Some(rest)
    ensures LogRecords(rows) == Some([l] + rest)
  {
  }

  /** Two files of different kinds: each is chosen for its kind. */
  lemma ChooseTwo(files: seq<string>, h: nat, l: nat)
    requires |files| == 2 && h < 2 && l < 2
    requires KindOf(files[h]) == HabitsFile && KindOf(files[l]) == LogsFile
    ensures ChooseFiles(files) == (Some(RowsOf(files[h])), Some(RowsOf(files[l])))
  {
    LastOfTwo(Kinds(files), h, l);
  }

  lemma LastOfTwo(ks: seq<FileKind>, h: nat, l: nat)
    requires |ks| == 2 && h < 2 && l < 2 && ks[h] == HabitsFile && ks[l] == LogsFile
    ensures LastOfKind(ks, HabitsFile) == Some(h) && LastOfKind(ks, LogsFile) == Some(l)
  {
  }

  /** The habit records the importer builds from the exported habits file. */
  lemma HabitsImported(hs: seq<BackupHabit>)
    requires forall i :: 0 <= i < |hs| ==> HabitExportable(hs[i])
    ensures var rows := RowsOf(HabitsCsv(hs));
            (if |rows| > 1 then HabitRecords(rows[1..]) else []) == RestoredHabits(hs)
  {
    var rows := ValueRows(HabitTable(hs));
    HabitsCsvRows(hs);
    HabitRowsAfterHeader(hs);
    HabitRecordsReadBack(rows[1..], hs);
  }

  lemma HabitRowsAfterHeader(hs: seq<BackupHabit>)
    ensures var rows := ValueRows(HabitTable(hs));
            |rows| == |hs| + 1 && forall i :: 0 <= i < |hs| ==> rows[1..][i] == Values(HabitCells(hs[i]))
  {
    var rows := ValueRows(HabitTable(hs));
    assert forall i :: 0 <= i < |hs| ==> rows[1..][i] == rows[i + 1];
  }

  /** The log records the importer builds from the exported logs file. */
  lemma LogsImported(ls: seq<BackupLog>)
    requires forall i :: 0 <= i < |ls| ==> LogExportable(ls[i])
    ensures var rows := RowsOf(LogsCsv(ls));
            (if |rows| > 1 then LogRecords(rows[1..]) else Some([])) == Some(RestoredLogs(ls))
  {
    var rows := ValueRows(LogTable(ls));
    LogsCsvRows(ls);
    LogRowsAfterHeader(ls);
    LogRecordsReadBack(rows[1..], ls);
  }

  lemma LogRowsAfterHeader(ls: seq<BackupLog>)
    ensures var rows := ValueRows(LogTable(ls));
            |rows| == |ls| + 1 && forall i :: 0 <= i < |ls| ==> rows[1..][i] == Values(LogCells(ls[i]))
  {
    var rows := ValueRows(LogTable(ls));
    assert forall i :: 0 <= i < |ls| ==> rows[1..][i] == rows[i + 1];
  }

  /** Importing the two exported files, in either order, replaces the
      tables with the restored habits and logs. */
  lemma BackupRoundTrip(hs: seq<BackupHabit>, ls: seq<BackupLog>)
    requires forall i :: 0 <= i < |hs| ==> HabitExportable(hs[i])
    requires forall i :: 0 <= i < |ls| ==> LogExportable(ls[i])
    ensures ImportFiles([HabitsCsv(hs), LogsCsv(ls)]) == Replaced(RestoredHabits(hs), RestoredLogs(ls))
    ensures ImportFiles([LogsCsv(ls), HabitsCsv(hs)]) == Replaced(RestoredHabits(hs), RestoredLogs(ls))
  {
    HabitsCsvKind(hs);
    LogsCsvKind(ls);
    HabitsImported(hs);
    LogsImported(ls);
    ChooseTwo([HabitsCsv(hs), LogsCsv(ls)], 0, 1);
    ChooseTwo([LogsCsv(ls), HabitsCsv(hs)], 1, 0);
  }
}

=== FILE: celebration.dfy ===
/** Milestone celebrations: which streaks get a message and how strong the
    confetti burst is, and the message shown after logging a completion. */
module Celebration {
  import opened Wrappers
  import opened Text
  import opened Records

  datatype Intensity = Light | Medium | Heavy

  /** `triggerConfetti`'s particle budget; a missing intensity means medium. */
  function ParticleCount(intensity: Option<Intensity>): (n: nat)
    ensures intensity == None ==> n == 100
    ensures n == 50 <==> intensity == Some(Light)
    ensures n == 200 <==> intensity == Some(Heavy)
    ensures n in {50, 100, 200}
  {
    match intensity.GetOr(Medium)
    case Light => 50
    case Medium => 100
    case Heavy => 200
  }

  /** A celebration: the message returned and the burst triggered with it. */
  datatype Cheer = Cheer(message: string, intensity: Intensity)

  const Fire := "\U{1F525}"

  const SevenDays := Fire + " 7-Day Streak! You're building momentum!"
  const ThirtyDays := "\U{1F389} 30-Day Streak! You're unstoppable!"
  const HundredDays := "\U{1F3C6} 100-Day Streak! Legendary dedication!"

  /** The generic message for a multiple of seven. */
  function WeeklyMessage(streak: nat): string {
    Fire + " " + NatToDecimal(streak) + "-Day Streak! Keep it going!"
  }

  /** `celebrateStreakMilestone`: 7, 30 and 100 have their own message and a
      heavy burst, any other positive multiple of 7 the generic message and a
      medium burst, and every other streak (0 included) nothing. */
  function CelebrateStreakMilestone(streak: int): (r: Option<Cheer>)
    ensures r.Some? <==> streak in {7, 30, 100} || (streak > 0 && streak % 7 == 0)
    ensures r.Some? ==> (r.value.intensity == Heavy <==> streak in {7, 30, 100})
    ensures r.Some? ==> r.value.intensity != Light
    ensures r.Some? && r.value.intensity == Medium ==> r.value.message == WeeklyMessage(streak)
  {
    if streak == 7 then Some(Cheer(SevenDays, Heavy))
    else if streak == 30 then Some(Cheer(ThirtyDays, Heavy))
    else if streak == 100 then Some(Cheer(HundredDays, Heavy))
    else if streak > 0 && streak % 7 == 0 then Some(Cheer(WeeklyMessage(streak), Medium))
    else None
  }

  lemma {:induction false} DecimalInjective(a: nat, b: nat)
    requires NatToDecimal(a) == NatToDecimal(b)
    ensures a == b
  {
    DecimalRoundTrip(a);
    DecimalRoundTrip(b);
  }

  /** The generic message names its streak: two different streaks never
      share it. */
  lemma WeeklyMessageInjective(a: nat, b: nat)
    requires WeeklyMessage(a) == WeeklyMessage(b)
    ensures a == b
  {
    var da, db := NatToDecimal(a), NatToDecimal(b);
    var tail := "-Day Streak! Keep it going!";
    var ma, mb := WeeklyMessage(a), WeeklyMessage(b);
    assert ma == Fire + " " + da + tail;
    assert mb == Fire + " " + db + tail;
    assert |da| == |db|;
    assert da == ma[2..2 + |da|];
    assert db == mb[2..2 + |db|];
    DecimalInjective(a, b);
  }

  /** A message celebrates one streak only: from the message returned the
      streak can be told apart from every other celebrated streak. */
  lemma MessagesIdentifyStreak(a: int, b: int)
    requires CelebrateStreakMilestone(a).Some? && CelebrateStreakMilestone(b).Some?
    requires CelebrateStreakMilestone(a).value.message == CelebrateStreakMilestone(b).value.message
    ensures a == b
  {
    var ca, cb := CelebrateStreakMilestone(a).value, CelebrateStreakMilestone(b).value;
    if ca.intensity == Medium && cb.intensity == Medium {
      WeeklyMessageInjective(a, b);
    } else if ca.intensity == Medium {
      WeeklyIsNotSpecial(a);
    } else if cb.intensity == Medium {
      WeeklyIsNotSpecial(b);
    }
  }

  /** No generic message equals one of the three special ones. */
  lemma WeeklyIsNotSpecial(streak: nat)
    requires streak != 7
    ensures WeeklyMessage(streak) !in {SevenDays, ThirtyDays, HundredDays}
  {
    var d := NatToDecimal(streak);
    var m := WeeklyMessage(streak);
    assert m[0] == Fire[0] != ThirtyDays[0] && Fire[0] != HundredDays[0];
    assert m[2..2 + |d|] == d;
    assert SevenDays[2] == '7' && SevenDays[3] == '-';
    if |d| == 1 {
      assert streak < 10 && m[2] == DigitChar(streak) != '7';
    } else {
      assert m[3] == d[1] && IsDigit(m[3]);
    }
  }

  /** `t` occurs in `m` starting at index `i`. */
  predicate OccursAt(m: string, t: string, i: int) {
    0 <= i && i + |t| <= |m| && m[i..i + |t|] == t
  }

  ghost predicate Mentions(m: string, t: string) {
    exists i :: OccursAt(m, t, i)
  }

  /** `getCompletionMessage`: an encouragement naming the habit, worded
      differently for the tiny version. */
  function CompletionMessage(title: string, kind: Kind): (m: string)
    ensures Mentions(m, title)
    ensures |m| > 0 && m[0] == (if kind == Tiny then '\U{2728}' else '\U{1F3AF}')
  {
    var lead := match kind
      case Tiny => "\U{2728} Great start! You did the tiny version of \""
      case Full => "\U{1F3AF} Well done! You completed \"";
    var m := lead + title + "\"";
    assert m[0] == lead[0];
    assert OccursAt(m, title, |m| - |title| - 1);
    m
  }

  /** Different kinds or different titles always give different messages. */
  lemma CompletionMessageInjective(t1: string, k1: Kind, t2: string, k2: Kind)
    requires CompletionMessage(t1, k1) == CompletionMessage(t2, k2)
    ensures t1 == t2 && k1 == k2
  {
    var m := CompletionMessage(t1, k1);
    var n := |m|;
    var p := n - |t1| - 1;
    assert t1 == m[p..n - 1];
    assert t2 == m[p..n - 1];
  }
}

=== FILE: civil_date.dfy ===
/** Civil (proleptic Gregorian) calendar dates, the `YYYY-MM-DD` strings the
    habit tracker stores in every log, and the day arithmetic its streak
    rules need: predecessor, successor, day number, day difference and
    weekday. */
module CivilDate {
  import opened Wrappers
  import opened Text

  datatype Date = Date(year: int, month: int, day: int)

  predicate IsLeap(y: int) {
    y % 4 == 0 && (y % 100 != 0 || y % 400 == 0)
  }

  function DaysInMonth(y: int, m: int): (n: int)
    requires 1 <= m <= 12
    ensures 28 <= n <= 31
  {
    if m == 2 then (if IsLeap(y) then 29 else 28)
    else if m == 4 || m == 6 || m == 9 || m == 11 then 30
    else 31
  }

  predicate Valid(d: Date) {
    1 <= d.month <= 12 && 1 <= d.day <= DaysInMonth(d.year, d.month)
  }

  /** Chronological order: year, then month, then day. */
  predicate Before(a: Date, b: Date) {
    a.year < b.year
    || (a.year == b.year && (a.month < b.month || (a.month == b.month && a.day < b.day)))
  }

  lemma BeforeIsStrictTotalOrder(a: Date, b: Date, c: Date)
    ensures !Before(a, a)
    ensures Before(a, b) ==> !Before(b, a)
    ensures Before(a, b) && Before(b, c) ==> Before(a, c)
    ensures a != b ==> Before(a, b) || Before(b, a)
  {
  }

  /** The calendar day before `d`. */
  function Pred(d: Date): (r: Date)
    requires Valid(d)
    ensures Valid(r) && Before(r, d)
  {
    if d.day > 1 then Date(d.year, d.month, d.day - 1)
    else if d.month > 1 then Date(d.year, d.month - 1, DaysInMonth(d.year, d.month - 1))
    else Date(d.year - 1, 12, 31)
  }

  /** The calendar day after `d`. */
  function Succ(d: Date): (r: Date)
    requires Valid(d)
    ensures Valid(r) && Before(d, r)
  {
    if d.day < DaysInMonth(d.year, d.month) then Date(d.year, d.month, d.day + 1)
    else if d.month < 12 then Date(d.year, d.month + 1, 1)
    else Date(d.year + 1, 1, 1)
  }

  lemma PredSuccInverse(d: Date)
    requires Valid(d)
    ensures Succ(Pred(d)) == d
    ensures Pred(Succ(d)) == d
  {
  }

  /** No valid date lies strictly between `Pred(d)` and `d`. */
  lemma PredIsImmediate(x: Date, d: Date)
    requires Valid(x) && Valid(d) && Before(x, d)
    ensures x == Pred(d) || Before(x, Pred(d))
  {
  }

  function YearLength(y: int): int {
    if IsLeap(y) then 366 else 365
  }

  /** Days from 0000-01-01 to the first day of year `y` (negative before). */
  function DaysBeforeYear(y: int): int
    decreases if y >= 0 then y else -y
  {
    if y == 0 then 0
    else if y > 0 then DaysBeforeYear(y - 1) + YearLength(y - 1)
    else DaysBeforeYear(y + 1) - YearLength(y)
  }

  function DaysBeforeMonth(y: int, m: int): int
    requires 1 <= m <= 12
  {
    var table := [0, 31, 59, 90, 120, 151, 181, 212, 243, 273, 304, 334];
    table[m - 1] + (if m > 2 && IsLeap(y) then 1 else 0)
  }

  /** Day number: 0000-01-01 is day 0. */
  function Ord(d: Date): int
    requires Valid(d)
  {
    DaysBeforeYear(d.year) + DaysBeforeMonth(d.year, d.month) + d.day - 1
  }

  lemma DaysBeforeYearStep(y: int)
    ensures DaysBeforeYear(y + 1) == DaysBeforeYear(y) + YearLength(y)
  {
  }

  lemma {:induction false} DaysBeforeYearMonotone(a: int, b: int)
    requires a < b
    ensures DaysBeforeYear(a) + YearLength(a) <= DaysBeforeYear(b)
    decreases b - a
  {
    DaysBeforeYearStep(a);
    if a + 1 < b {
      DaysBeforeYearMonotone(a + 1, b);
    }
  }

  lemma OrdWithinYear(d: Date)
    requires Valid(d)
    ensures DaysBeforeYear(d.year) <= Ord(d) < DaysBeforeYear(d.year) + YearLength(d.year)
  {
  }

  lemma OrdPred(d: Date)
    requires Valid(d)
    ensures Ord(Pred(d)) == Ord(d) - 1
  {
    if d.day == 1 && d.month == 1 {
      DaysBeforeYearStep(d.year - 1);
    }
  }

  lemma OrdSucc(d: Date)
    requires Valid(d)
    ensures Ord(Succ(d)) == Ord(d) + 1
  {
    PredSuccInverse(d);
    OrdPred(Succ(d));
  }

  /** The day number orders dates exactly as the calendar does. */
  lemma OrdMonotone(a: Date, b: Date)
    requires Valid(a) && Valid(b)
    ensures Before(a, b) <==> Ord(a) < Ord(b)
    ensures a == b <==> Ord(a) == Ord(b)
  {
    OrdWithinYear(a);
    OrdWithinYear(b);
    if a.year < b.year {
      DaysBeforeYearMonotone(a.year, b.year);
    } else if b.year < a.year {
      DaysBeforeYearMonotone(b.year, a.year);
    }
  }

  /** Whole days from `a` to `b`: what both `(b - a).days` in Python and the
      floor of the millisecond difference over 86 400 000 compute for two
      dates at midnight of the same zone. */
  function DayDiff(a: Date, b: Date): int
    requires Valid(a) && Valid(b)
  {
    Ord(b) - Ord(a)
  }

  lemma DayDiffCases(a: Date, b: Date)
    requires Valid(a) && Valid(b)
    ensures DayDiff(a, b) == 1 <==> a == Pred(b)
    ensures DayDiff(a, b) == 0 <==> a == b
    ensures DayDiff(a, b) < 0 <==> Before(b, a)
  {
    OrdPred(b);
    OrdMonotone(a, b);
    OrdMonotone(a, Pred(b));
  }

  /** The date `n` days before `d`. */
  function PredN(d: Date, n: nat): (r: Date)
    requires Valid(d)
    ensures Valid(r) && Ord(r) == Ord(d) - n
  {
    if n == 0 then d else OrdPred(PredN(d, n - 1)); Pred(PredN(d, n - 1))
  }

  /** The date `n` days after `d`. */
  function SuccN(d: Date, n: nat): (r: Date)
    requires Valid(d)
    ensures Valid(r) && Ord(r) == Ord(d) + n
  {
    if n == 0 then d else OrdSucc(SuccN(d, n - 1)); Succ(SuccN(d, n - 1))
  }

  /** Day of the week, 0 = Sunday .. 6 = Saturday (0000-01-01 was a Saturday). */
  function Weekday(d: Date): (w: nat)
    requires Valid(d)
    ensures w < 7
  {
    (Ord(d) + 6) % 7
  }

  lemma WeekdayOfMonday()
    ensures Weekday(Date(1, 1, 1)) == 1
  {
    assert DaysBeforeYear(1) == 366;
  }

  /** `date.toISOString().split('T')[0]`: the zero-padded `YYYY-MM-DD` form. */
  function ToIso(d: Date): (s: string)
    requires Valid(d) && 0 <= d.year <= 9999
    ensures |s| == 10 && s[4] == '-' && s[7] == '-'
  {
    Fixed(d.year, 4) + ("-" + (Fixed(d.month, 2) + ("-" + Fixed(d.day, 2))))
  }

  predicate InIsoRange(d: Date) {
    Valid(d) && 0 <= d.year <= 9999
  }

  /** Reads a `YYYY-MM-DD` string; None unless it names a valid date. */
  function ParseIso(s: string): (r: Option<Date>)
    ensures r.Some? ==> InIsoRange(r.value)
  {
    if |s| == 10 && s[4] == '-' && s[7] == '-'
       && AllDigits(s[..4]) && AllDigits(s[5..7]) && AllDigits(s[8..])
    then
      var d := Date(DecimalValue(s[..4]), DecimalValue(s[5..7]), DecimalValue(s[8..]));
      if Valid(d) && d.year <= 9999 then Some(d) else None
    else None
  }

  lemma {:induction false} FixedOfValue(s: string)
    requires AllDigits(s)
    ensures DecimalValue(s) < Pow10(|s|)
    ensures Fixed(DecimalValue(s), |s|) == s
  {
    if |s| > 0 {
      var p := s[..|s| - 1];
      FixedOfValue(p);
      var v := DecimalValue(s);
      assert v / 10 == DecimalValue(p) && v % 10 == DigitValue(s[|s| - 1]);
      assert s == p + [s[|s| - 1]];
    }
  }

  lemma IsoRoundTrip(d: Date)
    requires InIsoRange(d)
    ensures ParseIso(ToIso(d)) == Some(d)
  {
    var s := ToIso(d);
    assert s[..4] == Fixed(d.year, 4);
    assert s[5..7] == Fixed(d.month, 2);
    assert s[8..] == Fixed(d.day, 2);
    FixedValue(d.year, 4);
    FixedValue(d.month, 2);
    FixedValue(d.day, 2);
  }

  lemma IsoParseRoundTrip(s: string)
    requires ParseIso(s).Some?
    ensures ToIso(ParseIso(s).value) == s
  {
    FixedOfValue(s[..4]);
    FixedOfValue(s[5..7]);
    FixedOfValue(s[8..]);
    assert s == s[..4] + ("-" + (s[5..7] + ("-" + s[8..])));
  }

  /** Distinct dates have distinct ISO strings, so deduplicating the strings
      deduplicates the dates. */
  lemma IsoInjective(a: Date, b: Date)
    requires InIsoRange(a) && InIsoRange(b)
    ensures ToIso(a) == ToIso(b) <==> a == b
  {
    if ToIso(a) == ToIso(b) {
      IsoRoundTrip(a);
      IsoRoundTrip(b);
    }
  }

  /** Sorting the ISO strings by code point sorts the dates chronologically. */
  lemma IsoLexOrderIsChronological(a: Date, b: Date)
    requires InIsoRange(a) && InIsoRange(b)
    ensures LexLess(ToIso(a), ToIso(b)) <==> Before(a, b)
  {
    var da := "-" + Fixed(a.day, 2);
    var db := "-" + Fixed(b.day, 2);
    var ma := Fixed(a.month, 2) + da;
    var mb := Fixed(b.month, 2) + db;
    LexLessFixed(a.day, b.day, 2);
    LexLessConcat("-", Fixed(a.day, 2), "-", Fixed(b.day, 2));
    LexLessIrreflexive("-");
    LexLessFixed(a.month, b.month, 2);
    FixedInjective(a.month, b.month, 2);
    LexLessConcat(Fixed(a.month, 2), da, Fixed(b.month, 2), db);
    LexLessConcat("-", ma, "-", mb);
    LexLessFixed(a.year, b.year, 4);
    FixedInjective(a.year, b.year, 4);
    LexLessConcat(Fixed(a.year, 4), "-" + ma, Fixed(b.year, 4), "-" + mb);
  }
}

=== FILE: csv_backup.dfy ===
/** The exporter and importer as a backup pair: an exported body scans back
    to exactly its cell values, the exported headers are recognised, and
    importing the two exported files rebuilds the records. */
module CsvBackup {
  import opened Wrappers
  import opened Text
  import opened Records
  import opened CsvImport
  import opened CsvExport

  /** Text that can stand in a bare cell. */
  predicate PlainText(v: string) {
    '"' !in v && ',' !in v && '\n' !in v && '\r' !in v
  }

  predicate CellOk(c: CsvCell) {
    match c
    case Bare(t) => PlainText(t)
    case Quoted(t) => '"' !in t
  }

  function Values(cells: seq<CsvCell>): (vs: seq<string>)
    ensures |vs| == |cells|
    ensures forall i :: 0 <= i < |cells| ==> vs[i] == cells[i].text
  {
    seq(|cells|, i requires 0 <= i < |cells| => cells[i].text)
  }

  function ValueRows(rows: seq<seq<CsvCell>>): (vr: seq<seq<string>>)
    ensures |vr| == |rows|
    ensures forall i :: 0 <= i < |rows| ==> vr[i] == Values(rows[i])
  {
    seq(|rows|, i requires 0 <= i < |rows| => Values(rows[i]))
  }

  /** A row the exporter can write and the scanner keeps. */
  predicate RowOk(cells: seq<CsvCell>) {
    |cells| > 0 && (forall i :: 0 <= i < |cells| ==> CellOk(cells[i])) && Keeps(Values(cells))
  }

  lemma {:induction false} BareRun(v: string, rest: string, st: Scanner)
    requires !st.inQuotes && PlainText(v)
    ensures Scan(v + rest, st) == Scan(rest, st.(cell := st.cell + v))
    decreases |v|
  {
    if |v| == 0 {
      assert v + rest == rest && st.cell + v == st.cell;
    } else {
      var s := v + rest;
      assert v[0] in v && s[0] == v[0];
      var next := st.(cell := st.cell + [v[0]]);
      assert Consume(s, st) == (1, next);
      assert s[1..] == v[1..] + rest;
      assert v == [v[0]] + v[1..];
      BareRun(v[1..], rest, next);
      assert next.cell + v[1..] == st.cell + v;
    }
  }

  lemma {:induction false} QuotedRun(v: string, rest: string, st: Scanner)
    requires st.inQuotes && '"' !in v
    ensures Scan(v + rest, st) == Scan(rest, st.(cell := st.cell + v))
    decreases |v|
  {
    if |v| == 0 {
      assert v + rest == rest && st.cell + v == st.cell;
    } else {
      var s := v + rest;
      assert v[0] in v && s[0] == v[0];
      var next := st.(cell := st.cell + [v[0]]);
      assert Consume(s, st) == (1, next);
      assert s[1..] == v[1..] + rest;
      assert v == [v[0]] + v[1..];
      QuotedRun(v[1..], rest, next);
      assert next.cell + v[1..] == st.cell + v;
    }
  }

  /** An unquoted quote opens a quoted section. */
  lemma OpenQuoteStep(tail: string, st: Scanner)
    requires !st.inQuotes
    ensures Scan("\"" + tail, st) == Scan(tail, st.(inQuotes := true))
  {
    assert ("\"" + tail)[1..] == tail;
  }

  /** A quote inside a quoted section, not followed by another, closes it. */
  lemma CloseQuoteStep(rest: string, st: Scanner)
    requires st.inQuotes && (|rest| == 0 || rest[0] != '"')
    ensures Scan("\"" + rest, st) == Scan(rest, st.(inQuotes := false))
  {
    assert ("\"" + rest)[1..] == rest;
  }

  /** A quoted cell is read as its inner text when the character after the
      closing quote is not another quote. */
  lemma QuotedCellScan(t: string, rest: string, st: Scanner)
    requires '"' !in t && !st.inQuotes && (|rest| == 0 || rest[0] != '"')
    ensures Scan("\"" + t + "\"" + rest, st) == Scan(rest, st.(cell := st.cell + t))
  {
    assert "\"" + t + "\"" + rest == "\"" + (t + ("\"" + rest));
    OpenQuoteStep(t + ("\"" + rest), st);
    QuotedRun(t, "\"" + rest, st.(inQuotes := true));
    CloseQuoteStep(rest, st.(inQuotes := true, cell := st.cell + t));
  }

  /** A rendered cell followed by a delimiter or the end adds its value to
      the cell being read. */
  lemma CellScan(c: CsvCell, rest: string, st: Scanner)
    requires CellOk(c) && !st.inQuotes && (|rest| == 0 || rest[0] == ',' || rest[0] == '\n')
    ensures Scan(Render(c) + rest, st) == Scan(rest, st.(cell := st.cell + c.text))
  {
    match c
    case Bare(t) => BareRun(t, rest, st);
    case Quoted(t) => QuotedCellScan(t, rest, st);
  }

  /** An unquoted comma closes the cell. */
  lemma CommaStep(tail: string, st: Scanner)
    requires !st.inQuotes
    ensures Scan("," + tail, st) == Scan(tail, PushCell(st))
  {
    assert ("," + tail)[1..] == tail;
  }

  /** An unquoted line feed closes the cell and the row. */
  lemma NewlineStep(tail: string, st: Scanner)
    requires !st.inQuotes
    ensures Scan("\n" + tail, st) == Scan(tail, PushRow(PushCell(st)))
  {
    assert ("\n" + tail)[1..] == tail;
  }

  lemma RowSplit(cells: seq<CsvCell>, rest: string)
    requires |cells| > 1
    ensures RenderRow(cells) + rest == Render(cells[0]) + ("," + (RenderRow(cells[1..]) + rest))
  {
    assert RenderAll(cells[1..]) == RenderAll(cells)[1..];
  }

  lemma {:induction false} RowScan(cells: seq<CsvCell>, rest: string, st: Scanner)
    requires |cells| > 0 && forall i :: 0 <= i < |cells| ==> CellOk(cells[i])
    requires !st.inQuotes && st.cell == "" && (|rest| == 0 || rest[0] == '\n')
    ensures Scan(RenderRow(cells) + rest, st)
         == Scan(rest, st.(current := st.current + Values(cells)[..|cells| - 1], cell := cells[|cells| - 1].text))
    decreases |cells|
  {
    if |cells| == 1 {
      assert RenderRow(cells) == Render(cells[0]);
      CellScan(cells[0], rest, st);
      assert st.current + Values(cells)[..0] == st.current;
      assert st.cell + cells[0].text == cells[0].text;
    } else {
      RowTail(cells, rest, st);
    }
  }

  lemma {:induction false} RowTail(cells: seq<CsvCell>, rest: string, st: Scanner)
    requires |cells| > 1 && forall i :: 0 <= i < |cells| ==> CellOk(cells[i])
    requires !st.inQuotes && st.cell == "" && (|rest| == 0 || rest[0] == '\n')
    ensures Scan(RenderRow(cells) + rest, st)
         == Scan(rest, st.(current := st.current + Values(cells)[..|cells| - 1], cell := cells[|cells| - 1].text))
    decreases |cells|, 0
  {
    var pushed := st.(current := st.current + [cells[0].text]);
    RowHead(cells, rest, st);
    RowScan(cells[1..], rest, pushed);
    ValuesShift(st.current, cells);
  }

  /** The first cell of a row of several, up to and including its comma. */
  lemma RowHead(cells: seq<CsvCell>, rest: string, st: Scanner)
    requires |cells| > 1 && CellOk(cells[0])
    requires !st.inQuotes && st.cell == ""
    ensures Scan(RenderRow(cells) + rest, st)
         == Scan(RenderRow(cells[1..]) + rest, st.(current := st.current + [cells[0].text]))
  {
    var tail := RenderRow(cells[1..]) + rest;
    var after := st.(cell := cells[0].text);
    RowSplit(cells, rest);
    CellScan(cells[0], "," + tail, st);
    assert st.cell + cells[0].text == cells[0].text;
    CommaStep(tail, after);
  }

  lemma ValuesShift(prefix: seq<string>, cells: seq<CsvCell>)
    requires |cells| > 1
    ensures prefix + [cells[0].text] + Values(cells[1..])[..|cells| - 2] == prefix + Values(cells)[..|cells| - 1]
  {
    assert Values(cells[1..])[..|cells| - 2] == Values(cells)[1..|cells| - 1];
    assert Values(cells)[..|cells| - 1] == [cells[0].text] + Values(cells)[1..|cells| - 1];
  }

  lemma {:induction false} BodyScan(rows: seq<seq<CsvCell>>, st: Scanner)
    requires forall i :: 0 <= i < |rows| ==> RowOk(rows[i])
    requires !st.inQuotes && st.cell == "" && st.current == []
    ensures Finish(Scan(Body(rows), st)) == st.rows + ValueRows(rows)
    decreases |rows|, 1
  {
    if |rows| == 0 {
      assert ValueRows(rows) == [];
    } else {
      if |rows| == 1 {
        LastRowScan(rows, st);
      } else {
        FirstRowThenBody(rows, st);
      }
    }
  }

  lemma {:induction false} FirstRowThenBody(rows: seq<seq<CsvCell>>, st: Scanner)
    requires |rows| > 1 && forall i :: 0 <= i < |rows| ==> RowOk(rows[i])
    requires !st.inQuotes && st.cell == "" && st.current == []
    ensures Finish(Scan(Body(rows), st)) == st.rows + ValueRows(rows)
    decreases |rows|, 0
  {
    var v := Values(rows[0]);
    var closed := st.(rows := st.rows + [v], current := [], cell := "");
    RowLineScan(rows, st);
    BodyScan(rows[1..], closed);
    ValueRowsSplit(st.rows, rows);
  }

  lemma ValueRowsSplit(front: seq<seq<string>>, rows: seq<seq<CsvCell>>)
    requires |rows| > 0
    ensures front + [Values(rows[0])] + ValueRows(rows[1..]) == front + ValueRows(rows)
  {
    assert ValueRows(rows) == [Values(rows[0])] + ValueRows(rows[1..]);
  }

  /** A body of one row: scanning ends inside the row, and flushing it adds
      the row's values. */
  lemma LastRowScan(rows: seq<seq<CsvCell>>, st: Scanner)
    requires |rows| == 1 && RowOk(rows[0])
    requires !st.inQuotes && st.cell == "" && st.current == []
    ensures Finish(Scan(Body(rows), st)) == st.rows + ValueRows(rows)
  {
    assert ValueRows(rows) == [Values(rows[0])];
    assert Body(rows) == RenderRow(rows[0]);
    WholeRowScan(rows[0], st);
    FinishRow(rows[0], st);
  }

  /** A row with nothing after it leaves its last value in the open cell. */
  lemma WholeRowScan(r0: seq<CsvCell>, st: Scanner)
    requires RowOk(r0)
    requires !st.inQuotes && st.cell == "" && st.current == []
    ensures Scan(RenderRow(r0), st) == st.(current := Values(r0)[..|r0| - 1], cell := r0[|r0| - 1].text)
  {
    RowScan(r0, "", st);
    assert RenderRow(r0) + "" == RenderRow(r0);
  }

  /** Flushing at the end of the text keeps a row that is not blank. */
  lemma FinishRow(r0: seq<CsvCell>, st: Scanner)
    requires RowOk(r0) && st.current == []
    ensures Finish(st.(current := Values(r0)[..|r0| - 1], cell := r0[|r0| - 1].text)) == st.rows + [Values(r0)]
  {
    var closed := RowClosed(r0, st);
    var vs := Values(r0);
    assert |r0| == 1 ==> Trim(vs[0]) != "";
  }

  /** The first row of a body of several, up to and including its line
      feed, appends that row's values. */
  lemma RowLineScan(rows: seq<seq<CsvCell>>, st: Scanner)
    requires |rows| > 1 && RowOk(rows[0])
    requires !st.inQuotes && st.cell == "" && st.current == []
    ensures Scan(Body(rows), st)
         == Scan(Body(rows[1..]), st.(rows := st.rows + [Values(rows[0])], current := [], cell := ""))
  {
    BodySplit(rows);
    RowThenLine(rows[0], Body(rows[1..]), st);
  }

  /** A row and its line feed, followed by anything. */
  lemma RowThenLine(r0: seq<CsvCell>, rest: string, st: Scanner)
    requires RowOk(r0)
    requires !st.inQuotes && st.cell == "" && st.current == []
    ensures Scan(RenderRow(r0) + ("\n" + rest), st)
         == Scan(rest, st.(rows := st.rows + [Values(r0)], current := [], cell := ""))
  {
    var n := |r0|;
    var front := Values(r0)[..n - 1];
    var last := st.(current := front, cell := r0[n - 1].text);
    var closed := RowClosed(r0, st);
    RowScan(r0, "\n" + rest, st);
    assert st.current + front == front;
    NewlineStep(rest, last);
  }

  /** Closing an exported row's last cell appends the row's values. */
  lemma RowClosed(r0: seq<CsvCell>, st: Scanner) returns (closed: Scanner)
    requires RowOk(r0) && st.current == []
    ensures var vs := Values(r0);
            PushRow(PushCell(st.(current := vs[..|r0| - 1], cell := r0[|r0| - 1].text)))
              == st.(rows := st.rows + [vs], current := [], cell := "")
    ensures closed == st.(rows := st.rows + [Values(r0)], current := [], cell := "")
  {
    var vs := Values(r0);
    var open := st.(current := vs[..|r0| - 1], cell := r0[|r0| - 1].text);
    assert vs[..|r0| - 1] + [vs[|r0| - 1]] == vs;
    assert PushCell(open) == Scanner(st.rows, vs, "", st.inQuotes);
    assert Keeps(vs);
    closed := st.(rows := st.rows + [vs], current := [], cell := "");
    assert PushRow(PushCell(open)) == closed;
  }

  lemma BodySplit(rows: seq<seq<CsvCell>>)
    requires |rows| > 1
    ensures Body(rows) == RenderRow(rows[0]) + ("\n" + Body(rows[1..]))
  {
    assert RenderRows(rows[1..]) == RenderRows(rows)[1..];
  }

  /** Scanning an exported body gives back exactly the cell values, quotes
      removed, row by row. */
  lemma ParseBody(rows: seq<seq<CsvCell>>)
    requires forall i :: 0 <= i < |rows| ==> RowOk(rows[i])
    ensures ParseCsv(Body(rows)) == ValueRows(rows)
  {
    BodyScan(rows, Start);
  }

  lemma BomRoundTrip(csv: string)
    ensures StripBom(AddBom(csv)) == csv
  {
  }
}

=== FILE: csv_export.dfy ===
/** The backup exporter: the `Y-MM-DD HH:mm:ss` time stamps and the two CSV
    bodies, each behind a byte-order mark. */
module CsvExport {
  import opened Wrappers
  import opened Text

  /** What `formatDateTime` receives, after JavaScript turned it into a date:
      nothing (a falsy value), something that is not a valid date, or the
      local calendar fields of a valid one. */
  datatype Stamp = NoValue | Unparseable | At(year: int, month: nat, day: nat, hour: nat, minute: nat, second: nat)

  predicate FieldsInRange(v: Stamp) {
    v.At? && 1 <= v.month <= 12 && 1 <= v.day <= 31 && v.hour < 24 && v.minute < 60 && v.second < 60
  }

  /** `n.toString().padStart(2, '0')`. */
  function Pad2(n: nat): (s: string)
    ensures n < 100 ==> s == Fixed(n, 2)
    ensures AllDigits(s)
  {
    var s := PadStart(NatToDecimal(n), 2, '0');
    assert AllDigits(s) by {
      var d := NatToDecimal(n);
      forall i | 0 <= i < |s| ensures IsDigit(s[i]) {
        if |d| < 2 && i >= 2 - |d| {
          assert s[i] == s[2 - |d|..][i - (2 - |d|)] == d[i - (2 - |d|)];
        }
      }
    }
    assert n < 100 ==> s == Fixed(n, 2) by {
      if n < 100 {
        assert Pow10(2) == 100;
        PadDecimalIsFixed(n, 2);
      }
    }
    s
  }

  /** `${y}` for an integer year. */
  function YearText(y: int): (s: string)
    ensures y >= 0 ==> s == NatToDecimal(y)
    ensures y < 0 ==> |s| > 0 && s[0] == '-' && AllDigits(s[1..])
  {
    if y >= 0 then NatToDecimal(y) else "-" + NatToDecimal(-y)
  }

  /** `formatDateTime`: the empty string for a missing or invalid date,
      otherwise the year, then month and day, hour, minute and second, each
      two digits wide. */
  function FormatDateTime(v: Stamp): (r: string)
    ensures !v.At? ==> r == ""
    ensures FieldsInRange(v) ==>
              var y := YearText(v.year);
              && r == y + "-" + Fixed(v.month, 2) + "-" + Fixed(v.day, 2) + " "
                        + Fixed(v.hour, 2) + ":" + Fixed(v.minute, 2) + ":" + Fixed(v.second, 2)
              && |r| == |y| + 15
  {
    match v
    case At(y, mo, d, h, mi, s) =>
      YearText(y) + "-" + Pad2(mo) + "-" + Pad2(d) + " " + Pad2(h) + ":" + Pad2(mi) + ":" + Pad2(s)
    case _ => ""
  }

  /** The importer's first reading of a time stamp,
      `^\d{4}-\d{2}-\d{2}[ T]\d{2}:\d{2}:\d{2}$`. */
  predicate IsoLike(s: string) {
    && |s| == 19
    && AllDigits(s[0..4]) && s[4] == '-' && AllDigits(s[5..7]) && s[7] == '-' && AllDigits(s[8..10])
    && (s[10] == ' ' || s[10] == 'T')
    && AllDigits(s[11..13]) && s[13] == ':' && AllDigits(s[14..16]) && s[16] == ':' && AllDigits(s[17..19])
  }

  /** The calendar fields an ISO-like stamp spells. */
  function ReadStamp(s: string): Stamp
    requires IsoLike(s)
  {
    At(DecimalValue(s[0..4]), DecimalValue(s[5..7]), DecimalValue(s[8..10]),
       DecimalValue(s[11..13]), DecimalValue(s[14..16]), DecimalValue(s[17..19]))
  }

  /** Where each field sits in a stamp whose year has four characters. */
  lemma StampLayout(y: string, mo: string, d: string, h: string, mi: string, sec: string)
    requires |y| == 4 && |mo| == 2 && |d| == 2 && |h| == 2 && |mi| == 2 && |sec| == 2
    ensures var r := y + "-" + mo + "-" + d + " " + h + ":" + mi + ":" + sec;
            && |r| == 19 && r[0..4] == y && r[4] == '-' && r[5..7] == mo && r[7] == '-' && r[8..10] == d
            && r[10] == ' ' && r[11..13] == h && r[13] == ':' && r[14..16] == mi && r[16] == ':' && r[17..19] == sec
  {
  }

  /** An exported stamp takes the importer's ISO-like path exactly when its
      year has four digits. */
  lemma ExportedStampIsoLike(v: Stamp)
    requires FieldsInRange(v)
    ensures IsoLike(FormatDateTime(v)) <==> 1000 <= v.year <= 9999
  {
    var r := FormatDateTime(v);
    var y := YearText(v.year);
    assert Pow10(3) == 1000 && Pow10(4) == 10000;
    if v.year >= 0 {
      DecimalLength(v.year, 3);
      DecimalLength(v.year, 4);
    }
    if IsoLike(r) {
      assert r[0] == y[0];
    }
    if 1000 <= v.year <= 9999 {
      StampLayout(y, Fixed(v.month, 2), Fixed(v.day, 2), Fixed(v.hour, 2), Fixed(v.minute, 2), Fixed(v.second, 2));
    }
  }

  /** Reading back an exported four-digit-year stamp gives its fields. */
  lemma ExportedStampReadsBack(v: Stamp)
    requires FieldsInRange(v) && 1000 <= v.year <= 9999
    ensures IsoLike(FormatDateTime(v)) && ReadStamp(FormatDateTime(v)) == v
  {
    ExportedStampIsoLike(v);
    assert YearText(v.year) == Fixed(v.year, 4) by {
      assert Pow10(4) == 10000;
      DecimalLength(v.year, 4);
      PadDecimalIsFixed(v.year, 4);
    }
    StampLayout(Fixed(v.year, 4), Fixed(v.month, 2), Fixed(v.day, 2), Fixed(v.hour, 2), Fixed(v.minute, 2), Fixed(v.second, 2));
    StampFieldValues(v);
  }

  lemma StampFieldValues(v: Stamp)
    requires FieldsInRange(v) && 1000 <= v.year <= 9999
    ensures DecimalValue(Fixed(v.year, 4)) == v.year
    ensures DecimalValue(Fixed(v.month, 2)) == v.month && DecimalValue(Fixed(v.day, 2)) == v.day
    ensures DecimalValue(Fixed(v.hour, 2)) == v.hour && DecimalValue(Fixed(v.minute, 2)) == v.minute
    ensures DecimalValue(Fixed(v.second, 2)) == v.second
  {
    assert Pow10(2) == 100 && Pow10(4) == 10000;
    FixedValue(v.year, 4);
    FixedValue(v.month, 2);
    FixedValue(v.day, 2);
    FixedValue(v.hour, 2);
    FixedValue(v.minute, 2);
    FixedValue(v.second, 2);
  }

  /** A habit of the newer record generation, as exported. */
  datatype BackupHabit = BackupHabit(
    id: Option<nat>, title: string, cue: string, tinyVersion: string,
    temptationBundle: Option<string>, createdAt: Stamp)

  /** A log of the newer record generation, as exported. */
  datatype BackupLog = BackupLog(
    id: Option<nat>, habitId: nat, date: string, kind: string, value: Option<nat>, createdAt: Stamp)

  /** A cell as written: bare, or wrapped in quotes by a template literal. */
  datatype CsvCell = Bare(text: string) | Quoted(text: string)

  function Render(c: CsvCell): (s: string)
    ensures c.Bare? ==> s == c.text
    ensures c.Quoted? ==> |s| == |c.text| + 2 && s[0] == '"' && s[|s| - 1] == '"' && s[1..|s| - 1] == c.text
  {
    match c
    case Bare(t) => t
    case Quoted(t) => "\"" + t + "\""
  }

  /** `x ?? ''` and `undefined` joined: an absent number is an empty cell. */
  function OptionalNumber(n: Option<nat>): (s: string)
    ensures n.None? <==> s == ""
    ensures n.Some? ==> AllDigits(s) && DecimalValue(s) == n.value && (|s| > 1 ==> s[0] != '0')
    ensures n.Some? ==> s == NatToDecimal(n.value)
  {
    match n
    case None => ""
    case Some(k) =>
      DecimalRoundTrip(k);
      DecimalLength(k, 1);
      NatToDecimal(k)
  }

  const HabitColumns: seq<string> := ["ID", "Title", "Cue", "Tiny Version", "Temptation Bundle", "Created At"]

  const LogColumns: seq<string> := ["ID", "Habit ID", "Date", "Type", "Value", "Created At"]

  /** A header row: the column names as bare cells. */
  function HeaderRow(names: seq<string>): (cells: seq<CsvCell>)
    ensures |cells| == |names| && forall i :: 0 <= i < |names| ==> cells[i] == Bare(names[i])
  {
    seq(|names|, i requires 0 <= i < |names| => Bare(names[i]))
  }

  const HabitsHeader: seq<CsvCell> := HeaderRow(HabitColumns)

  const LogsHeader: seq<CsvCell> := HeaderRow(LogColumns)

  function HabitCells(h: BackupHabit): (cells: seq<CsvCell>)
    ensures |cells| == 6
  {
    [Bare(OptionalNumber(h.id)), Quoted(h.title), Quoted(h.cue), Quoted(h.tinyVersion),
     Quoted(h.temptationBundle.GetOr("")), Quoted(FormatDateTime(h.createdAt))]
  }

  function LogCells(l: BackupLog): (cells: seq<CsvCell>)
    ensures |cells| == 6
  {
    [Bare(OptionalNumber(l.id)), Bare(NatToDecimal(l.habitId)), Bare(l.date), Bare(l.kind),
     Bare(OptionalNumber(l.value)), Quoted(FormatDateTime(l.createdAt))]
  }

  function RenderAll(cells: seq<CsvCell>): (parts: seq<string>)
    ensures |parts| == |cells|
    ensures forall i :: 0 <= i < |cells| ==> parts[i] == Render(cells[i])
  {
    seq(|cells|, i requires 0 <= i < |cells| => Render(cells[i]))
  }

  /** `row.join(',')`. */
  function RenderRow(cells: seq<CsvCell>): string {
    Join(RenderAll(cells), ",")
  }

  function RenderRows(rows: seq<seq<CsvCell>>): (lines: seq<string>)
    ensures |lines| == |rows|
    ensures forall i :: 0 <= i < |rows| ==> lines[i] == RenderRow(rows[i])
  {
    seq(|rows|, i requires 0 <= i < |rows| => RenderRow(rows[i]))
  }

  /** The rows joined by '\n'. */
  function Body(rows: seq<seq<CsvCell>>): string {
    Join(RenderRows(rows), "\n")
  }

  /** The header row, then one row per habit in table order. */
  function HabitTable(habits: seq<BackupHabit>): (rows: seq<seq<CsvCell>>)
    ensures |rows| == |habits| + 1 && rows[0] == HabitsHeader
    ensures forall i :: 0 <= i < |habits| ==> rows[i + 1] == HabitCells(habits[i])
  {
    [HabitsHeader] + seq(|habits|, i requires 0 <= i < |habits| => HabitCells(habits[i]))
  }

  function LogTable(logs: seq<BackupLog>): (rows: seq<seq<CsvCell>>)
    ensures |rows| == |logs| + 1 && rows[0] == LogsHeader
    ensures forall i :: 0 <= i < |logs| ==> rows[i + 1] == LogCells(logs[i])
  {
    [LogsHeader] + seq(|logs|, i requires 0 <= i < |logs| => LogCells(logs[i]))
  }

  const Bom: char := '﻿'

  /** `addBom`. */
  function AddBom(csv: string): (r: string)
    ensures |r| == |csv| + 1 && r[0] == Bom && r[1..] == csv
  {
    [Bom] + csv
  }

  function HabitsCsv(habits: seq<BackupHabit>): string {
    AddBom(Body(HabitTable(habits)))
  }

  function LogsCsv(logs: seq<BackupLog>): string {
    AddBom(Body(LogTable(logs)))
  }
}

=== FILE: csv_import.dfy ===
/** The backup importer: the character-level CSV scanner, quote stripping,
    recognising which file holds habits and which holds logs, and turning
    rows into records. */
module CsvImport {
  import opened Wrappers
  import opened Text
  import opened Records

  /** The scanner's variables: finished rows, the cells of the row being
      read, the cell being read, and whether a quoted section is open. */
  datatype Scanner = Scanner(rows: seq<seq<string>>, current: seq<string>, cell: string, inQuotes: bool)

  const Start := Scanner([], [], "", false)

  /** A row is kept when it has a cell that is not blank after trimming. */
  predicate Keeps(row: seq<string>) {
    |row| > 0 && exists k :: 0 <= k < |row| && Trim(row[k]) != ""
  }

  function PushCell(st: Scanner): Scanner {
    st.(current := st.current + [st.cell], cell := "")
  }

  function PushRow(st: Scanner): Scanner {
    st.(rows := if Keeps(st.current) then st.rows + [st.current] else st.rows, current := [])
  }

  predicate RowsKept(st: Scanner) {
    forall r :: r in st.rows ==> Keeps(r)
  }

  predicate NoQuote(s: string) {
    '"' !in s
  }

  /** No cell read so far holds a quote character. */
  predicate QuoteFree(st: Scanner) {
    && (forall r, v :: r in st.rows && v in r ==> NoQuote(v))
    && (forall v :: v in st.current ==> NoQuote(v))
    && NoQuote(st.cell)
  }

  /** One pass of the loop body at the start of `s`: how many characters it
      consumes and the next scanner state. A quote either toggles quoting
      and is dropped, or, inside quotes and doubled, yields one literal
      quote; unquoted commas end a cell; unquoted LF, CR or CRLF end a row. */
  function Consume(s: string, st: Scanner): (r: (nat, Scanner))
    requires |s| > 0
    ensures 1 <= r.0 <= |s|
  {
    var ch := s[0];
    if ch == '"' then
      if st.inQuotes && |s| > 1 && s[1] == '"' then (2, st.(cell := st.cell + ['"']))
      else (1, st.(inQuotes := !st.inQuotes))
    else if ch == ',' && !st.inQuotes then (1, PushCell(st))
    else if (ch == '\n' || ch == '\r') && !st.inQuotes then
      (if ch == '\r' && |s| > 1 && s[1] == '\n' then 2 else 1, PushRow(PushCell(st)))
    else (1, st.(cell := st.cell + [ch]))
  }

  /** No two adjacent quote characters: no escaped quote anywhere. */
  predicate NoAdjacentQuotes(s: string) {
    forall i :: 0 <= i < |s| - 1 ==> !(s[i] == '"' && s[i + 1] == '"')
  }

  /** A step keeps only non-blank rows, and adds a quote to a cell only for
      an escaped quote. */
  lemma ConsumePreserves(s: string, st: Scanner)
    requires |s| > 0
    ensures RowsKept(st) ==> RowsKept(Consume(s, st).1)
    ensures QuoteFree(st) && !(st.inQuotes && s[0] == '"' && |s| > 1 && s[1] == '"') ==> QuoteFree(Consume(s, st).1)
  {
  }

  /** The scanner state after the whole of `s`. */
  function Scan(s: string, st: Scanner): (r: Scanner)
    decreases |s|
  {
    if |s| == 0 then st
    else
      var (n, next) := Consume(s, st);
      Scan(s[n..], next)
  }

  lemma {:induction false} ScanPreserves(s: string, st: Scanner)
    ensures RowsKept(st) ==> RowsKept(Scan(s, st))
    ensures QuoteFree(st) && NoAdjacentQuotes(s) ==> QuoteFree(Scan(s, st))
    decreases |s|
  {
    if |s| > 0 {
      var (n, next) := Consume(s, st);
      ConsumePreserves(s, st);
      assert NoAdjacentQuotes(s) ==> NoAdjacentQuotes(s[n..]);
      ScanPreserves(s[n..], next);
    }
  }

  /** The flush after the loop: a pending cell or row is closed. */
  function Finish(st: Scanner): seq<seq<string>> {
    if st.cell != "" || |st.current| > 0 then PushRow(PushCell(st)).rows else st.rows
  }

  /** `parseCsv`: no row it returns is empty or blank, and when the text has
      no escaped quote no cell holds a quote. */
  function ParseCsv(text: string): (rows: seq<seq<string>>)
    ensures forall r :: r in rows ==> Keeps(r)
    ensures NoAdjacentQuotes(text) ==> forall r, v :: r in rows && v in r ==> NoQuote(v)
  {
    ScanPreserves(text, Start);
    Finish(Scan(text, Start))
  }

  /** One step of the scan at position `i` of `text`: the step read there,
      and the scan of the rest of the text after it. */
  lemma ScanAt(text: string, i: nat, st: Scanner) returns (step: (nat, Scanner))
    requires i < |text|
    ensures step == Consume(text[i..], st) && i + step.0 <= |text|
    ensures text[i..][0] == text[i] && (i + 1 < |text| ==> text[i..][1] == text[i + 1])
    ensures Scan(text[i..], st) == Scan(text[i + step.0..], step.1)
  {
    step := Consume(text[i..], st);
    assert text[i..][step.0..] == text[i + step.0..];
  }

  /** The source's loop, with its index that skips the second character of
      an escaped quote or a CRLF. */
  method ScanText(text: string) returns (rows: seq<seq<string>>)
    ensures rows == ParseCsv(text)
  {
    rows := [];
    var current: seq<string> := [];
    var cell := "";
    var inQuotes := false;
    var i := 0;
    while i < |text|
      invariant 0 <= i <= |text|
      invariant Scan(text[i..], Scanner(rows, current, cell, inQuotes)) == Scan(text, Start)
    {
      var st := Scanner(rows, current, cell, inQuotes);
      ghost var i0 := i;
      ghost var step := ScanAt(text, i, st);
      var ch := text[i];
      if ch == '"' {
        if inQuotes && i + 1 < |text| && text[i + 1] == '"' {
          assert step == (2, st.(cell := st.cell + ['"']));
          cell := cell + ['"'];
          i := i + 1;
        } else {
          assert step == (1, st.(inQuotes := !st.inQuotes));
          inQuotes := !inQuotes;
        }
      } else if ch == ',' && !inQuotes {
        assert step == (1, PushCell(st));
        current := current + [cell];
        cell := "";
      } else if (ch == '\n' || ch == '\r') && !inQuotes {
        assert step.1 == PushRow(PushCell(st));
        if ch == '\r' && i + 1 < |text| && text[i + 1] == '\n' {
          assert step.0 == 2;
          i := i + 1;
        } else {
          assert step.0 == 1;
        }
        current := current + [cell];
        cell := "";
        rows := if Keeps(current) then rows + [current] else rows;
        current := [];
      } else {
        assert step == (1, st.(cell := st.cell + [ch]));
        cell := cell + [ch];
      }
      i := i + 1;
      assert i == i0 + step.0;
      assert Scanner(rows, current, cell, inQuotes) == step.1;
    }
    if cell != "" || |current| > 0 {
      current := current + [cell];
      cell := "";
      rows := if Keeps(current) then rows + [current] else rows;
    }
  }

  /** A newline after the last row adds no row, as long as the text does not
      end inside a quoted section. */
  lemma TrailingNewlineAddsNoRow(text: string)
    requires !Scan(text, Start).inQuotes
    ensures ParseCsv(text + "\n") == ParseCsv(text)
  {
    ScanNewline(text, Start);
  }

  lemma {:induction false} ScanNewline(a: string, st: Scanner)
    requires !Scan(a, st).inQuotes
    ensures Finish(Scan(a + "\n", st)) == Finish(Scan(a, st))
    decreases |a|
  {
    if |a| == 0 {
      assert a + "\n" == "\n";
      assert !Keeps([""]);
    } else {
      var (n, next) := Consume(a, st);
      assert Consume(a + "\n", st).1 == next;
      if |a| == 1 && a[0] == '\r' && !st.inQuotes {
        assert (a + "\n")[2..] == [];
      } else {
        assert Consume(a + "\n", st).0 == n;
        assert (a + "\n")[n..] == a[n..] + "\n";
        ScanNewline(a[n..], next);
      }
    }
  }

  /** `value.replace(/""/g, '"')`: each doubled quote, read left to right,
      becomes one. */
  function Unescape(s: string): (r: string)
    ensures |r| <= |s|
  {
    if |s| >= 2 && s[0] == '"' && s[1] == '"' then ['"'] + Unescape(s[2..])
    else if |s| == 0 then ""
    else [s[0]] + Unescape(s[1..])
  }

  /** Doubling every quote: the CSV escape that `Unescape` undoes. */
  function Escape(s: string): (r: string)
    ensures |r| >= |s|
  {
    if |s| == 0 then ""
    else if s[0] == '"' then "\"\"" + Escape(s[1..])
    else [s[0]] + Escape(s[1..])
  }

  lemma {:induction false} UnescapeEscape(s: string)
    ensures Unescape(Escape(s)) == s
  {
    if |s| > 0 {
      UnescapeEscape(s[1..]);
      if s[0] == '"' {
        assert Escape(s)[2..] == Escape(s[1..]);
      } else {
        assert Escape(s)[1..] == Escape(s[1..]);
      }
    }
  }

  predicate Wrapped(v: string) {
    |v| >= 1 && v[0] == '"' && v[|v| - 1] == '"'
  }

  /** `stripQuotes`: one enclosing pair of quotes is removed and doubled
      quotes collapse; a value not both starting and ending with a quote is
      returned as it is. */
  function StripQuotes(v: string): (r: string)
    ensures !Wrapped(v) ==> r == v
    ensures |r| <= |v|
  {
    if Wrapped(v) then Unescape(if |v| >= 2 then v[1..|v| - 1] else "") else v
  }

  /** Stripping undoes quoting: the inverse pair. */
  lemma StripQuotesOfQuoted(s: string)
    ensures StripQuotes("\"" + Escape(s) + "\"") == s
  {
    var q := "\"" + Escape(s) + "\"";
    assert q[1..|q| - 1] == Escape(s);
    UnescapeEscape(s);
  }

  /** `text.replace(/^﻿/, '')`. */
  function StripBom(text: string): (r: string)
    ensures |text| > 0 && text[0] == '﻿' ==> r == text[1..]
    ensures (|text| == 0 || text[0] != '﻿') ==> r == text
  {
    if |text| > 0 && text[0] == '﻿' then text[1..] else text
  }

  /** The importer reads a file that starts with one byte-order mark
      exactly as it reads the same file without the mark. */
  lemma MarkIsInvisible(body: string)
    requires |body| == 0 || body[0] != '﻿'
    ensures ParseCsv(StripBom(['﻿'] + body)) == ParseCsv(StripBom(body))
  {
  }

  datatype FileKind = HabitsFile | LogsFile | Unrecognised

  /** The header cells trimmed and lower-cased. */
  function Header(rows: seq<seq<string>>): (h: seq<string>)
    requires |rows| > 0
    ensures |h| == |rows[0]|
  {
    seq(|rows[0]|, k requires 0 <= k < |rows[0]| => ToLower(Trim(rows[0][k])))
  }

  /** A file is the habits file if its header has `title` and `cue`, else
      the logs file if it has `habit id` and `date`. */
  function Classify(rows: seq<seq<string>>): (k: FileKind)
    ensures k == HabitsFile <==> |rows| > 0 && "title" in Header(rows) && "cue" in Header(rows)
    ensures k == LogsFile <==> |rows| > 0 && !("title" in Header(rows) && "cue" in Header(rows))
                                && "habit id" in Header(rows) && "date" in Header(rows)
  {
    if |rows| == 0 then Unrecognised
    else
      var h := Header(rows);
      if "title" in h && "cue" in h then HabitsFile
      else if "habit id" in h && "date" in h then LogsFile
      else Unrecognised
  }

  function RowsOf(text: string): seq<seq<string>> {
    ParseCsv(StripBom(text))
  }

  function KindOf(text: string): FileKind {
    Classify(RowsOf(text))
  }

  /** The kind of each file, in order. */
  function Kinds(contents: seq<string>): (ks: seq<FileKind>)
    ensures |ks| == |contents|
    ensures forall i :: 0 <= i < |ks| ==> ks[i] == KindOf(contents[i])
  {
    seq(|contents|, i requires 0 <= i < |contents| => KindOf(contents[i]))
  }

  /** The position of the last entry of the given kind. */
  function LastOfKind(ks: seq<FileKind>, kind: FileKind): (r: Option<nat>)
    ensures r.Some? ==> r.value < |ks| && ks[r.value] == kind
                        && forall j :: r.value < j < |ks| ==> ks[j] != kind
    ensures r.None? ==> forall j :: 0 <= j < |ks| ==> ks[j] != kind
  {
    if |ks| == 0 then None
    else if ks[|ks| - 1] == kind then Some(|ks| - 1)
    else LastOfKind(ks[..|ks| - 1], kind)
  }

  function RowsAt(contents: seq<string>, i: Option<nat>): Option<seq<seq<string>>>
    requires i.Some? ==> i.value < |contents|
  {
    if i.Some? then Some(RowsOf(contents[i.value])) else None
  }

  /** The `forEach` over the files: each recognised file overwrites the rows
      chosen for its kind, so the last file of each kind wins. */
  function ChooseFiles(contents: seq<string>): (r: (Option<seq<seq<string>>>, Option<seq<seq<string>>>))
    ensures r.0 == RowsAt(contents, LastOfKind(Kinds(contents), HabitsFile))
    ensures r.1 == RowsAt(contents, LastOfKind(Kinds(contents), LogsFile))
  {
    if |contents| == 0 then (None, None)
    else
      var init := contents[..|contents| - 1];
      var (h, l) := ChooseFiles(init);
      var rows := RowsOf(contents[|contents| - 1]);
      LastOfKindStep(contents, HabitsFile);
      LastOfKindStep(contents, LogsFile);
      match Classify(rows)
      case HabitsFile => (Some(rows), l)
      case LogsFile => (h, Some(rows))
      case Unrecognised => (h, l)
  }

  /** One more file: it is the last of its own kind, and the other kinds'
      choices stay where they were. */
  lemma LastOfKindStep(contents: seq<string>, kind: FileKind)
    requires |contents| > 0
    ensures var init := contents[..|contents| - 1];
            var last := LastOfKind(Kinds(contents), kind);
            && (KindOf(contents[|contents| - 1]) == kind ==> last == Some(|contents| - 1))
            && (KindOf(contents[|contents| - 1]) != kind ==>
                  last == LastOfKind(Kinds(init), kind) && RowsAt(contents, last) == RowsAt(init, last))
  {
    var n := |contents|;
    var init := contents[..n - 1];
    var ks := Kinds(contents);
    KindsOfInit(contents);
    if ks[n - 1] != kind {
      LastSkipsOther(ks, kind);
      RowsAtInit(contents, LastOfKind(Kinds(init), kind));
    }
  }

  lemma KindsOfInit(contents: seq<string>)
    requires |contents| > 0
    ensures Kinds(contents[..|contents| - 1]) == Kinds(contents)[..|contents| - 1]
    ensures Kinds(contents)[|contents| - 1] == KindOf(contents[|contents| - 1])
  {
  }

  /** A last kind other than the one sought leaves the choice to the rest. */
  lemma LastSkipsOther(ks: seq<FileKind>, kind: FileKind)
    requires |ks| > 0 && ks[|ks| - 1] != kind
    ensures LastOfKind(ks, kind) == LastOfKind(ks[..|ks| - 1], kind)
  {
  }

  lemma RowsAtInit(contents: seq<string>, i: Option<nat>)
    requires |contents| > 0 && (i.Some? ==> i.value < |contents| - 1)
    ensures RowsAt(contents, i) == RowsAt(contents[..|contents| - 1], i)
  {
    if i.Some? {
      assert contents[..|contents| - 1][i.value] == contents[i.value];
    }
  }

  /** What `Number(s)` gives, for the forms the model reads: blank text is
      0, a run of decimal digits (after trimming) is its value, anything else
      is NaN. */
  datatype NumCell = Absent | Num(value: nat) | NotANumber

  function NumberOf(s: string): (r: NumCell)
    ensures r != Absent
    ensures |s| > 0 && AllDigits(s) ==> r == Num(DecimalValue(s))
  {
    DigitsAreTrimmed(s);
    NumberOfTrimmed(Trim(s))
  }

  /** `Number` of text with no surrounding white space. */
  function NumberOfTrimmed(t: string): (r: NumCell)
    ensures r != Absent
    ensures |t| > 0 && AllDigits(t) ==> r == Num(DecimalValue(t))
  {
    if t == "" then Num(0)
    else match ParseDecimal(t)
      case Some(n) => Num(n)
      case None => NotANumber
  }

  /** The `k`-th cell of a destructured row, None when the row is shorter. */
  function CellAt(row: seq<string>, k: nat): Option<string> {
    if k < |row| then Some(row[k]) else None
  }

  predicate Truthy(c: Option<string>) {
    c.Some? && c.value != ""
  }

  /** `x ? Number(x) : undefined`. */
  function NumberOrAbsent(c: Option<string>): (r: NumCell)
    ensures r == Absent <==> !Truthy(c)
  {
    if Truthy(c) then NumberOf(c.value) else Absent
  }

  /** A habit as the importer builds it. The creation time is left out. */
  datatype ImportedHabit = ImportedHabit(
    id: NumCell, title: string, cue: string, tinyVersion: string,
    temptationBundle: Option<string>, frequency: Frequency, pinned: bool, archived: bool)

  /** A log as the importer builds it. The creation time is left out. */
  datatype ImportedLog = ImportedLog(id: NumCell, habitId: NumCell, date: string, kind: string, value: NumCell)

  predicate KeepsHabitRow(row: seq<string>) {
    |row| > 0 && Truthy(CellAt(row, 1))
  }

  /** One data row of the habits file as a record; every imported habit is
      daily, not pinned and not archived. */
  function HabitOfRow(row: seq<string>): (h: ImportedHabit)
    requires KeepsHabitRow(row)
    ensures h.frequency == Daily && !h.pinned && !h.archived
    ensures h.title == StripQuotes(row[1])
    ensures h.id == Absent <==> !Truthy(CellAt(row, 0))
  {
    var bundle := StripQuotes(CellAt(row, 4).GetOr(""));
    ImportedHabit(
      NumberOrAbsent(CellAt(row, 0)),
      StripQuotes(row[1]),
      StripQuotes(CellAt(row, 2).GetOr("")),
      StripQuotes(CellAt(row, 3).GetOr("")),
      if bundle == "" then None else Some(bundle),
      Daily, false, false)
  }

  /** The habit rows after the header, in order, skipping empty rows and rows
      with an empty or missing title. */
  function HabitRecords(rows: seq<seq<string>>): (r: seq<ImportedHabit>)
    ensures |r| <= |rows|
    ensures forall h :: h in r ==> h.frequency == Daily && !h.pinned && !h.archived
    ensures forall row :: row in rows && KeepsHabitRow(row) ==> HabitOfRow(row) in r
    ensures forall h :: h in r ==> exists row :: row in rows && KeepsHabitRow(row) && h == HabitOfRow(row)
  {
    if |rows| == 0 then []
    else
      var rest := HabitRecords(rows[1..]);
      assert forall row :: row in rows[1..] ==> row in rows;
      assert forall row :: row in rows ==> row == rows[0] || row in rows[1..];
      (if KeepsHabitRow(rows[0]) then [HabitOfRow(rows[0])] else []) + rest
  }

  predicate KeepsLogRow(row: seq<string>) {
    |row| > 0 && Truthy(CellAt(row, 1)) && Truthy(CellAt(row, 2))
  }

  /** One data row of the logs file as a record, or None when the row has no
      type cell: `stripQuotes(undefined)` throws and the import is
      abandoned. */
  function LogOfRow(row: seq<string>): (r: Option<ImportedLog>)
    requires KeepsLogRow(row)
    ensures r.None? <==> |row| < 4
    ensures r.Some? ==> r.value.date == StripQuotes(row[2]) && r.value.kind == StripQuotes(row[3])
                        && r.value.habitId == NumberOf(row[1])
  {
    if |row| < 4 then None
    else Some(ImportedLog(
      NumberOrAbsent(CellAt(row, 0)),
      NumberOf(row[1]),
      StripQuotes(row[2]),
      StripQuotes(row[3]),
      NumberOrAbsent(CellAt(row, 4))))
  }

  /** The log rows after the header, in order, skipping empty rows and rows
      with an empty or missing habit id or date; None as soon as a kept row
      throws. */
  function LogRecords(rows: seq<seq<string>>): (r: Option<seq<ImportedLog>>)
    ensures r.None? <==> exists row :: row in rows && KeepsLogRow(row) && |row| < 4
    ensures r.Some? ==> |r.value| <= |rows|
    ensures r.Some? ==> forall row :: row in rows && KeepsLogRow(row) ==> LogOfRow(row).Some? && LogOfRow(row).value in r.value
    ensures r.Some? ==> forall l :: l in r.value ==> exists row :: row in rows && KeepsLogRow(row) && LogOfRow(row) == Some(l)
  {
    if |rows| == 0 then Some([])
    else
      assert forall row :: row in rows[1..] ==> row in rows;
      assert forall row :: row in rows ==> row == rows[0] || row in rows[1..];
      if KeepsLogRow(rows[0]) then
        match LogOfRow(rows[0])
        case None => None
        case Some(l) =>
          match LogRecords(rows[1..])
          case None => None
          case Some(rest) => Some([l] + rest)
      else LogRecords(rows[1..])
  }

  /** The importer's outcome. No files: nothing is touched and the counts
      are 0. A throw: nothing is written. Otherwise both tables are replaced
      by the records built, possibly none. */
  datatype Outcome = NoFiles | Failed | Replaced(habits: seq<ImportedHabit>, logs: seq<ImportedLog>)

  datatype Counts = Counts(habits: nat, logs: nat)

  /** `importDataFromFiles` over the files' texts. */
  function ImportFiles(contents: seq<string>): (r: Outcome)
    ensures r == NoFiles <==> |contents| == 0
    ensures r.Replaced? && ChooseFiles(contents).0.None? ==> r.habits == []
    ensures r.Replaced? && ChooseFiles(contents).1.None? ==> r.logs == []
  {
    if |contents| == 0 then NoFiles
    else
      var (habitRows, logRows) := ChooseFiles(contents);
      var habits := if habitRows.Some? && |habitRows.value| > 1 then HabitRecords(habitRows.value[1..]) else [];
      var logs := if logRows.Some? && |logRows.value| > 1 then LogRecords(logRows.value[1..]) else Some([]);
      if logs.None? then Failed else Replaced(habits, logs.value)
  }

  /** The counts returned: the number of records written. */
  function CountsOf(r: Outcome): (c: Option<Counts>)
    ensures c.None? <==> r.Failed?
    ensures r.Replaced? ==> c == Some(Counts(|r.habits|, |r.logs|))
    ensures r.NoFiles? ==> c == Some(Counts(0, 0))
  {
    match r
    case NoFiles => Some(Counts(0, 0))
    case Failed => None
    case Replaced(h, l) => Some(Counts(|h|, |l|))
  }
}

=== FILE: dashboard.dfy ===
/** The dashboard's arithmetic: today's done/total counts, the completion
    percentage, the level bar and the points still needed for the next
    level, and which habits get a card. */
module Dashboard {
  import opened Wrappers
  import opened Records
  import opened Percent
  import opened HabitProgress

  datatype TodayStats = TodayStats(completed: nat, total: nat)

  /** `habits.filter(h => h.frequency === 'daily')`: each daily habit as
      often as it occurs, in order, and nothing else. */
  function DailyHabits(habits: seq<Habit>): (r: seq<Habit>)
    ensures forall h :: multiset(r)[h] == if h.frequency == Daily then multiset(habits)[h] else 0
    ensures forall h :: h in r <==> h in habits && h.frequency == Daily
    ensures |r| <= |habits|
    ensures |r| == |habits| <==> forall i :: 0 <= i < |habits| ==> habits[i].frequency == Daily
  {
    if |habits| == 0 then []
    else
      assert habits == [habits[0]] + habits[1..];
      var rest := DailyHabits(habits[1..]);
      if habits[0].frequency == Daily then [habits[0]] + rest else rest
  }

  /** `todayLogs.filter(log => log.completed)`: each completed log as often
      as it occurs, in order, and nothing else. */
  function CompletedLogs(logs: seq<CompletionLog>): (r: seq<CompletionLog>)
    ensures forall l :: multiset(r)[l] == if l.completed then multiset(logs)[l] else 0
    ensures forall l :: l in r <==> l in logs && l.completed
    ensures |r| <= |logs|
    ensures |r| == |logs| <==> forall i :: 0 <= i < |logs| ==> logs[i].completed
  {
    if |logs| == 0 then []
    else
      assert logs == [logs[0]] + logs[1..];
      var rest := CompletedLogs(logs[1..]);
      if logs[0].completed then [logs[0]] + rest else rest
  }

  /** `calculateTodayStats`: while either list is still loading the stats
      stay as they were; otherwise the total is the number of daily habits
      and the count done is the number of today's logs marked completed,
      whatever the habit's frequency. */
  function CalculateTodayStats(prev: TodayStats, habits: Option<seq<Habit>>,
                               todayLogs: Option<seq<CompletionLog>>): (r: TodayStats)
    ensures habits == None || todayLogs == None ==> r == prev
    ensures habits.Some? && todayLogs.Some? ==>
              && r.total == |DailyHabits(habits.value)| && r.completed == |CompletedLogs(todayLogs.value)|
              && r.total <= |habits.value| && r.completed <= |todayLogs.value|
              && (r.total == 0 <==> forall h :: h in habits.value ==> h.frequency != Daily)
              && (r.total == |habits.value| <==> forall h :: h in habits.value ==> h.frequency == Daily)
              && (r.completed == 0 <==> forall l :: l in todayLogs.value ==> !l.completed)
              && (r.completed == |todayLogs.value| <==> forall l :: l in todayLogs.value ==> l.completed)
  {
    if habits == None || todayLogs == None then prev
    else TodayStats(|CompletedLogs(todayLogs.value)|, |DailyHabits(habits.value)|)
  }

  /** The completion percentage: 0 with no daily habit, else
      `Math.round(completed / total * 100)`. */
  function CompletionPercentage(stats: TodayStats): (p: int)
    ensures stats.total == 0 ==> p == 0
    ensures stats.total > 0 ==>
              2 * stats.total * p <= 200 * stats.completed + stats.total < 2 * stats.total * (p + 1)
    ensures stats.completed <= stats.total ==> 0 <= p <= 100
  {
    if stats.total > 0 then RoundPercent(stats.completed, stats.total) else 0
  }

  /** The level bar's width in percent: the points inside the current
      hundred. */
  function LevelBarWidth(totalPoints: nat): (w: nat)
    ensures w < 100
    ensures (totalPoints - w) % 100 == 0
  {
    totalPoints % 100
  }

  /** The "pts to Level n+1" figure. */
  function PointsToNextLevel(totalPoints: nat): (n: int)
    ensures 1 <= n <= 100
    ensures (totalPoints + n) % 100 == 0
  {
    100 - totalPoints % 100
  }

  /** The two level figures agree with the stored level: the bar plus the
      points still needed fill exactly one level's hundred, and the points
      needed bring the total to the next level's start. */
  lemma LevelFiguresAgree(totalPoints: nat)
    ensures LevelBarWidth(totalPoints) + PointsToNextLevel(totalPoints) == 100
    ensures PointsToNextLevel(totalPoints) == LevelFor(totalPoints) * 100 - totalPoints
    ensures LevelFor(totalPoints + PointsToNextLevel(totalPoints)) == LevelFor(totalPoints) + 1
  {
    var q := totalPoints / 100;
    assert totalPoints == 100 * q + totalPoints % 100;
  }
}

=== FILE: habit_form.dfy ===
/** The habit form: its fields and their defaults, the required-field check
    run on submit, and the clearing of a field's error when it is edited. */
module HabitForm {
  import opened Wrappers
  import opened Text

  datatype Field = Name | Description | Category | Frequency | Icon | Color | ReminderTime
                 | AtomicCue | AtomicCraving | AtomicResponse | AtomicReward | StartDate

  /** The form's values; a field missing from the map reads as "". */
  type Form = map<Field, string>

  /** The error messages by field; an edited field keeps its key with "". */
  type Errors = map<Field, string>

  function Get(form: Form, f: Field): string {
    if f in form then form[f] else ""
  }

  /** The six fields that must not be blank. */
  predicate Required(f: Field) {
    f in {Name, Description, AtomicCue, AtomicCraving, AtomicResponse, AtomicReward}
  }

  function Message(f: Field): string
    requires Required(f)
  {
    match f
    case Name => "Habit name is required"
    case Description => "Description is required"
    case AtomicCue => "Cue is required (When/Where will you do it?)"
    case AtomicCraving => "Craving is required (Why do you want this?)"
    case AtomicResponse => "Response is required (What will you do?)"
    case AtomicReward => "Reward is required (What satisfaction will you get?)"
  }

  /** The value a field starts with when no usable initial value is given:
      study, daily, the books icon, blue, and `today` for the start date. */
  function Default(f: Field, today: string): string {
    match f
    case Category => "study"
    case Frequency => "daily"
    case Icon => "\U{1F4DA}"
    case Color => "#3B82F6"
    case StartDate => today
    case _ => ""
  }

  /** `initialData?.x || default`: an initial value is used unless it is
      missing or empty. */
  function InitialForm(initial: Option<Form>, today: string): (form: Form)
    ensures forall f :: f in form
    ensures initial == None ==> forall f :: form[f] == Default(f, today)
    ensures forall f :: initial.Some? && Get(initial.value, f) != "" ==> form[f] == initial.value[f]
    ensures forall f :: (initial.None? || Get(initial.value, f) == "") ==> form[f] == Default(f, today)
  {
    map f: Field | true :: if initial.Some? && Get(initial.value, f) != "" then initial.value[f] else Default(f, today)
  }

  /** Opening the form on the values it already shows changes nothing: a
      field is empty there only when its default is empty too. */
  lemma ReopenKeepsForm(initial: Option<Form>, today: string)
    ensures InitialForm(Some(InitialForm(initial, today)), today) == InitialForm(initial, today)
  {
  }

  /** `validate`: one error per required field that is blank after
      trimming; the form is valid when there is none. */
  function Validate(form: Form): (r: (Errors, bool))
    ensures forall f :: f in r.0 <==> Required(f) && Trim(Get(form, f)) == ""
    ensures forall f :: f in r.0 ==> r.0[f] == Message(f)
    ensures r.1 <==> r.0 == map[]
  {
    var errors := map f: Field | Required(f) && Trim(Get(form, f)) == "" :: Message(f);
    (errors, |errors| == 0)
  }

  /** A map with no keys is the empty map. */
  lemma NoKeysIsEmpty(errors: Errors)
    ensures errors == map[] <==> forall f :: f !in errors
  {
    if forall f :: f !in errors {
      assert errors.Keys == {};
    }
  }

  /** `handleSubmit`: the errors found, and the form handed to `onSubmit`
      exactly when it is valid. */
  function HandleSubmit(form: Form): (r: (Errors, Option<Form>))
    ensures r.1.Some? ==> r.1.value == form
    ensures r.1.Some? <==> forall f :: Required(f) ==> !IsBlank(Get(form, f))
  {
    var (errors, ok) := Validate(form);
    NoKeysIsEmpty(errors);
    (errors, if ok then Some(form) else None)
  }

  /** `handleChange`: store the value; an error the field had is blanked,
      every other error is kept. */
  function HandleChange(form: Form, errors: Errors, field: Field, value: string): (r: (Form, Errors))
    ensures r.0 == form[field := value]
    ensures r.1.Keys == errors.Keys
    ensures field in r.1 ==> r.1[field] == ""
    ensures forall f :: f in errors && f != field ==> r.1[f] == errors[f]
  {
    (form[field := value], if field in errors && errors[field] != "" then errors[field := ""] else errors)
  }

  /** Filling a blank required field with text removes exactly that field's
      error at the next validation. */
  lemma FillingFieldDropsItsError(form: Form, field: Field, value: string)
    requires !IsBlank(value)
    ensures forall f :: f in Validate(form[field := value]).0 <==> f in Validate(form).0 && f != field
  {
    forall f
      ensures f in Validate(form[field := value]).0 <==> f in Validate(form).0 && f != field
    {
      ErrorAfterEdit(form, field, value, f);
    }
  }

  lemma ErrorAfterEdit(form: Form, field: Field, value: string, f: Field)
    requires !IsBlank(value)
    ensures f in Validate(form[field := value]).0 <==> f in Validate(form).0 && f != field
  {
    var edited := form[field := value];
    if f == field {
      assert Get(edited, f) == value;
    } else {
      assert Get(edited, f) == Get(form, f);
    }
  }
}

=== FILE: habit_progress.dfy ===
/** The logging hook's bookkeeping: one log row per habit and day, the
    incremental streak record, points, the user level and badges, and the
    creation and deletion of a habit's records. Each operation maps a store
    snapshot to the next one. */
module HabitProgress {
  import opened Wrappers
  import opened CivilDate
  import opened Records

  /** A row of the `streaks` table; `lastCompleted` is None for the empty
      string written at creation. */
  datatype StreakRow = StreakRow(habitId: int, currentStreak: int, longestStreak: int, lastCompleted: Option<Date>)

  /** The single `userProgress` row. */
  datatype Progress = Progress(totalPoints: int, level: int, badges: seq<string>)

  datatype Reminder = Reminder(habitId: int, time: string)

  datatype Store = Store(
    habits: seq<Habit>,
    logs: seq<CompletionLog>,
    streaks: seq<StreakRow>,
    progress: Option<Progress>,
    reminders: seq<Reminder>)

  predicate RowDateValid(row: StreakRow) {
    row.lastCompleted.Some? ==> Valid(row.lastCompleted.value)
  }

  /** The new current streak: one more after yesterday, unchanged on the same
      day, otherwise a fresh start at 1. */
  function StreakAfter(row: StreakRow, date: Date): (n: int)
    requires RowDateValid(row) && Valid(date)
    ensures row.lastCompleted == Some(Pred(date)) ==> n == row.currentStreak + 1
    ensures row.lastCompleted == Some(date) ==> n == row.currentStreak
    ensures row.lastCompleted != Some(Pred(date)) && row.lastCompleted != Some(date) ==> n == 1
  {
    match row.lastCompleted
    case None => 1
    case Some(last) =>
      DayDiffCases(last, date);
      var daysDiff := DayDiff(last, date);
      if daysDiff == 1 then row.currentStreak + 1
      else if daysDiff == 0 then row.currentStreak
      else 1
  }

  /** `updateStreak`'s record transition for a completion on `date`. */
  function NextStreak(row: StreakRow, date: Date): (r: StreakRow)
    requires RowDateValid(row) && Valid(date)
    ensures r.habitId == row.habitId && r.lastCompleted == Some(date)
    ensures row.lastCompleted == Some(Pred(date)) ==> r.currentStreak == row.currentStreak + 1
    ensures row.lastCompleted == Some(date) ==> r.currentStreak == row.currentStreak
    ensures row.lastCompleted != Some(Pred(date)) && row.lastCompleted != Some(date) ==> r.currentStreak == 1
    ensures r.longestStreak >= r.currentStreak && r.longestStreak >= row.longestStreak
    ensures r.longestStreak == r.currentStreak || r.longestStreak == row.longestStreak
  {
    var newStreak := StreakAfter(row, date);
    var longest := if newStreak > row.longestStreak then newStreak else row.longestStreak;
    StreakRow(row.habitId, newStreak, longest, Some(date))
  }

  /** Bonus points for reaching a streak length: 50 at multiples of 7, then
      200 at multiples of 30, in that order. */
  function MilestoneBonuses(streak: int): (b: seq<nat>)
    ensures 50 in b <==> streak % 7 == 0
    ensures 200 in b <==> streak % 30 == 0
    ensures |b| <= 2 && (|b| == 2 ==> b == [50, 200])
  {
    (if streak % 7 == 0 then [50] else []) + (if streak % 30 == 0 then [200] else [])
  }

  const BadgeIds: seq<string> :=
    ["first_habit", "week_warrior", "month_master", "level_5", "level_10", "points_500", "points_1000"]

  /** Whether the badge at position `k` of `BadgeIds` is earned. */
  predicate Earned(k: nat, habitCount: nat, streaks: seq<StreakRow>, totalPoints: int, level: int)
    requires k < 7
  {
    match k
    case 0 => habitCount >= 1
    case 1 => exists s :: s in streaks && s.currentStreak >= 7
    case 2 => exists s :: s in streaks && s.currentStreak >= 30
    case 3 => level >= 5
    case 4 => level >= 10
    case 5 => totalPoints >= 500
    case _ => totalPoints >= 1000
  }

  predicate NoDuplicates(s: seq<string>) {
    forall i, j :: 0 <= i < j < |s| ==> s[i] != s[j]
  }

  /** `r` is `badges` with only badges earned from condition `k` on
      appended, every such badge present, and no duplicate introduced. */
  ghost predicate AppendsEarned(k: nat, badges: seq<string>, r: seq<string>, habitCount: nat,
                                streaks: seq<StreakRow>, totalPoints: int, level: int) {
    && |badges| <= |r| && r[..|badges|] == badges
    && (forall b :: b in r && b !in badges ==>
          exists i :: k <= i < 7 && BadgeIds[i] == b && Earned(i, habitCount, streaks, totalPoints, level))
    && (forall i :: k <= i < 7 && Earned(i, habitCount, streaks, totalPoints, level) ==> BadgeIds[i] in r)
    && (NoDuplicates(badges) ==> NoDuplicates(r))
  }

  /** The badge loop from condition `k` on: append each earned id not yet
      held. */
  function CheckBadgesFrom(k: nat, badges: seq<string>, habitCount: nat, streaks: seq<StreakRow>, totalPoints: int, level: int): (r: seq<string>)
    requires k <= 7
    ensures AppendsEarned(k, badges, r, habitCount, streaks, totalPoints, level)
    decreases 7 - k
  {
    if k == 7 then badges
    else
      var next := if Earned(k, habitCount, streaks, totalPoints, level) && BadgeIds[k] !in badges
                  then badges + [BadgeIds[k]] else badges;
      var r := CheckBadgesFrom(k + 1, next, habitCount, streaks, totalPoints, level);
      BadgeStep(k, badges, next, r, habitCount, streaks, totalPoints, level);
      r
  }

  /** One turn of the loop: appending badge `k` when it is earned and not
      held keeps the loop's promise. */
  lemma BadgeStep(k: nat, badges: seq<string>, next: seq<string>, r: seq<string>, habitCount: nat,
                  streaks: seq<StreakRow>, totalPoints: int, level: int)
    requires k < 7
    requires next == if Earned(k, habitCount, streaks, totalPoints, level) && BadgeIds[k] !in badges
                     then badges + [BadgeIds[k]] else badges
    requires AppendsEarned(k + 1, next, r, habitCount, streaks, totalPoints, level)
    ensures AppendsEarned(k, badges, r, habitCount, streaks, totalPoints, level)
  {
    assert r[..|badges|] == next[..|badges|];
    assert forall b :: b in next ==> b in r by {
      forall b | b in next ensures b in r {
        var j :| 0 <= j < |next| && next[j] == b;
        assert r[..|next|][j] == b;
      }
    }
    forall b | b in r && b !in badges
      ensures exists i :: k <= i < 7 && BadgeIds[i] == b && Earned(i, habitCount, streaks, totalPoints, level)
    {
      if b in next {
        assert b == BadgeIds[k];
      }
    }
    assert BadgeIds[k] in badges ==> BadgeIds[k] in next;
    if NoDuplicates(badges) {
      assert NoDuplicates(next);
    }
  }

  /** `checkBadges`: badges are only ever appended, each at most once. */
  function CheckBadges(badges: seq<string>, habitCount: nat, streaks: seq<StreakRow>, totalPoints: int, level: int): (r: seq<string>)
    ensures |badges| <= |r| && r[..|badges|] == badges
    ensures forall b :: b in r && b !in badges ==>
              exists i :: 0 <= i < 7 && BadgeIds[i] == b && Earned(i, habitCount, streaks, totalPoints, level)
    ensures forall i :: 0 <= i < 7 && Earned(i, habitCount, streaks, totalPoints, level) ==> BadgeIds[i] in r
    ensures NoDuplicates(badges) ==> NoDuplicates(r)
  {
    CheckBadgesFrom(0, badges, habitCount, streaks, totalPoints, level)
  }

  /** `Math.floor(total / 100) + 1`: the level whose hundred-point band
      holds the total. */
  function LevelFor(total: int): (level: int)
    ensures (level - 1) * 100 <= total < level * 100
    ensures total >= 0 ==> level >= 1
  {
    total / 100 + 1
  }

  function AddHabitPoints(habits: seq<Habit>, id: int, points: nat): (r: seq<Habit>)
    ensures |r| == |habits|
    ensures forall i :: 0 <= i < |r| ==>
              r[i] == habits[i].(points := habits[i].points + (if habits[i].id == id then points else 0))
  {
    seq(|habits|, i requires 0 <= i < |habits| =>
      if habits[i].id == id then habits[i].(points := habits[i].points + points) else habits[i])
  }

  /** `awardPoints`: add to the habit and to the user's total, recompute the
      level, then check badges against the new total and level. */
  function AwardPoints(st: Store, habitId: int, points: nat): (r: Store)
    ensures r.logs == st.logs && r.streaks == st.streaks && r.reminders == st.reminders
    ensures r.habits == AddHabitPoints(st.habits, habitId, points)
    ensures r.progress.Some? <==> st.progress.Some?
    ensures r.progress.Some? ==>
              && r.progress.value.totalPoints == st.progress.value.totalPoints + points
              && (r.progress.value.level - 1) * 100 <= r.progress.value.totalPoints < r.progress.value.level * 100
              && |st.progress.value.badges| <= |r.progress.value.badges|
              && r.progress.value.badges[..|st.progress.value.badges|] == st.progress.value.badges
  {
    var habits := AddHabitPoints(st.habits, habitId, points);
    match st.progress
    case None => st.(habits := habits)
    case Some(p) =>
      var total := p.totalPoints + points;
      var level := LevelFor(total);
      var badges := CheckBadges(p.badges, |habits|, st.streaks, total, level);
      st.(habits := habits, progress := Some(Progress(total, level, badges)))
  }

  /** Awards the bonuses in order. */
  function AwardAll(st: Store, habitId: int, bonuses: seq<nat>): (r: Store)
    ensures r.logs == st.logs && r.streaks == st.streaks && r.reminders == st.reminders
    ensures |r.habits| == |st.habits|
    ensures forall i :: 0 <= i < |r.habits| ==>
              r.habits[i] == st.habits[i].(points := st.habits[i].points + (if st.habits[i].id == habitId then Sum(bonuses) else 0))
    ensures r.progress.Some? <==> st.progress.Some?
    ensures r.progress.Some? ==> r.progress.value.totalPoints == st.progress.value.totalPoints + Sum(bonuses)
    decreases |bonuses|
  {
    if |bonuses| == 0 then st
    else AwardAll(AwardPoints(st, habitId, bonuses[0]), habitId, bonuses[1..])
  }

  function Sum(s: seq<nat>): nat {
    if |s| == 0 then 0 else s[0] + Sum(s[1..])
  }

  /** Index of the first row satisfying the lookup, as Dexie's `.first()`. */
  function FirstStreakRow(streaks: seq<StreakRow>, habitId: int): (r: Option<nat>)
    ensures r.Some? ==> r.value < |streaks| && streaks[r.value].habitId == habitId
                        && forall j :: 0 <= j < r.value ==> streaks[j].habitId != habitId
    ensures r.None? ==> forall j :: 0 <= j < |streaks| ==> streaks[j].habitId != habitId
  {
    if |streaks| == 0 then None
    else if streaks[0].habitId == habitId then Some(0)
    else match FirstStreakRow(streaks[1..], habitId)
      case None => None
      case Some(k) => Some(k + 1)
  }

  predicate StreakDatesValid(st: Store) {
    forall i :: 0 <= i < |st.streaks| ==> RowDateValid(st.streaks[i])
  }

  /** `updateStreak`: a missing streak row makes it a no-op; otherwise the row
      takes the next record and the milestone bonuses are awarded. */
  function UpdateStreak(st: Store, habitId: int, date: Date): (r: Store)
    requires StreakDatesValid(st) && Valid(date)
    ensures StreakDatesValid(r)
    ensures r.logs == st.logs && r.reminders == st.reminders
    ensures FirstStreakRow(st.streaks, habitId).None? ==> r == st
    ensures FirstStreakRow(st.streaks, habitId).Some? ==>
              var k := FirstStreakRow(st.streaks, habitId).value;
              var bonus := Sum(MilestoneBonuses(NextStreak(st.streaks[k], date).currentStreak));
              && r.streaks == st.streaks[k := NextStreak(st.streaks[k], date)]
              && |r.habits| == |st.habits|
              && (forall i :: 0 <= i < |r.habits| ==>
                    r.habits[i] == st.habits[i].(points := st.habits[i].points + (if st.habits[i].id == habitId then bonus else 0)))
              && (r.progress.Some? <==> st.progress.Some?)
              && (r.progress.Some? ==> r.progress.value.totalPoints == st.progress.value.totalPoints + bonus)
  {
    match FirstStreakRow(st.streaks, habitId)
    case None => st
    case Some(k) =>
      var row := NextStreak(st.streaks[k], date);
      AwardAll(st.(streaks := st.streaks[k := row]), habitId, MilestoneBonuses(row.currentStreak))
  }

  /** Logging a habit a second time on the same day leaves its streak rows
      as the first update wrote them: the day difference is 0, so the
      current streak stays and the longest already covers it. */
  lemma {:induction false} SameDayRowStable(st: Store, habitId: int, date: Date)
    requires StreakDatesValid(st) && Valid(date)
    ensures UpdateStreak(UpdateStreak(st, habitId, date), habitId, date).streaks
         == UpdateStreak(st, habitId, date).streaks
  {
    var st1 := UpdateStreak(st, habitId, date);
    match FirstStreakRow(st.streaks, habitId)
    case None =>
    case Some(k) =>
      var row := NextStreak(st.streaks[k], date);
      assert st1.streaks == st.streaks[k := row];
      assert st1.streaks[k].habitId == habitId;
      assert forall j :: 0 <= j < k ==> st1.streaks[j].habitId != habitId;
      assert FirstStreakRow(st1.streaks, habitId) == Some(k);
      assert NextStreak(row, date) == row;
  }

  /** Index of the log row of `(habitId, date)`, if there is one. */
  function FindLog(logs: seq<CompletionLog>, habitId: int, date: Date): (r: Option<nat>)
    ensures r.Some? ==> r.value < |logs| && logs[r.value].habitId == habitId && logs[r.value].date == date
    ensures r.None? ==> forall j :: 0 <= j < |logs| ==> !(logs[j].habitId == habitId && logs[j].date == date)
  {
    if |logs| == 0 then None
    else if logs[0].habitId == habitId && logs[0].date == date then Some(0)
    else match FindLog(logs[1..], habitId, date)
      case None => None
      case Some(k) => Some(k + 1)
  }

  /** At most one log row per habit and day. */
  predicate OneRowPerDay(logs: seq<CompletionLog>) {
    forall i, j :: 0 <= i < j < |logs| ==>
      !(logs[i].habitId == logs[j].habitId && logs[i].date == logs[j].date)
  }

  /** The write at the start of `logHabit`: update today's row if it exists,
      add it otherwise. */
  function UpsertLog(logs: seq<CompletionLog>, habitId: int, date: Date, completed: bool): (r: seq<CompletionLog>)
    ensures OneRowPerDay(logs) ==> OneRowPerDay(r)
    ensures CompletionLog(habitId, date, completed) in r
    ensures forall l :: l in r && l != CompletionLog(habitId, date, completed) ==> l in logs
    ensures forall l :: l in logs && !(l.habitId == habitId && l.date == date) ==> l in r
    ensures |r| == |logs| + (if FindLog(logs, habitId, date).Some? then 0 else 1)
  {
    match FindLog(logs, habitId, date)
    case Some(k) =>
      var r := logs[k := CompletionLog(habitId, date, completed)];
      assert forall l :: l in logs && l != logs[k] ==> l in r by {
        forall l | l in logs && l != logs[k] ensures l in r {
          var j :| 0 <= j < |logs| && logs[j] == l;
          assert r[j] == l;
        }
      }
      assert forall i :: 0 <= i < |r| ==> r[i].habitId == logs[i].habitId && r[i].date == logs[i].date;
      r
    case None => logs + [CompletionLog(habitId, date, completed)]
  }

  /** `logHabit(habitId, completed)` on day `today`. */
  function LogHabit(st: Store, habitId: int, completed: bool, today: Date): (r: Store)
    requires StreakDatesValid(st) && Valid(today)
    ensures StreakDatesValid(r)
    ensures r.logs == UpsertLog(st.logs, habitId, today, completed)
    ensures r.reminders == st.reminders
    ensures !completed ==> r == st.(logs := r.logs)
  {
    var st1 := st.(logs := UpsertLog(st.logs, habitId, today, completed));
    if completed then AwardPoints(UpdateStreak(st1, habitId, today), habitId, 10) else st1
  }

  /** Points a completion on `today` earns the habit: the base 10 plus the
      milestone bonuses of the streak it reaches, or only the base when the
      habit has no streak row. */
  lemma CompletionPoints(st: Store, habitId: int, today: Date, i: nat)
    requires StreakDatesValid(st) && Valid(today)
    requires i < |st.habits| && st.habits[i].id == habitId
    ensures |LogHabit(st, habitId, true, today).habits| == |st.habits|
    ensures LogHabit(st, habitId, true, today).habits[i].points == st.habits[i].points + 10 +
              match FirstStreakRow(st.streaks, habitId)
              case None => 0
              case Some(k) => Sum(MilestoneBonuses(NextStreak(st.streaks[k], today).currentStreak))
  {
  }

  /** An uncompleted log earns nothing and leaves the streaks as they were. */
  lemma MissedDayEarnsNothing(st: Store, habitId: int, today: Date)
    requires StreakDatesValid(st) && Valid(today)
    ensures LogHabit(st, habitId, false, today).habits == st.habits
    ensures LogHabit(st, habitId, false, today).streaks == st.streaks
    ensures LogHabit(st, habitId, false, today).progress == st.progress
  {
  }

  /** `createHabit`: the habit starts at 0 points and gets a 0/0 streak row
      with no completion date. */
  function CreateHabit(st: Store, newId: int, name: string, frequency: Frequency): (r: Store)
    ensures r.habits == st.habits + [Habit(newId, name, frequency, 0)]
    ensures r.streaks == st.streaks + [StreakRow(newId, 0, 0, None)]
    ensures r.logs == st.logs && r.progress == st.progress && r.reminders == st.reminders
  {
    st.(habits := st.habits + [Habit(newId, name, frequency, 0)],
        streaks := st.streaks + [StreakRow(newId, 0, 0, None)])
  }

  /** The rows whose key is not `id`, in order: what is left after
      `where(key).equals(id).delete()`. */
  function Without<T(==,!new)>(rows: seq<T>, key: T -> int, id: int): (r: seq<T>)
    ensures forall x :: x in r <==> x in rows && key(x) != id
    ensures |r| <= |rows|
  {
    if |rows| == 0 then []
    else (if key(rows[0]) == id then [] else [rows[0]]) + Without(rows[1..], key, id)
  }

  /** Each surviving row is kept exactly as often as it occurred. */
  lemma {:induction false} WithoutCounts<T(!new)>(rows: seq<T>, key: T -> int, id: int)
    ensures forall x :: multiset(Without(rows, key, id))[x] == if key(x) != id then multiset(rows)[x] else 0
  {
    if |rows| > 0 {
      WithoutCounts(rows[1..], key, id);
      assert rows == [rows[0]] + rows[1..];
    }
  }

  /** `deleteHabit`: removes the habit and exactly its logs, streak rows and
      reminders; the user's progress is kept. */
  function DeleteHabit(st: Store, habitId: int): (r: Store)
    ensures forall x :: multiset(r.habits)[x] == if x.id != habitId then multiset(st.habits)[x] else 0
    ensures forall x :: multiset(r.logs)[x] == if x.habitId != habitId then multiset(st.logs)[x] else 0
    ensures forall x :: multiset(r.streaks)[x] == if x.habitId != habitId then multiset(st.streaks)[x] else 0
    ensures forall x :: multiset(r.reminders)[x] == if x.habitId != habitId then multiset(st.reminders)[x] else 0
    ensures forall x :: x in r.habits <==> x in st.habits && x.id != habitId
    ensures forall x :: x in r.logs <==> x in st.logs && x.habitId != habitId
    ensures forall x :: x in r.streaks <==> x in st.streaks && x.habitId != habitId
    ensures forall x :: x in r.reminders <==> x in st.reminders && x.habitId != habitId
    ensures r.progress == st.progress
  {
    WithoutCounts(st.habits, HabitKey, habitId);
    WithoutCounts(st.logs, LogKey, habitId);
    WithoutCounts(st.streaks, StreakKey, habitId);
    WithoutCounts(st.reminders, ReminderKey, habitId);
    Store(Without(st.habits, HabitKey, habitId), Without(st.logs, LogKey, habitId),
          Without(st.streaks, StreakKey, habitId), st.progress, Without(st.reminders, ReminderKey, habitId))
  }

  function HabitKey(h: Habit): int { h.id }

  function LogKey(l: CompletionLog): int { l.habitId }

  function StreakKey(s: StreakRow): int { s.habitId }

  function ReminderKey(m: Reminder): int { m.habitId }

  /** Deleting a habit just created restores the habit and streak tables. */
  lemma DeleteUndoesCreate(st: Store, newId: int, name: string, frequency: Frequency)
    requires forall h :: h in st.habits ==> h.id != newId
    requires forall s :: s in st.streaks ==> s.habitId != newId
    ensures DeleteHabit(CreateHabit(st, newId, name, frequency), newId).habits == st.habits
    ensures DeleteHabit(CreateHabit(st, newId, name, frequency), newId).streaks == st.streaks
  {
    WithoutAppend(st.habits, Habit(newId, name, frequency, 0), HabitKey, newId);
    WithoutAppend(st.streaks, StreakRow(newId, 0, 0, None), StreakKey, newId);
  }

  /** Removing the key of a row appended last, when no earlier row has
      it, gives back the earlier rows. */
  lemma {:induction false} WithoutAppend<T(!new)>(rows: seq<T>, x: T, key: T -> int, id: int)
    requires key(x) == id && forall y :: y in rows ==> key(y) != id
    ensures Without(rows + [x], key, id) == rows
  {
    if |rows| > 0 {
      assert (rows + [x])[1..] == rows[1..] + [x];
      WithoutAppend(rows[1..], x, key, id);
    }
  }
}

=== FILE: heatmap.dfy ===
/** The activity heatmap: completions counted per date over the current
    year, the colour of a cell, the Sunday-aligned week grid of the year,
    the month labels above it and the two summary totals. */
module Heatmap {
  import opened Wrappers
  import opened CivilDate
  import opened Records

  /** Which logs are counted: those of one habit when a truthy id is given
      (an absent id or id 0 shows every habit), dated in `year`. */
  datatype Selection = Selection(habitId: Option<int>, year: int)

  predicate ForHabit(l: CompletionLog, sel: Selection) {
    sel.habitId.None? || sel.habitId.value == 0 || l.habitId == sel.habitId.value
  }

  /** A log adds one to its date's count: it is selected, dated in the year
      and completed. */
  predicate Counted(l: CompletionLog, sel: Selection) {
    ForHabit(l, sel) && l.date.year == sel.year && l.completed
  }

  /** Reference count: the counted logs dated `d`. */
  function CountOn(logs: seq<CompletionLog>, sel: Selection, d: Date): nat {
    if |logs| == 0 then 0
    else
      var l := logs[|logs| - 1];
      CountOn(logs[..|logs| - 1], sel, d) + (if Counted(l, sel) && l.date == d then 1 else 0)
  }

  /** Reference total: all counted logs. */
  function NumCounted(logs: seq<CompletionLog>, sel: Selection): nat {
    if |logs| == 0 then 0
    else NumCounted(logs[..|logs| - 1], sel) + (if Counted(logs[|logs| - 1], sel) then 1 else 0)
  }

  function CountedDates(logs: seq<CompletionLog>, sel: Selection): set<Date> {
    set l | l in logs && Counted(l, sel) :: l.date
  }

  /** One entry of the insertion-ordered `Map<string, number>`. */
  datatype Entry = Entry(date: Date, count: nat)

  function Keys(es: seq<Entry>): set<Date> {
    set e | e in es :: e.date
  }

  predicate DistinctKeys(es: seq<Entry>) {
    forall i, j :: 0 <= i < j < |es| ==> es[i].date != es[j].date
  }

  predicate PositiveCounts(es: seq<Entry>) {
    forall i :: 0 <= i < |es| ==> es[i].count > 0
  }

  /** `dataMap.get(d) || 0`. */
  function Lookup(es: seq<Entry>, d: Date): nat {
    if |es| == 0 then 0 else if es[0].date == d then es[0].count else Lookup(es[1..], d)
  }

  /** The sum of the counts, in map order. */
  function Total(es: seq<Entry>): nat {
    if |es| == 0 then 0 else es[0].count + Total(es[1..])
  }

  lemma ConsFacts(e: Entry, rest: seq<Entry>)
    ensures ([e] + rest)[0] == e && ([e] + rest)[1..] == rest
    ensures Keys([e] + rest) == {e.date} + Keys(rest)
    ensures DistinctKeys(rest) && e.date !in Keys(rest) ==> DistinctKeys([e] + rest)
    ensures PositiveCounts(rest) && e.count > 0 ==> PositiveCounts([e] + rest)
  {
    var r := [e] + rest;
    assert r[1..] == rest;
    if DistinctKeys(rest) && e.date !in Keys(rest) {
      forall i, j | 0 <= i < j < |r| ensures r[i].date != r[j].date {
        if i == 0 {
          assert r[j] == rest[j - 1];
        } else {
          assert r[i] == rest[i - 1] && r[j] == rest[j - 1];
        }
      }
    }
  }

  lemma TailFacts(es: seq<Entry>)
    requires |es| > 0
    ensures Keys(es) == {es[0].date} + Keys(es[1..])
    ensures DistinctKeys(es) ==> DistinctKeys(es[1..]) && es[0].date !in Keys(es[1..])
    ensures PositiveCounts(es) ==> PositiveCounts(es[1..]) && es[0].count > 0
  {
    assert es == [es[0]] + es[1..];
  }

  /** `r` is `es` with one more completion on `d`. */
  ghost predicate IsBump(es: seq<Entry>, d: Date, r: seq<Entry>) {
    BumpCounts(es, d, r) && BumpShape(es, d, r)
  }

  /** The counts: one more on `d`, the same on every other date. */
  ghost predicate BumpCounts(es: seq<Entry>, d: Date, r: seq<Entry>) {
    && Lookup(r, d) == Lookup(es, d) + 1
    && (forall e :: e != d ==> Lookup(r, e) == Lookup(es, e))
    && Total(r) == Total(es) + 1
  }

  /** The keys: `d` added, distinct keys and positive counts kept. */
  ghost predicate BumpShape(es: seq<Entry>, d: Date, r: seq<Entry>) {
    && Keys(r) == Keys(es) + {d}
    && |r| == (if d in Keys(es) then |es| else |es| + 1)
    && (DistinctKeys(es) ==> DistinctKeys(r))
    && (PositiveCounts(es) ==> PositiveCounts(r))
  }

  /** `dataMap.set(d, (dataMap.get(d) || 0) + 1)`: an existing key keeps its
      place and gains one; a new key is appended with count 1. */
  function Bump(es: seq<Entry>, d: Date): (r: seq<Entry>)
    ensures Keys(r) == Keys(es) + {d}
    ensures Lookup(r, d) == Lookup(es, d) + 1
    ensures forall e :: e != d ==> Lookup(r, e) == Lookup(es, e)
    ensures Total(r) == Total(es) + 1
    ensures |r| == if d in Keys(es) then |es| else |es| + 1
    ensures DistinctKeys(es) ==> DistinctKeys(r)
    ensures PositiveCounts(es) ==> PositiveCounts(r)
  {
    if |es| == 0 then
      BumpEmpty(d);
      [Entry(d, 1)]
    else if es[0].date == d then
      BumpFirst(es, d);
      [Entry(d, es[0].count + 1)] + es[1..]
    else
      var rest := Bump(es[1..], d);
      BumpLater(es, d, rest);
      [es[0]] + rest
  }

  lemma BumpEmpty(d: Date)
    ensures IsBump([], d, [Entry(d, 1)])
  {
    ConsFacts(Entry(d, 1), []);
  }

  lemma BumpFirst(es: seq<Entry>, d: Date)
    requires |es| > 0 && es[0].date == d
    ensures IsBump(es, d, [Entry(d, es[0].count + 1)] + es[1..])
  {
    TailFacts(es);
    ConsFacts(Entry(d, es[0].count + 1), es[1..]);
  }

  lemma BumpLater(es: seq<Entry>, d: Date, rest: seq<Entry>)
    requires |es| > 0 && es[0].date != d && IsBump(es[1..], d, rest)
    ensures IsBump(es, d, [es[0]] + rest)
  {
    BumpLaterCounts(es, d, rest);
    BumpLaterShape(es, d, rest);
  }

  lemma BumpLaterCounts(es: seq<Entry>, d: Date, rest: seq<Entry>)
    requires |es| > 0 && es[0].date != d && BumpCounts(es[1..], d, rest)
    ensures BumpCounts(es, d, [es[0]] + rest)
  {
    var r := [es[0]] + rest;
    assert r[0] == es[0] && r[1..] == rest;
    assert Lookup(r, d) == Lookup(rest, d);
    assert Lookup(es, d) == Lookup(es[1..], d);
    forall e | e != d
      ensures Lookup(r, e) == Lookup(es, e)
    {
    }
    assert Total(r) == es[0].count + Total(rest);
  }

  lemma BumpLaterShape(es: seq<Entry>, d: Date, rest: seq<Entry>)
    requires |es| > 0 && es[0].date != d && BumpShape(es[1..], d, rest)
    ensures BumpShape(es, d, [es[0]] + rest)
  {
    TailFacts(es);
    ConsFacts(es[0], rest);
    assert d in Keys(es) <==> d in Keys(es[1..]);
  }

  lemma PrefixStep(logs: seq<CompletionLog>, i: nat, sel: Selection)
    requires i < |logs|
    ensures logs[..i + 1][..i] == logs[..i] && logs[..i + 1][i] == logs[i]
    ensures CountedDates(logs[..i + 1], sel)
         == CountedDates(logs[..i], sel) + (if Counted(logs[i], sel) then {logs[i].date} else {})
  {
    assert logs[..i + 1] == logs[..i] + [logs[i]];
  }

  /** `loadHeatmapData`: one pass over the logs, bumping the date of every
      counted one. The map holds exactly the dates with a counted log, each
      with its number of counted logs, and its counts add up to the number
      of counted logs. */
  method HeatmapData(logs: seq<CompletionLog>, sel: Selection) returns (es: seq<Entry>)
    ensures DistinctKeys(es) && PositiveCounts(es)
    ensures Keys(es) == CountedDates(logs, sel)
    ensures forall d :: Lookup(es, d) == CountOn(logs, sel, d)
    ensures Total(es) == NumCounted(logs, sel)
  {
    es := [];
    var i := 0;
    while i < |logs|
      invariant 0 <= i <= |logs|
      invariant DistinctKeys(es) && PositiveCounts(es)
      invariant Keys(es) == CountedDates(logs[..i], sel)
      invariant forall d :: Lookup(es, d) == CountOn(logs[..i], sel, d)
      invariant Total(es) == NumCounted(logs[..i], sel)
    {
      var l := logs[i];
      PrefixStep(logs, i, sel);
      if l.completed && ForHabit(l, sel) && l.date.year == sel.year {
        es := Bump(es, l.date);
      }
      i := i + 1;
    }
    assert logs[..|logs|] == logs;
  }

  lemma {:induction false} DistinctKeysSize(es: seq<Entry>)
    requires DistinctKeys(es)
    ensures |Keys(es)| == |es|
  {
    if |es| > 0 {
      DistinctKeysSize(es[1..]);
      assert Keys(es) == {es[0].date} + Keys(es[1..]);
      assert es[0].date !in Keys(es[1..]);
    }
  }

  lemma {:induction false} SizeAtMostTotal(es: seq<Entry>)
    requires PositiveCounts(es)
    ensures |es| <= Total(es)
  {
    if |es| > 0 {
      SizeAtMostTotal(es[1..]);
    }
  }

  /** The summary cards: Total Days is the number of distinct dates with a
      counted log, Total Completions the number of counted logs, and the
      first never exceeds the second. */
  lemma SummaryTotals(logs: seq<CompletionLog>, sel: Selection, es: seq<Entry>)
    requires DistinctKeys(es) && PositiveCounts(es)
    requires Keys(es) == CountedDates(logs, sel) && Total(es) == NumCounted(logs, sel)
    ensures |es| == |CountedDates(logs, sel)|
    ensures |es| <= NumCounted(logs, sel)
  {
    DistinctKeysSize(es);
    SizeAtMostTotal(es);
  }

  /** The five cell colours, lightest first. */
  datatype Shade = Gray100 | Emerald300 | Emerald500 | Emerald600 | Emerald700

  function ShadeRank(s: Shade): nat {
    match s
    case Gray100 => 0
    case Emerald300 => 1
    case Emerald500 => 2
    case Emerald600 => 3
    case Emerald700 => 4
  }

  /** `getDayColor`. */
  function DayColor(count: int): (s: Shade)
    ensures 0 <= count <= 4 ==> ShadeRank(s) == count
    ensures count >= 4 ==> s == Emerald700
    ensures count <= 0 ==> s == Gray100
  {
    if count == 0 then Gray100
    else if count == 1 then Emerald300
    else if count == 2 then Emerald500
    else if count == 3 then Emerald600
    else if count >= 4 then Emerald700
    else Gray100
  }

  /** More completions never give a lighter cell. */
  lemma DayColorMonotone(a: int, b: int)
    requires 0 <= a <= b
    ensures ShadeRank(DayColor(a)) <= ShadeRank(DayColor(b))
  {
  }

  /** Going back `(x + 6) % 7` days from day number `x` lands on a Sunday. */
  lemma SundayBack(x: int, y: int)
    requires y == x - (x + 6) % 7
    ensures (y + 6) % 7 == 0 && x - 6 <= y <= x
  {
    assert x + 6 == 7 * ((x + 6) / 7) + (x + 6) % 7;
  }
  /** `w` days after a Sunday, for `w` below 7, is weekday `w`. */
  lemma WeekdayAfterSunday(d: Date, k: nat, w: nat)
    requires Valid(d) && Weekday(d) == 0 && w < 7
    ensures forall e :: Valid(e) && Ord(e) == Ord(d) + 7 * k + w ==> Weekday(e) == w
  {
    forall e | Valid(e) && Ord(e) == Ord(d) + 7 * k + w
      ensures Weekday(e) == w
    {
      var x := Ord(d) + 6;
      assert x % 7 == 0;
      assert Ord(e) + 6 == x + 7 * k + w;
      assert x == 7 * (x / 7);
      assert Ord(e) + 6 == 7 * (x / 7 + k) + w;
    }
  }

  /** The Sunday on or before 1 January. */
  function GridStart(year: int): (d: Date)
    ensures Valid(d) && Weekday(d) == 0
    ensures Ord(Date(year, 1, 1)) - 6 <= Ord(d) <= Ord(Date(year, 1, 1))
  {
    var jan1 := Date(year, 1, 1);
    var d := PredN(jan1, Weekday(jan1));
    SundayOnOrBefore(jan1, d);
    d
  }

  lemma SundayOnOrBefore(d: Date, s: Date)
    requires Valid(d) && Valid(s) && Ord(s) == Ord(d) - Weekday(d)
    ensures Weekday(s) == 0 && Ord(d) - 6 <= Ord(s) <= Ord(d)
  {
    SundayBack(Ord(d), Ord(s));
  }  /** `weeks` is a grid of seven-day rows whose days count up one at a
      time from `start`. */
  predicate Grid(start: Date, weeks: seq<seq<Date>>) {
    Valid(start) && forall k :: 0 <= k < |weeks| ==>
      |weeks[k]| == 7 && forall i :: 0 <= i < 7 ==> Valid(weeks[k][i]) && Ord(weeks[k][i]) == Ord(start) + 7 * k + i
  }

  /** The inner loop: seven consecutive days from `current`. */
  method WeekFrom(current: Date) returns (week: seq<Date>, next: Date)
    requires Valid(current)
    ensures |week| == 7 && forall i :: 0 <= i < 7 ==> Valid(week[i]) && Ord(week[i]) == Ord(current) + i
    ensures Valid(next) && Ord(next) == Ord(current) + 7
  {
    week := [];
    next := current;
    var i := 0;
    while i < 7
      invariant 0 <= i <= 7 && |week| == i
      invariant Valid(next) && Ord(next) == Ord(current) + i
      invariant forall j :: 0 <= j < i ==> Valid(week[j]) && Ord(week[j]) == Ord(current) + j
    {
      week := week + [next];
      OrdSucc(next);
      next := Succ(next);
      i := i + 1;
    }
  }

  /** The weeks of `year`: a grid from the Sunday on or before 1 January
      whose last row contains 31 December. */
  predicate YearGrid(year: int, weeks: seq<seq<Date>>) {
    && |weeks| >= 1 && Grid(GridStart(year), weeks)
    && weeks[0][0] == GridStart(year)
    && Valid(Date(year, 12, 31))
    && Ord(weeks[|weeks| - 1][0]) <= Ord(Date(year, 12, 31)) <= Ord(weeks[|weeks| - 1][6])
  }

  /** `generateCalendar`: weeks of seven consecutive days from the Sunday on
      or before 1 January, for as long as the week's first day is not after
      31 December. */
  method GenerateCalendar(year: int) returns (weeks: seq<seq<Date>>)
    ensures YearGrid(year, weeks)
  {
    var start := GridStart(year);
    var endDate := Date(year, 12, 31);
    YearEndAfterStart(year);
    var current := start;
    weeks := [];
    while Ord(current) <= Ord(endDate)
      invariant Valid(current) && Ord(current) == Ord(start) + 7 * |weeks|
      invariant Grid(start, weeks)
      invariant |weeks| > 0 ==> Ord(start) + 7 * (|weeks| - 1) <= Ord(endDate)
      decreases Ord(endDate) - Ord(current) + 7
    {
      var week, next := WeekFrom(current);
      GridGrows(start, weeks, week, current);
      weeks := weeks + [week];
      current := next;
    }
    CalendarDone(year, weeks, current);
  }

  lemma YearEndAfterStart(year: int)
    ensures Valid(Date(year, 12, 31)) && Ord(GridStart(year)) <= Ord(Date(year, 12, 31))
  {
    OrdMonotone(Date(year, 1, 1), Date(year, 12, 31));
  }

  /** When the loop stops, the rows built so far are the year's grid. */
  lemma CalendarDone(year: int, weeks: seq<seq<Date>>, current: Date)
    requires Valid(Date(year, 12, 31)) && Ord(GridStart(year)) <= Ord(Date(year, 12, 31))
    requires Valid(current) && Ord(current) == Ord(GridStart(year)) + 7 * |weeks|
    requires Grid(GridStart(year), weeks) && Ord(current) > Ord(Date(year, 12, 31))
    requires |weeks| > 0 ==> Ord(GridStart(year)) + 7 * (|weeks| - 1) <= Ord(Date(year, 12, 31))
    ensures YearGrid(year, weeks)
  {
    var start := GridStart(year);
    assert |weeks| > 0;
    OrdMonotone(weeks[0][0], start);
  }

  /** A week of seven consecutive days from the next row's first day
      extends the grid by one row. */
  lemma GridGrows(start: Date, weeks: seq<seq<Date>>, week: seq<Date>, current: Date)
    requires Grid(start, weeks) && Valid(current) && Ord(current) == Ord(start) + 7 * |weeks|
    requires |week| == 7 && forall i :: 0 <= i < 7 ==> Valid(week[i]) && Ord(week[i]) == Ord(current) + i
    ensures Grid(start, weeks + [week])
  {
    var w := weeks + [week];
    forall k | 0 <= k < |w|
      ensures |w[k]| == 7 && forall i :: 0 <= i < 7 ==> Valid(w[k][i]) && Ord(w[k][i]) == Ord(start) + 7 * k + i
    {
      if k < |weeks| {
        assert w[k] == weeks[k];
      } else {
        assert w[k] == week;
      }
    }
  }

  /** Every grid week starts on a Sunday and its days follow each other. */
  lemma GridWeeks(start: Date, weeks: seq<seq<Date>>, k: nat, i: nat)
    requires Valid(start) && Weekday(start) == 0 && Grid(start, weeks)
    requires k < |weeks| && 0 < i < 7
    ensures Weekday(weeks[k][0]) == 0
    ensures weeks[k][i] == Succ(weeks[k][i - 1])
  {
    WeekdayAfterSunday(start, k, 0);
    OrdSucc(weeks[k][i - 1]);
    OrdMonotone(weeks[k][i], Succ(weeks[k][i - 1]));
  }

  /** The label put above a week: the month of its first day. */
  datatype MonthLabel = MonthLabel(month: int, weekIndex: nat)

  /** `getMonthPositions` over the weeks' first days: a week gets a label
      when its first day is in `year` and its month differs from the last
      month labelled (initially -1). Returns the labels and that last
      month. */
  function MonthPositions(firsts: seq<Date>, year: int): (r: (seq<MonthLabel>, int))
    ensures LabelsFit(firsts, year, r.0, r.1)
  {
    if |firsts| == 0 then ([], -1)
    else
      var n := |firsts| - 1;
      var (ps, last) := MonthPositions(firsts[..n], year);
      var d := firsts[n];
      if d.month != last && d.year == year then
        LabelAdded(firsts, year, ps, last);
        (ps + [MonthLabel(d.month, n)], d.month)
      else
        LabelSkipped(firsts, year, ps, last);
        (ps, last)
  }

  /** `ps` labels weeks of `firsts` in `year` with their months, in week
      order, no two neighbours with the same month, and `last` is the
      month of the last label (-1 without one). */
  ghost predicate LabelsFit(firsts: seq<Date>, year: int, ps: seq<MonthLabel>, last: int) {
    && (forall p :: 0 <= p < |ps| ==>
          ps[p].weekIndex < |firsts| && firsts[ps[p].weekIndex].year == year
          && ps[p].month == firsts[ps[p].weekIndex].month)
    && (forall p, q :: 0 <= p < q < |ps| ==> ps[p].weekIndex < ps[q].weekIndex)
    && (forall p :: 0 < p < |ps| ==> ps[p - 1].month != ps[p].month)
    && last == (if |ps| == 0 then -1 else ps[|ps| - 1].month)
  }

  /** A week whose first day is in the year and starts a new month gets a
      label. */
  lemma LabelAdded(firsts: seq<Date>, year: int, ps: seq<MonthLabel>, last: int)
    requires |firsts| > 0 && LabelsFit(firsts[..|firsts| - 1], year, ps, last)
    requires firsts[|firsts| - 1].month != last && firsts[|firsts| - 1].year == year
    ensures LabelsFit(firsts, year, ps + [MonthLabel(firsts[|firsts| - 1].month, |firsts| - 1)],
                      firsts[|firsts| - 1].month)
  {
    var n := |firsts| - 1;
    var qs := ps + [MonthLabel(firsts[n].month, n)];
    forall p | 0 <= p < |qs|
      ensures qs[p].weekIndex < |firsts| && firsts[qs[p].weekIndex].year == year
              && qs[p].month == firsts[qs[p].weekIndex].month
    {
      if p < |ps| {
        assert qs[p] == ps[p] && firsts[..n][ps[p].weekIndex] == firsts[ps[p].weekIndex];
      }
    }
  }

  /** Any other week gets none. */
  lemma LabelSkipped(firsts: seq<Date>, year: int, ps: seq<MonthLabel>, last: int)
    requires |firsts| > 0 && LabelsFit(firsts[..|firsts| - 1], year, ps, last)
    ensures LabelsFit(firsts, year, ps, last)
  {
    var n := |firsts| - 1;
    forall p | 0 <= p < |ps|
      ensures ps[p].weekIndex < |firsts| && firsts[ps[p].weekIndex].year == year
              && ps[p].month == firsts[ps[p].weekIndex].month
    {
      assert firsts[..n][ps[p].weekIndex] == firsts[ps[p].weekIndex];
    }
  }

  /** Valid first days in calendar order, equal days allowed. */
  predicate Ascending(firsts: seq<Date>) {
    && (forall i :: 0 <= i < |firsts| ==> Valid(firsts[i]))
    && (forall i, j :: 0 <= i < j < |firsts| ==> !Before(firsts[j], firsts[i]))
  }

  /** The first day of every week. */
  function FirstDays(weeks: seq<seq<Date>>): (firsts: seq<Date>)
    requires forall k :: 0 <= k < |weeks| ==> |weeks[k]| > 0
    ensures |firsts| == |weeks| && forall k :: 0 <= k < |weeks| ==> firsts[k] == weeks[k][0]
  {
    seq(|weeks|, k requires 0 <= k < |weeks| => weeks[k][0])
  }

  /** The calendar's weeks start in calendar order, so the month labels of a
      generated calendar are the ones described by LabelsAreFirstWeeks. */
  lemma GridFirstsAscending(start: Date, weeks: seq<seq<Date>>)
    requires Grid(start, weeks)
    ensures Ascending(FirstDays(weeks))
  {
    var firsts := FirstDays(weeks);
    forall i, j | 0 <= i < j < |firsts|
      ensures !Before(firsts[j], firsts[i])
    {
      OrdMonotone(firsts[j], firsts[i]);
    }
  }

  /** Week `k` is the first of its month within `year`. */
  predicate FirstOfMonth(firsts: seq<Date>, year: int, k: nat)
    requires k < |firsts|
  {
    firsts[k].year == year
    && forall j :: 0 <= j < k && firsts[j].year == year ==> firsts[j].month != firsts[k].month
  }

  /** Some label sits above week `k`. */
  predicate Labelled(ps: seq<MonthLabel>, k: nat) {
    exists p :: 0 <= p < |ps| && ps[p].weekIndex == k
  }

  predicate MonthsIncrease(ps: seq<MonthLabel>) {
    forall p, q :: 0 <= p < q < |ps| ==> ps[p].month < ps[q].month
  }

  /** No first day in `year` has a month later than `last`. */
  predicate NoLaterMonth(firsts: seq<Date>, year: int, last: int) {
    forall k :: 0 <= k < |firsts| && firsts[k].year == year ==> firsts[k].month <= last
  }

  /** On first days in calendar order the labelled months strictly
      increase, and the last month labelled is the latest month of the year
      reached (-1 when no first day is in the year). */
  lemma {:induction false} LabelMonthsIncrease(firsts: seq<Date>, year: int)
    requires Ascending(firsts)
    ensures MonthsIncrease(MonthPositions(firsts, year).0)
    ensures NoLaterMonth(firsts, year, MonthPositions(firsts, year).1)
  {
    if |firsts| > 0 {
      var n := |firsts| - 1;
      var init := firsts[..n];
      assert Ascending(init);
      LabelMonthsIncrease(init, year);
      var (ps, last) := MonthPositions(init, year);
      var d := firsts[n];
      if d.year == year {
        EarlierMonthsInYear(firsts, year);
        if d.month != last {
          NewMonthIsLater(firsts, year, ps, last);
        }
      } else {
        NoLaterMonthGrows(firsts, year, last);
      }
    }
  }

  /** The month of a new label is later than every month labelled before. */
  lemma NewMonthIsLater(firsts: seq<Date>, year: int, ps: seq<MonthLabel>, last: int)
    requires |firsts| > 0 && LabelsFit(firsts[..|firsts| - 1], year, ps, last) && MonthsIncrease(ps)
    requires NoLaterMonth(firsts, year, firsts[|firsts| - 1].month) && firsts[|firsts| - 1].month != last
    ensures MonthsIncrease(ps + [MonthLabel(firsts[|firsts| - 1].month, |firsts| - 1)])
  {
    var n := |firsts| - 1;
    var qs := ps + [MonthLabel(firsts[n].month, n)];
    if |ps| > 0 {
      var w := ps[|ps| - 1].weekIndex;
      assert firsts[..n][w] == firsts[w];
      assert last < firsts[n].month;
    }
    forall p, q | 0 <= p < q < |qs|
      ensures qs[p].month < qs[q].month
    {
      if q < |ps| {
        assert qs[p] == ps[p] && qs[q] == ps[q];
      } else {
        assert qs[p] == ps[p] && ps[p].month <= last;
      }
    }
  }

  /** A first day outside the year leaves the latest month unchanged. */
  lemma NoLaterMonthGrows(firsts: seq<Date>, year: int, last: int)
    requires |firsts| > 0 && NoLaterMonth(firsts[..|firsts| - 1], year, last)
    requires firsts[|firsts| - 1].year != year
    ensures NoLaterMonth(firsts, year, last)
  {
    var n := |firsts| - 1;
    forall k | 0 <= k < |firsts| && firsts[k].year == year
      ensures firsts[k].month <= last
    {
      assert k < n && firsts[..n][k] == firsts[k];
    }
  }

  /** In calendar order, a first day in the same year as the last one has a
      month no later than the last one's. */
  lemma EarlierMonthsInYear(firsts: seq<Date>, year: int)
    requires Ascending(firsts) && |firsts| > 0 && firsts[|firsts| - 1].year == year
    ensures NoLaterMonth(firsts, year, firsts[|firsts| - 1].month)
  {
    var n := |firsts| - 1;
    forall j | 0 <= j < n && firsts[j].year == year
      ensures firsts[j].month <= firsts[n].month
    {
      assert !Before(firsts[n], firsts[j]);
    }
  }

  /** On first days in calendar order, a week is labelled exactly when it is
      the first week of its month within the year, so no month is labelled
      twice. */
  lemma {:induction false} LabelsAreFirstWeeks(firsts: seq<Date>, year: int)
    requires Ascending(firsts)
    ensures forall k :: 0 <= k < |firsts| ==>
              (FirstOfMonth(firsts, year, k) <==> Labelled(MonthPositions(firsts, year).0, k))
  {
    if |firsts| > 0 {
      var n := |firsts| - 1;
      var init := firsts[..n];
      assert Ascending(init);
      LabelsAreFirstWeeks(init, year);
      var (ps, last) := MonthPositions(init, year);
      var r := MonthPositions(firsts, year).0;
      forall k | 0 <= k < n
        ensures FirstOfMonth(firsts, year, k) <==> Labelled(r, k)
      {
        EarlierWeeksKeepLabels(firsts, year, k);
      }
      LastWeekLabel(firsts, year);
    }
  }

  /** Appending a week changes neither whether an earlier week is the first
      of its month nor whether it is labelled. */
  lemma EarlierWeeksKeepLabels(firsts: seq<Date>, year: int, k: nat)
    requires k < |firsts| - 1
    ensures var init := firsts[..|firsts| - 1];
            (FirstOfMonth(firsts, year, k) <==> FirstOfMonth(init, year, k))
            && (Labelled(MonthPositions(firsts, year).0, k) <==> Labelled(MonthPositions(init, year).0, k))
  {
    var n := |firsts| - 1;
    var init := firsts[..n];
    assert forall j :: 0 <= j <= k ==> init[j] == firsts[j];
    LabelsOfPrefix(firsts, year, k);
  }

  lemma LabelsOfPrefix(firsts: seq<Date>, year: int, k: nat)
    requires k < |firsts| - 1
    ensures Labelled(MonthPositions(firsts, year).0, k) <==> Labelled(MonthPositions(firsts[..|firsts| - 1], year).0, k)
  {
    var n := |firsts| - 1;
    var ps := MonthPositions(firsts[..n], year).0;
    var r := MonthPositions(firsts, year).0;
    assert r == ps || r == ps + [MonthLabel(firsts[n].month, n)];
    if Labelled(r, k) {
      var p :| 0 <= p < |r| && r[p].weekIndex == k;
      assert p < |ps|;
    }
    if Labelled(ps, k) {
      var p :| 0 <= p < |ps| && ps[p].weekIndex == k;
      assert r[p] == ps[p];
    }
  }
  /** The newest week is labelled exactly when it is the first week of its
      month within the year. */
  lemma LastWeekLabel(firsts: seq<Date>, year: int)
    requires Ascending(firsts) && |firsts| > 0
    ensures FirstOfMonth(firsts, year, |firsts| - 1) <==> Labelled(MonthPositions(firsts, year).0, |firsts| - 1)
  {
    var n := |firsts| - 1;
    var init := firsts[..n];
    assert Ascending(init);
    var (ps, last) := MonthPositions(init, year);
    var d := firsts[n];
    var r := MonthPositions(firsts, year).0;
    assert !Labelled(ps, n);
    if d.year == year {
      LabelMonthsIncrease(init, year);
      if d.month != last {
        EarlierMonthsInYear(firsts, year);
        if |ps| > 0 {
          var w := ps[|ps| - 1].weekIndex;
          assert init[w] == firsts[w];
        }
        forall j | 0 <= j < n && firsts[j].year == year
          ensures firsts[j].month != d.month
        {
          assert init[j] == firsts[j];
        }
        assert r[|ps|].weekIndex == n;
      } else if |ps| > 0 {
        var w := ps[|ps| - 1].weekIndex;
        assert firsts[w] == init[w] && w < n;
      }
    }
  }
}

=== FILE: identity_badge.dfy ===
/** The identity badge: the identity sentence shown under "Today", the share
    of today's habits done, and the counter in the middle of its ring. */
module IdentityBadge {
  import opened Wrappers
  import opened Text

  const Placeholder := "Define your identity to frame your habits."
  const Prefix := "I am "
  const LowerPrefix := "i am "

  /** `identityText`: no identity (null or empty) shows the prompt; an
      identity that already begins with "i am " in any letter case is shown
      as it is; any other gets "I am " in front. */
  function IdentityText(identity: Option<string>): (s: string)
    ensures identity == None || identity == Some("") ==> s == Placeholder
    ensures identity.Some? && identity.value != "" ==>
              StartsWith(ToLower(s), LowerPrefix) && EndsWith(s, identity.value)
    ensures identity.Some? && identity.value != "" && StartsWith(ToLower(identity.value), LowerPrefix) ==>
              s == identity.value
  {
    if identity == None || identity == Some("") then Placeholder
    else
      var id := identity.value;
      if StartsWith(ToLower(id), LowerPrefix) then id
      else
        PrefixedReadsAsIdentity(id);
        Prefix + id
  }

  predicate EndsWith(s: string, suffix: string) {
    |suffix| <= |s| && s[|s| - |suffix|..] == suffix
  }

  lemma PrefixedReadsAsIdentity(id: string)
    ensures StartsWith(ToLower(Prefix + id), LowerPrefix)
    ensures EndsWith(Prefix + id, id)
  {
    var s := Prefix + id;
    assert ToLower(s)[..5] == LowerPrefix by {
      assert forall i :: 0 <= i < 5 ==> ToLower(s)[i] == ToLowerChar(Prefix[i]);
    }
  }

  /** Showing a shown identity again changes nothing. */
  lemma IdentityTextIdempotent(identity: string)
    requires identity != ""
    ensures IdentityText(Some(IdentityText(Some(identity)))) == IdentityText(Some(identity))
  {
  }

  /** `completionPercentage`, as an exact fraction: 0 without habits, else
      the share of habits done times 100. */
  function CompletionPercentage(completedToday: nat, totalHabits: nat): (p: real)
    ensures totalHabits == 0 ==> p == 0.0
    ensures totalHabits > 0 ==> p * totalHabits as real == 100.0 * completedToday as real
    ensures completedToday <= totalHabits ==> 0.0 <= p <= 100.0
  {
    if totalHabits > 0 then (completedToday as real / totalHabits as real) * 100.0 else 0.0
  }

  /** The ring's centre: "done/total" once something is done, else the user
      icon (None). */
  function RingLabel(completedToday: nat, totalHabits: nat): (r: Option<string>)
    ensures r.Some? <==> completedToday > 0
    ensures r.Some? ==> r.value == NatToDecimal(completedToday) + "/" + NatToDecimal(totalHabits)
  {
    if completedToday > 0 then Some(NatToDecimal(completedToday) + "/" + NatToDecimal(totalHabits)) else None
  }
}

=== FILE: percent.dfy ===
/** `Math.round((part / whole) * 100)` on integers: the percentage rounded
    to the nearest integer, halves upward. */
module Percent {

  lemma MulMonotone(m: nat, a: int, b: int)
    ensures a <= b ==> m * a <= m * b
  {
    if a <= b {
      var k: nat := b - a;
      assert m * b == m * a + m * k;
    }
  }

  function RoundPercent(part: nat, whole: nat): (r: int)
    requires whole > 0
    ensures 2 * whole * r <= 200 * part + whole < 2 * whole * (r + 1)
    ensures part <= whole ==> 0 <= r <= 100
  {
    var x := 200 * part + whole;
    var m := 2 * whole;
    var r := x / m;
    assert x == m * r + x % m;
    assert m * (r + 1) == m * r + m;
    MulMonotone(m, 101, r);
    r
  }
}

=== FILE: records.dfy ===
/** The two generations of log rows the repository stores. Both carry a
    habit id and a civil date; they differ in how a completion is marked. */
module Records {
  import opened CivilDate

  /** `type: 'full' | 'tiny'` of the `logs` table. */
  datatype Kind = Full | Tiny

  /** A row of the `logs` table, read by the streak hook, the weekly recap
      and the backup codec. The client schema declares no such table; this
      is the table those readers intend. `value` and `createdAt` play no
      part in the rules modelled on this shape and are left off. */
  datatype Log = Log(habitId: int, date: Date, kind: Kind)

  /** A row of the `habitLogs` table, read by the logging hook, the heatmap
      and the dashboard. The logging hook's lookup by (habit, date) assumes
      a compound index the schema does not declare. */
  datatype CompletionLog = CompletionLog(habitId: int, date: Date, completed: bool)

  predicate AllDatesValid(logs: seq<Log>) {
    forall l :: l in logs ==> Valid(l.date)
  }

  datatype Frequency = Daily | Weekly

  /** A row of the `habits` table as the logging hook and the dashboard see
      it: the fields the rules read, plus the name as a representative of
      the descriptive fields that pass through unchanged. */
  datatype Habit = Habit(id: int, name: string, frequency: Frequency, points: int)
}

=== FILE: streak_badge.dfy ===
/** The streak badge: the colour and emoji of a streak status, the tier a
    current streak has reached, the next milestone to aim for, and which of
    the badge's rows are shown. */
module StreakBadge {
  import opened Wrappers

  datatype Status = Active | AtRisk | Broken

  /** The badge's frame colour classes for each status. */
  function StatusColor(s: Status): string {
    match s
    case Active => "bg-green-100 text-green-700 border-green-300"
    case AtRisk => "bg-yellow-100 text-yellow-700 border-yellow-300"
    case Broken => "bg-gray-100 text-gray-700 border-gray-300"
  }

  /** Fire, warning sign (with its emoji variation selector), sleep. */
  function StatusEmoji(s: Status): string {
    match s
    case Active => "\U{1F525}"
    case AtRisk => "\U{26A0}\U{FE0F}"
    case Broken => "\U{1F4A4}"
  }

  /** Each status has its own colour and its own emoji. */
  lemma StatusStylesDistinct(s: Status, t: Status)
    ensures StatusColor(s) == StatusColor(t) ==> s == t
    ensures StatusEmoji(s) == StatusEmoji(t) ==> s == t
  {
  }

  /** The seven tiers, lowest first. */
  datatype Tier = GettingStarted | OnFire | WeekWarrior | RisingStar | Champion | Diamond | Legendary

  function Rank(t: Tier): nat {
    match t
    case GettingStarted => 0
    case OnFire => 1
    case WeekWarrior => 2
    case RisingStar => 3
    case Champion => 4
    case Diamond => 5
    case Legendary => 6
  }

  function Label(t: Tier): string {
    match t
    case GettingStarted => "Getting Started"
    case OnFire => "On Fire"
    case WeekWarrior => "Week Warrior"
    case RisingStar => "Rising Star"
    case Champion => "Champion"
    case Diamond => "Diamond"
    case Legendary => "Legendary"
  }

  /** Seedling, fire, sparkles, star, glowing star, gem, crown. */
  function TierEmoji(t: Tier): string {
    match t
    case GettingStarted => "\U{1F331}"
    case OnFire => "\U{1F525}"
    case WeekWarrior => "\U{2728}"
    case RisingStar => "\U{2B50}"
    case Champion => "\U{1F31F}"
    case Diamond => "\U{1F48E}"
    case Legendary => "\U{1F451}"
  }

  /** Each tier has its own label and its own emoji. */
  lemma TierStylesDistinct(s: Tier, t: Tier)
    ensures Label(s) == Label(t) ==> s == t
    ensures TierEmoji(s) == TierEmoji(t) ==> s == t
  {
  }

  /** The milestones, ascending: the streaks at which a new tier starts, and
      the targets the progress box offers. */
  const Milestones: seq<int> := [3, 7, 14, 30, 50, 100]

  /** How many of `ms` are at most `s`. */
  function Reached(ms: seq<int>, s: int): (n: nat)
    ensures n <= |ms|
  {
    if |ms| == 0 then 0 else (if ms[0] <= s then 1 else 0) + Reached(ms[1..], s)
  }

  /** `getStreakLevel`: the highest threshold the streak meets, checked from
      100 down. */
  function StreakLevel(streak: int): (t: Tier)
    ensures Rank(t) == Reached(Milestones, streak)
  {
    ReachedMilestones(streak);
    if streak >= 100 then Legendary
    else if streak >= 50 then Diamond
    else if streak >= 30 then Champion
    else if streak >= 14 then RisingStar
    else if streak >= 7 then WeekWarrior
    else if streak >= 3 then OnFire
    else GettingStarted
  }

  lemma ReachedMilestones(s: int)
    ensures Reached(Milestones, s) == Reached([7, 14, 30, 50, 100], s) + (if s >= 3 then 1 else 0)
    ensures Reached([7, 14, 30, 50, 100], s) == Reached([14, 30, 50, 100], s) + (if s >= 7 then 1 else 0)
    ensures Reached([14, 30, 50, 100], s) == Reached([30, 50, 100], s) + (if s >= 14 then 1 else 0)
    ensures Reached([30, 50, 100], s) == Reached([50, 100], s) + (if s >= 30 then 1 else 0)
    ensures Reached([50, 100], s) == Reached([100], s) + (if s >= 50 then 1 else 0)
    ensures Reached([100], s) == (if s >= 100 then 1 else 0)
  {
    assert Milestones[1..] == [7, 14, 30, 50, 100];
    assert [7, 14, 30, 50, 100][1..] == [14, 30, 50, 100];
    assert [14, 30, 50, 100][1..] == [30, 50, 100];
    assert [30, 50, 100][1..] == [50, 100];
    assert [50, 100][1..] == [100];
    assert [100][1..] == [];
  }

  lemma {:induction false} ReachedMonotone(ms: seq<int>, a: int, b: int)
    requires a <= b
    ensures Reached(ms, a) <= Reached(ms, b)
  {
    if |ms| > 0 {
      ReachedMonotone(ms[1..], a, b);
    }
  }

  /** A longer streak never has a lower tier. */
  lemma TierMonotone(a: int, b: int)
    requires a <= b
    ensures Rank(StreakLevel(a)) <= Rank(StreakLevel(b))
  {
    ReachedMonotone(Milestones, a, b);
  }

  /** One more day adds the milestones equal to the new streak. */
  lemma {:induction false} ReachedStep(ms: seq<int>, s: int)
    ensures Reached(ms, s) == Reached(ms, s - 1) + |MatchesOf(ms, s)|
  {
    if |ms| > 0 {
      ReachedStep(ms[1..], s);
    }
  }

  /** The entries of `ms` equal to `s`. */
  function MatchesOf(ms: seq<int>, s: int): (r: seq<int>)
    ensures forall x :: x in r ==> x == s
    ensures |r| > 0 <==> s in ms
  {
    if |ms| == 0 then []
    else
      var rest := MatchesOf(ms[1..], s);
      assert s in ms <==> ms[0] == s || s in ms[1..];
      if ms[0] == s then [s] + rest else rest
  }

  /** The tier changes from one day to the next exactly on a milestone. */
  lemma TierChangesAtMilestones(s: int)
    ensures StreakLevel(s - 1) != StreakLevel(s) <==> s in Milestones
  {
    ReachedStep(Milestones, s);
    assert |MatchesOf(Milestones, s)| <= 1 by {
      ReachedStep(Milestones, s);
      if s in Milestones {
        assert Reached(Milestones, s) == Reached(Milestones, s - 1) + 1;
      }
    }
  }

  /** The index `find` stops at: the first entry of `ms` above `s`, or
      `|ms|` when there is none. */
  function FirstAbove(ms: seq<int>, s: int): (i: nat)
    ensures i <= |ms|
    ensures forall j :: 0 <= j < i ==> ms[j] <= s
    ensures i < |ms| ==> ms[i] > s
  {
    if |ms| == 0 then 0
    else if ms[0] > s then 0
    else 1 + FirstAbove(ms[1..], s)
  }

  /** `milestones.find(m => m > streak)`: the first entry above `s`. */
  function FindAbove(ms: seq<int>, s: int): Option<int> {
    var i := FirstAbove(ms, s);
    if i < |ms| then Some(ms[i]) else None
  }

  /** The next milestone: the smallest milestone strictly above the streak,
      and 100 once the streak has passed them all (`|| 100`). */
  function NextMilestone(streak: int): (m: int)
    ensures m in Milestones
    ensures streak < 100 ==> m > streak && forall x :: x in Milestones && x > streak ==> m <= x
    ensures streak >= 100 ==> m == 100
  {
    FindAbove(Milestones, streak).GetOr(100)
  }

  /** The next milestone is where the tier next changes: no streak between
      the current one and it changes tier. */
  lemma NextMilestoneIsNextTier(streak: int)
    requires streak < 100
    ensures Rank(StreakLevel(NextMilestone(streak))) == Rank(StreakLevel(streak)) + 1
    ensures forall s :: streak <= s < NextMilestone(streak) ==> StreakLevel(s) == StreakLevel(streak)
  {
    var m := NextMilestone(streak);
    forall s | streak <= s < m
      ensures StreakLevel(s) == StreakLevel(streak)
    {
      TierMonotone(streak, s);
    }
  }

  /** The progress box: the milestone aimed at and the days still to go. */
  datatype Progress = Progress(nextMilestone: int, daysToGo: int)

  /** What the badge shows. */
  datatype Badge = Badge(color: string, emoji: string, tier: Tier,
                         best: Option<int>, progress: Option<Progress>)

  /** The badge for a current streak, longest streak and status: the best
      row only for a positive longest streak, the progress box only below
      100 days. */
  function ShowBadge(current: int, longest: int, status: Status): (b: Badge)
    ensures b.best.Some? <==> longest > 0
    ensures b.best.Some? ==> b.best.value == longest
    ensures b.progress.Some? <==> current < 100
    ensures b.progress.Some? ==>
              (b.progress.value.daysToGo >= 1
               && b.progress.value.nextMilestone == current + b.progress.value.daysToGo)
    ensures b.progress.Some? ==> b.progress.value.nextMilestone == NextMilestone(current)
    ensures b.progress.Some? ==> Rank(StreakLevel(b.progress.value.nextMilestone)) == Rank(b.tier) + 1
    ensures Rank(b.tier) == Reached(Milestones, current)
  {
    var m := NextMilestone(current);
    Badge(StatusColor(status), StatusEmoji(status), StreakLevel(current),
          if longest > 0 then Some(longest) else None,
          if current < 100 then NextMilestoneIsNextTier(current); Some(Progress(m, m - current)) else None)
  }
}

=== FILE: streak_engine.dfy ===
/** The current-streak computation shared by the streak hook and the weekly
    recap: keep one habit's qualifying logs, deduplicate their dates, sort
    them newest first, give 0 unless the newest is today or yesterday, and
    otherwise count back one calendar day at a time until the first gap.

    The two copies in the source differ only in which logs qualify: the
    hook counts every log, the recap only `full` ones. Both are this one
    engine under a different `Policy`. */
module StreakEngine {
  import opened CivilDate
  import opened Records

  datatype Policy = EveryLog | FullOnly

  predicate Qualifies(p: Policy, l: Log) {
    p == EveryLog || l.kind == Full
  }

  /** The distinct dates on which habit `h` has a qualifying log. */
  function DateSet(logs: seq<Log>, h: int, p: Policy): set<Date> {
    set l | l in logs && l.habitId == h && Qualifies(p, l) :: l.date
  }

  /** The qualifying logs' dates in log order, duplicates included. */
  function HabitDates(logs: seq<Log>, h: int, p: Policy): (r: seq<Date>)
    ensures forall d :: d in r <==> d in DateSet(logs, h, p)
  {
    if |logs| == 0 then []
    else
      var rest := HabitDates(logs[1..], h, p);
      assert forall l :: l in logs[1..] ==> l in logs;
      assert forall l :: l in logs ==> l == logs[0] || l in logs[1..];
      if logs[0].habitId == h && Qualifies(p, logs[0]) then [logs[0].date] + rest else rest
  }

  /** Newest first, no date twice. */
  predicate StrictlyDescending(s: seq<Date>) {
    forall i, j :: 0 <= i < j < |s| ==> Before(s[j], s[i])
  }

  /** `d` is the newest date of `s`. */
  predicate IsLatest(s: set<Date>, d: Date) {
    d in s && forall x :: x in s ==> x == d || Before(x, d)
  }

  function InsertDescending(x: Date, s: seq<Date>): (r: seq<Date>)
    requires StrictlyDescending(s)
    ensures StrictlyDescending(r)
    ensures forall y :: y in r <==> y == x || y in s
  {
    if |s| == 0 then [x]
    else if x == s[0] then s
    else if Before(s[0], x) then
      assert forall i :: 0 < i < |s| ==> Before(s[i], s[0]);
      [x] + s
    else
      var t := InsertDescending(x, s[1..]);
      assert forall y :: y in s[1..] ==> Before(y, s[0]);
      assert Before(x, s[0]);
      [s[0]] + t
  }

  /** `Array.from(new Set(dates)).sort((a, b) => b.localeCompare(a))`,
      ordering by the calendar (the same order as comparing the ISO strings,
      lemma IsoLexOrderIsChronological). */
  function SortDistinctDescending(ds: seq<Date>): (r: seq<Date>)
    ensures StrictlyDescending(r)
    ensures forall y :: y in r <==> y in ds
  {
    if |ds| == 0 then [] else InsertDescending(ds[0], SortDistinctDescending(ds[1..]))
  }

  lemma LatestUnique(s: set<Date>, a: Date, b: Date)
    requires IsLatest(s, a) && IsLatest(s, b)
    ensures a == b
  {
    BeforeIsStrictTotalOrder(a, b, a);
  }

  lemma OnlyLatest(s: set<Date>, top: Date)
    requires IsLatest(s, top)
    ensures forall latest :: IsLatest(s, latest) ==> latest == top
  {
    forall latest | IsLatest(s, latest)
      ensures latest == top
    {
      LatestUnique(s, latest, top);
    }
  }

  lemma LatestIsHead(r: seq<Date>)
    requires |r| > 0 && StrictlyDescending(r)
    ensures IsLatest((set y | y in r), r[0])
  {
  }

  /** Only one list is strictly descending with a given set of elements:
      deduplicating and sorting forgets the order and multiplicity of its
      input. */
  lemma {:induction false} DescendingUnique(a: seq<Date>, b: seq<Date>)
    requires StrictlyDescending(a) && StrictlyDescending(b)
    requires forall y :: y in a <==> y in b
    ensures a == b
  {
    assert |a| > 0 ==> a[0] in a;
    assert |b| > 0 ==> b[0] in b;
    if |a| > 0 && |b| > 0 {
      if a[0] != b[0] {
        assert a[0] in b && b[0] in a;
        var i :| 0 <= i < |b| && b[i] == a[0];
        var j :| 0 <= j < |a| && a[j] == b[0];
        BeforeIsStrictTotalOrder(a[0], b[0], a[0]);
        assert false;
      } else {
        assert forall y :: y in a[1..] <==> y in a && y != a[0];
        assert forall y :: y in b[1..] <==> y in b && y != b[0];
        DescendingUnique(a[1..], b[1..]);
      }
    }
  }

  lemma PredNShift(d: Date, j: nat)
    requires Valid(d)
    ensures PredN(d, j + 1) == PredN(Pred(d), j)
  {
    OrdPred(d);
    OrdMonotone(PredN(d, j + 1), PredN(Pred(d), j));
  }

  /** `s` holds the `n` days ending on `d`, and not the day before them. */
  predicate RunOf(s: set<Date>, d: Date, n: nat)
    requires Valid(d)
  {
    (forall j :: 0 <= j < n ==> PredN(d, j) in s) && PredN(d, n) !in s
  }

  lemma RunUnique(s: set<Date>, d: Date, n: nat, m: nat)
    requires Valid(d) && RunOf(s, d, n) && RunOf(s, d, m)
    ensures n == m
  {
    var atN, atM := PredN(d, n), PredN(d, m);
  }

  /** Reference definition of the count: how many consecutive calendar days,
      going back from `d`, are in `s`. */
  function RunBack(s: set<Date>, d: Date): (n: nat)
    requires Valid(d)
    ensures n <= |s|
    ensures RunOf(s, d, n)
    decreases |s|
  {
    if d in s then
      var k := RunBack(s - {d}, Pred(d));
      RunStep(s, d, k);
      1 + k
    else
      0
  }

  /** A run ending the day before `d`, in `s` without `d`, extends to a run
      ending on `d` when `d` is in `s`. */
  lemma RunStep(s: set<Date>, d: Date, k: nat)
    requires Valid(d) && d in s && RunOf(s - {d}, Pred(d), k)
    ensures RunOf(s, d, k + 1)
  {
    forall j | 1 <= j < k + 1
      ensures PredN(d, j) in s
    {
      PredNShift(d, j - 1);
    }
    PredNShift(d, k);
    OrdMonotone(PredN(d, k + 1), d);
  }

  /** The distinct qualifying dates of habit `h`, newest first. */
  function SortedDates(logs: seq<Log>, h: int, p: Policy): (r: seq<Date>)
    requires AllDatesValid(logs)
    ensures StrictlyDescending(r)
    ensures forall i :: 0 <= i < |r| ==> Valid(r[i])
    ensures DateSet(logs, h, p) == (set y | y in r)
  {
    var r := SortDistinctDescending(HabitDates(logs, h, p));
    assert forall y :: y in DateSet(logs, h, p) ==> Valid(y);
    r
  }

  /** Current streak of habit `h` on day `today` under policy `p`. */
  function CurrentStreak(logs: seq<Log>, h: int, p: Policy, today: Date): (n: nat)
    requires AllDatesValid(logs) && Valid(today)
    ensures DateSet(logs, h, p) == {} ==> n == 0
    ensures n <= |DateSet(logs, h, p)|
    ensures forall latest :: IsLatest(DateSet(logs, h, p), latest) ==>
              (n == 0 <==> latest != today && latest != Pred(today))
    ensures forall latest :: IsLatest(DateSet(logs, h, p), latest) && n > 0 ==>
              RunOf(DateSet(logs, h, p), latest, n)
  {
    var s := DateSet(logs, h, p);
    var dates := SortedDates(logs, h, p);
    if |dates| == 0 then 0
    else
      LatestIsHead(dates);
      OnlyLatest(s, dates[0]);
      if dates[0] != today && dates[0] != Pred(today) then 0
      else RunBack(s, dates[0])
  }

  /** The source's procedure: sort the distinct dates, apply the
      today-or-yesterday anchor, then walk back from the newest. */
  method CalculateStreak(logs: seq<Log>, h: int, p: Policy, today: Date) returns (streak: nat)
    requires AllDatesValid(logs) && Valid(today)
    ensures streak == CurrentStreak(logs, h, p, today)
  {
    var dates := SortedDates(logs, h, p);
    if |dates| == 0 {
      return 0;
    }
    if dates[0] != today && dates[0] != Pred(today) {
      return 0;
    }
    streak := WalkBack(dates);
    var s := DateSet(logs, h, p);
    RunUnique(s, dates[0], streak, RunBack(s, dates[0]));
  }

  /** The loop of the source: walk the sorted distinct dates from the newest,
      counting each date that is exactly one day before the previous one,
      and stop at the first that is not. */
  method WalkBack(dates: seq<Date>) returns (streak: nat)
    requires |dates| > 0 && StrictlyDescending(dates)
    requires forall i :: 0 <= i < |dates| ==> Valid(dates[i])
    ensures 1 <= streak <= |dates|
    ensures RunOf((set y | y in dates), dates[0], streak)
  {
    streak := 0;
    var current := dates[0];
    var i := 0;
    while i < |dates|
      invariant 0 <= i <= |dates|
      invariant streak == i
      invariant current == dates[if i > 0 then i - 1 else 0]
      invariant forall j :: 0 <= j < i ==> dates[j] == PredN(dates[0], j)
    {
      if i == 0 {
        streak := streak + 1;
      } else {
        var expected := Pred(current);
        if dates[i] == expected {
          streak := streak + 1;
          current := dates[i];
        } else {
          break;
        }
      }
      i := i + 1;
    }
    WalkStopsAtGap(dates, streak);
  }

  /** Where the walk stops, the run of consecutive days ends: no date it has
      not reached is the day before the last one it counted. */
  lemma WalkStopsAtGap(dates: seq<Date>, n: nat)
    requires StrictlyDescending(dates) && forall i :: 0 <= i < |dates| ==> Valid(dates[i])
    requires 1 <= n <= |dates|
    requires forall j :: 0 <= j < n ==> dates[j] == PredN(dates[0], j)
    requires n == |dates| || dates[n] != Pred(dates[n - 1])
    ensures RunOf((set y | y in dates), dates[0], n)
  {
    var d0 := dates[0];
    if n < |dates| {
      PredIsImmediate(dates[n], dates[n - 1]);
    }
    forall k | 0 <= k < |dates|
      ensures dates[k] != PredN(d0, n)
    {
      if k < n {
        OrdMonotone(dates[k], PredN(d0, n));
      } else if k > n {
        BeforeIsStrictTotalOrder(dates[k], dates[n], PredN(d0, n));
      }
    }
  }
}

=== FILE: streak_lemmas.dfy ===
/** What the streak engine promises beyond a single call: the result depends
    only on the set of qualifying dates, a log for today extends a streak
    that ended yesterday by one, and the two call sites' policies are one
    engine applied to different logs. */
module StreakLemmas {
  import opened CivilDate
  import opened Records
  import opened StreakEngine

  /** Two histories with the same qualifying dates have the same streak,
      whatever the habits and policies that selected those dates. */
  lemma DatesDetermineStreak(l1: seq<Log>, l2: seq<Log>, h1: int, h2: int, p1: Policy, p2: Policy, today: Date)
    requires AllDatesValid(l1) && AllDatesValid(l2) && Valid(today)
    requires DateSet(l1, h1, p1) == DateSet(l2, h2, p2)
    ensures CurrentStreak(l1, h1, p1, today) == CurrentStreak(l2, h2, p2, today)
  {
    DescendingUnique(SortedDates(l1, h1, p1), SortedDates(l2, h2, p2));
  }

  /** The order in which the store returns the logs does not matter. */
  lemma ReorderingKeepsStreak(l1: seq<Log>, l2: seq<Log>, h: int, p: Policy, today: Date)
    requires AllDatesValid(l1) && Valid(today)
    requires multiset(l1) == multiset(l2)
    ensures AllDatesValid(l2)
    ensures CurrentStreak(l1, h, p, today) == CurrentStreak(l2, h, p, today)
  {
    assert forall l :: l in l1 <==> l in l2 by {
      forall l
        ensures l in l1 <==> l in l2
      {
        assert l in l1 <==> l in multiset(l1);
        assert l in l2 <==> l in multiset(l2);
      }
    }
    DatesDetermineStreak(l1, l2, h, h, p, p, today);
  }

  /** A second log on a day that already counts (a double click, or a tiny
      and a full entry on the same day) does not inflate the streak. */
  lemma SameDayLogKeepsStreak(logs: seq<Log>, l: Log, h: int, p: Policy, today: Date)
    requires AllDatesValid(logs) && Valid(today)
    requires l.date in DateSet(logs, h, p)
    ensures AllDatesValid(logs + [l])
    ensures CurrentStreak(logs + [l], h, p, today) == CurrentStreak(logs, h, p, today)
  {
    assert DateSet(logs + [l], h, p) == DateSet(logs, h, p);
    DatesDetermineStreak(logs + [l], logs, h, h, p, p, today);
  }

  /** A log that does not qualify (another habit's, or a tiny one under the
      full-only policy) changes nothing. */
  lemma NonQualifyingLogIgnored(logs: seq<Log>, l: Log, h: int, p: Policy, today: Date)
    requires AllDatesValid(logs) && Valid(l.date) && Valid(today)
    requires l.habitId != h || !Qualifies(p, l)
    ensures CurrentStreak(logs + [l], h, p, today) == CurrentStreak(logs, h, p, today)
  {
    assert DateSet(logs + [l], h, p) == DateSet(logs, h, p);
    DatesDetermineStreak(logs + [l], logs, h, h, p, p, today);
  }

  /** The newest qualifying date decides the streak's anchor. */
  lemma StreakFromLatest(logs: seq<Log>, h: int, p: Policy, today: Date, latest: Date)
    requires AllDatesValid(logs) && Valid(today)
    requires IsLatest(DateSet(logs, h, p), latest)
    requires latest == today || latest == Pred(today)
    ensures CurrentStreak(logs, h, p, today) == RunBack(DateSet(logs, h, p), latest)
  {
    var dates := SortedDates(logs, h, p);
    LatestIsHead(dates);
    LatestUnique(DateSet(logs, h, p), dates[0], latest);
  }

  /** If the streak ends yesterday, logging today adds exactly one day. */
  lemma {:induction false} TodayExtendsStreak(logs: seq<Log>, l: Log, h: int, p: Policy, today: Date)
    requires AllDatesValid(logs) && Valid(today)
    requires IsLatest(DateSet(logs, h, p), Pred(today))
    requires l == Log(h, today, l.kind) && Qualifies(p, l)
    ensures AllDatesValid(logs + [l])
    ensures CurrentStreak(logs + [l], h, p, today) == CurrentStreak(logs, h, p, today) + 1
  {
    var s := DateSet(logs, h, p);
    var s' := DateSet(logs + [l], h, p);
    assert s' == s + {today};
    assert today !in s by {
      if today in s {
        BeforeIsStrictTotalOrder(today, Pred(today), today);
      }
    }
    assert IsLatest(s', today) by {
      forall x | x in s'
        ensures x == today || Before(x, today)
      {
        if x != today {
          BeforeIsStrictTotalOrder(x, Pred(today), today);
        }
      }
    }
    assert s' - {today} == s;
    StreakFromLatest(logs + [l], h, p, today, today);
    StreakFromLatest(logs, h, p, today, Pred(today));
  }

  /** The logs the full-only policy reads. */
  function FullLogs(logs: seq<Log>): (r: seq<Log>)
    ensures forall l :: l in r <==> l in logs && l.kind == Full
  {
    if |logs| == 0 then []
    else if logs[0].kind == Full then [logs[0]] + FullLogs(logs[1..])
    else FullLogs(logs[1..])
  }

  /** The weekly recap's count is the hook's count over the full logs only:
      both call sites share one engine. */
  lemma FullOnlyIsEveryLogOfFullLogs(logs: seq<Log>, h: int, today: Date)
    requires AllDatesValid(logs) && Valid(today)
    ensures AllDatesValid(FullLogs(logs))
    ensures CurrentStreak(logs, h, FullOnly, today) == CurrentStreak(FullLogs(logs), h, EveryLog, today)
  {
    var full := FullLogs(logs);
    forall d
      ensures d in DateSet(logs, h, FullOnly) <==> d in DateSet(full, h, EveryLog)
    {
      if d in DateSet(logs, h, FullOnly) {
        var l :| l in logs && l.habitId == h && l.kind == Full && l.date == d;
        assert l in full;
      }
      if d in DateSet(full, h, EveryLog) {
        var l :| l in full && l.habitId == h && l.date == d;
        assert l in logs;
      }
    }
    DatesDetermineStreak(logs, full, h, h, FullOnly, EveryLog, today);
  }

  /** A habit whose logs are all tiny has no full-only streak, however many
      days in a row it was logged. */
  lemma OnlyTinyScoresZero(logs: seq<Log>, h: int, today: Date)
    requires AllDatesValid(logs) && Valid(today)
    requires forall l :: l in logs ==> l.kind == Tiny
    ensures CurrentStreak(logs, h, FullOnly, today) == 0
  {
    assert DateSet(logs, h, FullOnly) == {};
  }

  /** Under the every-log policy a tiny log counts like a full one. */
  lemma TinyCountsForEveryLog(logs: seq<Log>, h: int, d: Date, today: Date)
    requires AllDatesValid(logs) && Valid(d) && Valid(today)
    ensures CurrentStreak(logs + [Log(h, d, Tiny)], h, EveryLog, today)
         == CurrentStreak(logs + [Log(h, d, Full)], h, EveryLog, today)
  {
    assert DateSet(logs + [Log(h, d, Tiny)], h, EveryLog) == DateSet(logs + [Log(h, d, Full)], h, EveryLog);
    DatesDetermineStreak(logs + [Log(h, d, Tiny)], logs + [Log(h, d, Full)], h, h, EveryLog, EveryLog, today);
  }
}

=== FILE: text.dfy ===
/** Character and string helpers shared by the renderers and parsers:
    decimal digits, `toString`/`padStart`, fixed-width digit fields,
    code-point (lexical) order, ASCII whitespace, `trim` and `join`. */
module Text {
  import opened Wrappers

  predicate IsDigit(c: char) {
    '0' <= c <= '9'
  }

  predicate AllDigits(s: string) {
    forall i :: 0 <= i < |s| ==> IsDigit(s[i])
  }

  function DigitChar(k: nat): (c: char)
    requires k < 10
    ensures IsDigit(c)
  {
    ('0' as int + k) as char
  }

  function DigitValue(c: char): (k: nat)
    requires IsDigit(c)
    ensures k < 10 && DigitChar(k) == c
  {
    c as int - '0' as int
  }

  function Pow10(w: nat): (p: nat)
    ensures p >= 1
  {
    if w == 0 then 1 else 10 * Pow10(w - 1)
  }

  /** `n.toString()` for a natural number: shortest decimal form. */
  function NatToDecimal(n: nat): (s: string)
    ensures |s| >= 1 && AllDigits(s)
    ensures n >= 10 ==> s[0] != '0'
    decreases n
  {
    if n < 10 then [DigitChar(n)] else NatToDecimal(n / 10) + [DigitChar(n % 10)]
  }

  /** The number a non-empty run of decimal digits denotes. */
  function DecimalValue(s: string): nat
    requires AllDigits(s)
  {
    if |s| == 0 then 0 else DecimalValue(s[..|s| - 1]) * 10 + DigitValue(s[|s| - 1])
  }

  /** `Number(s)` restricted to plain digit strings; anything else is NaN,
      written None. */
  function ParseDecimal(s: string): (r: Option<nat>)
    ensures r.Some? <==> |s| > 0 && AllDigits(s)
  {
    if |s| > 0 && AllDigits(s) then Some(DecimalValue(s)) else None
  }

  lemma {:induction false} DecimalRoundTrip(n: nat)
    ensures DecimalValue(NatToDecimal(n)) == n
    decreases n
  {
    var s := NatToDecimal(n);
    if n >= 10 {
      DecimalRoundTrip(n / 10);
      assert s[..|s| - 1] == NatToDecimal(n / 10);
    }
  }

  lemma ParseDecimalRoundTrip(n: nat)
    ensures ParseDecimal(NatToDecimal(n)) == Some(n)
  {
    DecimalRoundTrip(n);
  }

  /** The last `w` decimal digits of `n`, zero-filled on the left: the
      fixed-width fields of an ISO-8601 date. */
  function Fixed(n: nat, w: nat): (s: string)
    ensures |s| == w && AllDigits(s)
  {
    if w == 0 then [] else Fixed(n / 10, w - 1) + [DigitChar(n % 10)]
  }

  lemma {:induction false} FixedValue(n: nat, w: nat)
    requires n < Pow10(w)
    ensures DecimalValue(Fixed(n, w)) == n
  {
    if w > 0 {
      FixedValue(n / 10, w - 1);
      var s := Fixed(n, w);
      assert s[..|s| - 1] == Fixed(n / 10, w - 1);
    }
  }

  /** `s.padStart(w, c)`: left-fill with `c` up to width `w`. */
  function PadStart(s: string, w: nat, c: char): (r: string)
    ensures |s| >= w ==> r == s
    ensures |s| < w ==> |r| == w && r[w - |s|..] == s
    ensures forall i :: 0 <= i < |r| - |s| ==> r[i] == c
  {
    if |s| >= w then s else seq(w - |s|, _ => c) + s
  }

  lemma {:induction false} FixedZero(w: nat)
    ensures Fixed(0, w) == seq(w, _ => '0')
  {
    if w > 0 {
      FixedZero(w - 1);
    }
  }

  /** Padding the shortest decimal form gives the fixed-width field
      whenever the number fits in it. */
  lemma {:induction false} PadDecimalIsFixed(n: nat, w: nat)
    requires w >= 1 && n < Pow10(w)
    ensures PadStart(NatToDecimal(n), w, '0') == Fixed(n, w)
    decreases n
  {
    if n < 10 {
      FixedZero(w - 1);
      assert PadStart(NatToDecimal(n), w, '0') == seq(w - 1, _ => '0') + [DigitChar(n)];
    } else {
      PadDecimalIsFixed(n / 10, w - 1);
      var s := NatToDecimal(n / 10);
      if |s| < w - 1 {
        assert seq(w - |s| - 1, _ => '0') + s + [DigitChar(n % 10)]
            == seq(w - (|s| + 1), _ => '0') + (s + [DigitChar(n % 10)]);
      }
    }
  }

  /** The shortest decimal form of `n` has more than `w` digits exactly when
      `w` is 0 or `n` is at least `10^w`. */
  lemma {:induction false} DecimalLength(n: nat, w: nat)
    ensures |NatToDecimal(n)| > w <==> w == 0 || n >= Pow10(w)
    decreases n
  {
    if w > 0 {
      var p := Pow10(w - 1);
      assert Pow10(w) == 10 * p;
      if n >= 10 {
        DecimalLength(n / 10, w - 1);
        assert NatToDecimal(n) == NatToDecimal(n / 10) + [DigitChar(n % 10)];
        assert n / 10 >= p <==> n >= 10 * p;
      }
    }
  }

  /** Code-point (lexical) order on strings, as `<` on JavaScript strings. */
  predicate LexLess(s: string, t: string) {
    if |s| == 0 then |t| > 0
    else |t| > 0 && (s[0] < t[0] || (s[0] == t[0] && LexLess(s[1..], t[1..])))
  }

  lemma {:induction false} LexLessIrreflexive(s: string)
    ensures !LexLess(s, s)
  {
    if |s| > 0 {
      LexLessIrreflexive(s[1..]);
    }
  }

  /** Comparing two concatenations whose first parts have equal length
      compares the first parts, then the second parts. */
  lemma {:induction false} LexLessConcat(a1: string, a2: string, b1: string, b2: string)
    requires |a1| == |b1|
    ensures LexLess(a1 + a2, b1 + b2) <==> LexLess(a1, b1) || (a1 == b1 && LexLess(a2, b2))
  {
    if |a1| == 0 {
      assert a1 + a2 == a2 && b1 + b2 == b2;
    } else {
      assert (a1 + a2)[1..] == a1[1..] + a2;
      assert (b1 + b2)[1..] == b1[1..] + b2;
      LexLessConcat(a1[1..], a2, b1[1..], b2);
      if a1[0] == b1[0] && a1[1..] == b1[1..] {
        assert a1 == b1;
      }
      if a1 == b1 {
        LexLessIrreflexive(a1);
      }
    }
  }

  lemma {:induction false} FixedInjective(n: nat, m: nat, w: nat)
    requires n < Pow10(w) && m < Pow10(w)
    ensures Fixed(n, w) == Fixed(m, w) <==> n == m
  {
    if Fixed(n, w) == Fixed(m, w) {
      FixedValue(n, w);
      FixedValue(m, w);
    }
  }

  /** On fixed-width digit fields lexical order is numeric order. */
  lemma {:induction false} LexLessFixed(n: nat, m: nat, w: nat)
    requires n < Pow10(w) && m < Pow10(w)
    ensures LexLess(Fixed(n, w), Fixed(m, w)) <==> n < m
  {
    if w > 0 {
      LexLessFixed(n / 10, m / 10, w - 1);
      FixedInjective(n / 10, m / 10, w - 1);
      LexLessConcat(Fixed(n / 10, w - 1), [DigitChar(n % 10)], Fixed(m / 10, w - 1), [DigitChar(m % 10)]);
    }
  }

  /** The characters `String.prototype.trim` removes, restricted to ASCII. */
  predicate IsSpace(c: char) {
    c == ' ' || c == '\t' || c == '\n' || c == '\r' || c == '\U{B}' || c == '\U{C}'
  }

  predicate IsBlank(s: string) {
    forall i :: 0 <= i < |s| ==> IsSpace(s[i])
  }

  function TrimStart(s: string): (r: string)
    ensures |r| <= |s| && r == s[|s| - |r|..]
    ensures |r| > 0 ==> !IsSpace(r[0])
    ensures IsBlank(s[..|s| - |r|])
    ensures IsBlank(s) ==> r == ""
  {
    if |s| > 0 && IsSpace(s[0]) then
      var r := TrimStart(s[1..]);
      assert s[..|s| - |r|] == [s[0]] + s[1..][..|s[1..]| - |r|];
      r
    else s
  }

  function TrimEnd(s: string): (r: string)
    ensures |r| <= |s| && r == s[..|r|]
    ensures |r| > 0 ==> !IsSpace(r[|r| - 1])
    ensures IsBlank(s[|r|..])
  {
    if |s| > 0 && IsSpace(s[|s| - 1]) then
      var r := TrimEnd(s[..|s| - 1]);
      assert s[|r|..] == s[..|s| - 1][|r|..] + [s[|s| - 1]];
      r
    else s
  }

  /** `s.trim()`: drop leading and trailing whitespace. */
  function Trim(s: string): (r: string)
    ensures r == "" <==> IsBlank(s)
    ensures |r| > 0 ==> !IsSpace(r[0]) && !IsSpace(r[|r| - 1])
  {
    var a := TrimStart(s);
    var r := TrimEnd(a);
    assert r == "" ==> s == s[..|s| - |a|] + a;
    r
  }

  function ToLowerChar(c: char): char {
    if 'A' <= c <= 'Z' then (c as int + 32) as char else c
  }

  /** `s.toLowerCase()`, restricted to ASCII letters. */
  function ToLower(s: string): (r: string)
    ensures |r| == |s|
    ensures forall i :: 0 <= i < |s| ==> r[i] == ToLowerChar(s[i])
  {
    seq(|s|, i requires 0 <= i < |s| => ToLowerChar(s[i]))
  }

  predicate StartsWith(s: string, prefix: string) {
    |prefix| <= |s| && s[..|prefix|] == prefix
  }

  /** `parts.join(sep)`. */
  function Join(parts: seq<string>, sep: string): string {
    if |parts| == 0 then ""
    else if |parts| == 1 then parts[0]
    else parts[0] + sep + Join(parts[1..], sep)
  }

  predicate NoChar(s: string, c: char) {
    forall i :: 0 <= i < |s| ==> s[i] != c
  }

  /** A string with no space at either end is its own trim. */
  lemma TrimUnchanged(s: string)
    requires |s| > 0 && !IsSpace(s[0]) && !IsSpace(s[|s| - 1])
    ensures Trim(s) == s
  {
  }

  /** A run of digits has no space to trim. */
  lemma DigitsAreTrimmed(s: string)
    ensures |s| > 0 && AllDigits(s) ==> Trim(s) == s
  {
    if |s| > 0 && AllDigits(s) {
      assert IsDigit(s[0]) && IsDigit(s[|s| - 1]);
      TrimUnchanged(s);
    }
  }
}

=== FILE: timer.dfy ===
/** The focus timer: a countdown of whole seconds that can be started,
    paused and reset, finishes at zero, and reports its planned length. Each
    one-second interval firing is one `Step`. */
module Timer {
  import opened Wrappers
  import opened Text

  const DefaultMinutes: nat := 25

  /** The timer's props and state: the planned minutes, the seconds left,
      whether it is counting, and whether the session is over. */
  datatype Timer = Timer(minutes: nat, timeLeft: int, active: bool, finished: bool)

  /** A fresh timer for `initialMinutes`, 25 when the prop is absent. */
  function NewTimer(initialMinutes: Option<nat>): (t: Timer)
    ensures t.minutes == initialMinutes.GetOr(DefaultMinutes)
    ensures t.timeLeft == 60 * t.minutes && !t.active && !t.finished
  {
    var m := initialMinutes.GetOr(DefaultMinutes);
    Timer(m, m * 60, false, false)
  }

  /** What holds of every timer the component can reach: the seconds left
      lie between 0 and the planned length, and a finished timer has none
      left. */
  predicate Sane(t: Timer) {
    0 <= t.timeLeft <= 60 * t.minutes && (t.finished ==> t.timeLeft == 0)
  }

  /** The effect on `[isActive, timeLeft]`: a running timer with time left
      loses one second; a timer at zero stops and finishes; a paused timer
      with time left stays as it is. */
  function Step(t: Timer): (r: Timer)
    ensures r.minutes == t.minutes
    ensures t.active && t.timeLeft > 0 ==> r == t.(timeLeft := t.timeLeft - 1)
    ensures !t.active && t.timeLeft > 0 ==> r == t
    ensures t.timeLeft == 0 ==> r == t.(active := false, finished := true)
  {
    if t.active && t.timeLeft > 0 then t.(timeLeft := t.timeLeft - 1)
    else if t.timeLeft == 0 then t.(active := false, finished := true)
    else t
  }

  /** The start/pause button. */
  function Toggle(t: Timer): (r: Timer)
    ensures r.active == !t.active
    ensures r.(active := t.active) == t
  {
    t.(active := !t.active)
  }

  /** The reset button: stopped, not finished, the full planned time. */
  function Reset(t: Timer): (r: Timer)
    ensures r == NewTimer(Some(t.minutes))
  {
    Timer(t.minutes, t.minutes * 60, false, false)
  }

  /** `handleFinish` reports the planned minutes, not the time elapsed. */
  function Finish(t: Timer): nat {
    t.minutes
  }

  /** `k` firings of the effect. */
  function Steps(t: Timer, k: nat): Timer
    decreases k
  {
    if k == 0 then t else Steps(Step(t), k - 1)
  }

  lemma {:induction false} StepsKeepMinutes(t: Timer, k: nat)
    ensures Steps(t, k).minutes == t.minutes
    decreases k
  {
    if k > 0 {
      StepsKeepMinutes(Step(t), k - 1);
    }
  }

  /** However long a started timer has run, finishing reports the planned
      minutes: the prop, or 25 without it. */
  lemma FinishReportsPlan(initialMinutes: Option<nat>, k: nat)
    ensures Finish(Steps(Toggle(NewTimer(initialMinutes)), k)) == initialMinutes.GetOr(DefaultMinutes)
  {
    StepsKeepMinutes(Toggle(NewTimer(initialMinutes)), k);
  }

  /** Every event keeps a timer sane. */
  lemma EventsKeepSane(t: Timer)
    requires Sane(t)
    ensures Sane(Step(t)) && Sane(Toggle(t)) && Sane(Reset(t))
  {
  }

  /** A running timer with `n` seconds left has stopped and finished after
      `n + 1` firings of the effect. */
  lemma {:induction false} RunsDown(t: Timer)
    requires Sane(t) && t.active
    ensures var r := Steps(t, t.timeLeft + 1);
            r.timeLeft == 0 && !r.active && r.finished && r.minutes == t.minutes
    decreases t.timeLeft
  {
    if t.timeLeft > 0 {
      RunsDown(Step(t));
    }
  }

  /** `formatTime`: minutes and seconds, each at least two digits. */
  function FormatTime(seconds: nat): (s: string)
    ensures |s| >= 5 && s[|s| - 3] == ':'
  {
    PaddedValue(seconds % 60);
    PadStart(NatToDecimal(seconds / 60), 2, '0') + ":" + PadStart(NatToDecimal(seconds % 60), 2, '0')
  }

  /** The index of the first ':' in `s`, or `|s|` when there is none. */
  function ColonAt(s: string): (i: nat)
    ensures i <= |s|
    ensures forall j :: 0 <= j < i ==> s[j] != ':'
    ensures i < |s| ==> s[i] == ':'
  {
    if |s| == 0 then 0 else if s[0] == ':' then 0 else 1 + ColonAt(s[1..])
  }

  /** Reads an `MM:SS` display back into seconds. */
  function ReadTime(s: string): Option<nat> {
    var i := ColonAt(s);
    if i == |s| then None
    else
      ReadParts(s[..i], s[i + 1..])
  }

  /** The minutes before the colon and the seconds after it: some digits,
      then exactly two digits worth less than 60. */
  function ReadParts(mm: string, ss: string): Option<nat> {
    if |mm| > 0 && AllDigits(mm) && |ss| == 2 && AllDigits(ss) && DecimalValue(ss) < 60
    then Some(DecimalValue(mm) * 60 + DecimalValue(ss))
    else None
  }

  /** A number padded to two digits keeps its value and stays all digits. */
  lemma PaddedValue(n: nat)
    ensures AllDigits(PadStart(NatToDecimal(n), 2, '0'))
    ensures DecimalValue(PadStart(NatToDecimal(n), 2, '0')) == n
    ensures n < 100 ==> |PadStart(NatToDecimal(n), 2, '0')| == 2
  {
    if n < 100 {
      PadDecimalIsFixed(n, 2);
      FixedValue(n, 2);
    } else {
      DecimalRoundTrip(n);
    }
  }

  /** The display reads back as the seconds it shows. */
  lemma FormatTimeRoundTrip(seconds: nat)
    ensures ReadTime(FormatTime(seconds)) == Some(seconds)
  {
    var mm := PadStart(NatToDecimal(seconds / 60), 2, '0');
    var ss := PadStart(NatToDecimal(seconds % 60), 2, '0');
    assert FormatTime(seconds) == mm + ":" + ss;
    PaddedValue(seconds / 60);
    SplitAtColon(mm, ss);
    assert ReadParts(mm, ss) == Some(seconds) by {
      PaddedValue(seconds % 60);
    }
  }

  /** With only digits before it, the first colon is the one after `mm`. */
  lemma SplitAtColon(mm: string, ss: string)
    requires AllDigits(mm)
    ensures ReadTime(mm + ":" + ss) == ReadParts(mm, ss)
  {
    var s := mm + ":" + ss;
    assert ColonAt(s) == |mm| by {
      assert s == mm + (":" + ss);
      ColonOfDigits(mm, ":" + ss);
    }
    assert s[..|mm|] == mm && s[|mm| + 1..] == ss;
  }

  lemma {:induction false} ColonOfDigits(a: string, b: string)
    requires AllDigits(a) && |b| > 0 && b[0] == ':'
    ensures ColonAt(a + b) == |a|
  {
    if |a| > 0 {
      assert (a + b)[1..] == a[1..] + b;
      ColonOfDigits(a[1..], b);
    }
  }

  /** A fresh 25-minute timer shows 25:00, and one second after starting it
      shows 24:59. */
  lemma TwentyFiveMinutes()
    ensures FormatTime(NewTimer(Some(25)).timeLeft) == "25:00"
    ensures FormatTime(Step(Toggle(NewTimer(Some(25)))).timeLeft) == "24:59"
  {
    ShowsAs(25, 0, "25:00");
    ShowsAs(24, 59, "24:59");
  }

  /** The display of `m` minutes and `s` seconds, both two-digit. */
  lemma ShowsAs(m: nat, s: nat, shown: string)
    requires 10 <= m < 100 && s < 60
    requires shown == NatToDecimal(m) + ":" + PadStart(NatToDecimal(s), 2, '0')
    ensures FormatTime(60 * m + s) == shown
  {
    assert (60 * m + s) / 60 == m && (60 * m + s) % 60 == s;
    assert |NatToDecimal(m)| == 2 by {
      assert NatToDecimal(m) == NatToDecimal(m / 10) + [DigitChar(m % 10)];
    }
  }
}

=== FILE: user_store.dfy ===
/** The persisted user store: the identity statement, whether onboarding is
    done, and a progress score toward the identity capped at 100. */
module UserStore {
  import opened Wrappers

  const Cap: int := 100

  datatype UserState = UserState(identity: Option<string>, hasOnboarded: bool, identityProgress: int)

  /** The store's state before any action, and after `reset`. */
  const Initial := UserState(None, false, 0)

  /** `setIdentity`: the new text is stored; progress survives only when the
      text is exactly the one already stored. */
  function SetIdentity(st: UserState, identity: string): (r: UserState)
    ensures r.identity == Some(identity) && r.hasOnboarded == st.hasOnboarded
    ensures st.identity == Some(identity) ==> r.identityProgress == st.identityProgress
    ensures st.identity != Some(identity) ==> r.identityProgress == 0
  {
    UserState(Some(identity), st.hasOnboarded,
              if st.identity == Some(identity) then st.identityProgress else 0)
  }

  /** `incrementIdentityProgress`: add the amount (1 when absent) and cap the
      sum at 100. */
  function Increment(st: UserState, amount: Option<int>): (r: UserState)
    ensures r.identity == st.identity && r.hasOnboarded == st.hasOnboarded
    ensures r.identityProgress <= Cap
    ensures r.identityProgress == Cap || r.identityProgress == st.identityProgress + amount.GetOr(1)
    ensures st.identityProgress + amount.GetOr(1) <= Cap ==> r.identityProgress == st.identityProgress + amount.GetOr(1)
  {
    var sum := st.identityProgress + amount.GetOr(1);
    st.(identityProgress := if Cap < sum then Cap else sum)
  }

  /** `completeOnboarding` touches nothing but the onboarding flag. */
  function CompleteOnboarding(st: UserState): (r: UserState)
    ensures r.hasOnboarded && r.(hasOnboarded := st.hasOnboarded) == st
  {
    st.(hasOnboarded := true)
  }

  function Reset(st: UserState): (r: UserState)
    ensures r == Initial
  {
    UserState(None, false, 0)
  }

  /** Progress between 0 and 100. */
  predicate InRange(st: UserState) {
    0 <= st.identityProgress <= Cap
  }

  /** Every action with a non-negative amount keeps progress in range. */
  lemma ActionsKeepRange(st: UserState, identity: string, amount: Option<int>)
    requires InRange(st) && amount.GetOr(1) >= 0
    ensures InRange(SetIdentity(st, identity)) && InRange(Increment(st, amount))
    ensures InRange(CompleteOnboarding(st)) && InRange(Reset(st))
  {
  }

  function Sum(amounts: seq<nat>): nat {
    if |amounts| == 0 then 0 else Sum(amounts[..|amounts| - 1]) + amounts[|amounts| - 1]
  }

  /** Incrementing by each amount in turn. */
  function IncrementAll(st: UserState, amounts: seq<nat>): UserState
    decreases |amounts|
  {
    if |amounts| == 0 then st
    else Increment(IncrementAll(st, amounts[..|amounts| - 1]), Some(amounts[|amounts| - 1]))
  }

  /** Capping at every step is capping once at the end: from a fresh
      identity, progress is the total of the increments, or 100 once that
      total passes 100. */
  lemma {:induction false} IncrementsCapOnce(st: UserState, amounts: seq<nat>)
    requires st.identityProgress == 0
    ensures IncrementAll(st, amounts).identityProgress == if Sum(amounts) < Cap then Sum(amounts) else Cap
    decreases |amounts|
  {
    if |amounts| > 0 {
      IncrementsCapOnce(st, amounts[..|amounts| - 1]);
    }
  }
}

=== FILE: weekly_recap.dfy ===
/** The weekly recap card: the last seven days, the full completions logged
    in them, the share of those days with a full completion, and the longest
    current full-only streak among the active habits. */
module WeeklyRecap {
  import opened Wrappers
  import opened CivilDate
  import opened Records
  import opened StreakEngine
  import opened Percent

  /** A habit as the recap reads it: its id (absent before the first save)
      and whether it is archived. */
  datatype RecapHabit = RecapHabit(id: Option<int>, archived: bool)

  /** The seven dates ending today, oldest first. */
  function WeekDates(today: Date): (week: seq<Date>)
    requires Valid(today)
    ensures |week| == 7 && week[6] == today
    ensures forall i :: 0 <= i < 7 ==> Valid(week[i])
    ensures forall i :: 0 <= i < 6 ==> week[i] == Pred(week[i + 1])
  {
    seq(7, i requires 0 <= i < 7 => PredN(today, 6 - i))
  }

  lemma WeekIsAscending(today: Date)
    requires Valid(today)
    ensures forall i, j :: 0 <= i < j < 7 ==> Before(WeekDates(today)[i], WeekDates(today)[j])
  {
    var week := WeekDates(today);
    forall i, j | 0 <= i < j < 7
      ensures Before(week[i], week[j])
    {
      OrdMonotone(week[i], week[j]);
    }
  }

  /** `r` holds each full log of the week exactly as often as `logs` does,
      and nothing else. */
  ghost predicate SameFullWeekCounts(logs: seq<Log>, week: seq<Date>, r: seq<Log>) {
    forall l :: multiset(r)[l] == if l.kind == Full && l.date in week then multiset(logs)[l] else 0
  }

  /** The full logs dated inside the week, in log order, duplicates kept. */
  function FullWeekLogs(logs: seq<Log>, week: seq<Date>): (r: seq<Log>)
    ensures forall l :: l in r <==> l in logs && l.kind == Full && l.date in week
    ensures |r| <= |logs|
  {
    if |logs| == 0 then []
    else
      var rest := FullWeekLogs(logs[1..], week);
      if logs[0].kind == Full && logs[0].date in week then [logs[0]] + rest else rest
  }

  /** Duplicates are kept: each full log of the week occurs in the filtered
      list exactly as often as among all logs. */
  lemma {:induction false} FullWeekCounts(logs: seq<Log>, week: seq<Date>)
    ensures SameFullWeekCounts(logs, week, FullWeekLogs(logs, week))
  {
    if |logs| > 0 {
      FullWeekCounts(logs[1..], week);
      assert logs == [logs[0]] + logs[1..];
    }
  }

  /** Total completions: every full log of the week, of every habit. */
  function TotalCompletions(logs: seq<Log>, today: Date): (n: nat)
    requires Valid(today)
    ensures n <= |logs|
    ensures n == 0 <==> forall l :: l in logs ==> !(l.kind == Full && l.date in WeekDates(today))
  {
    var r := FullWeekLogs(logs, WeekDates(today));
    if |r| > 0 then assert r[0] in r; |r| else |r|
  }

  /** The distinct days of the week with at least one full log. */
  function CompletedDays(logs: seq<Log>, today: Date): set<Date>
    requires Valid(today)
  {
    set l | l in FullWeekLogs(logs, WeekDates(today)) :: l.date
  }

  lemma {:induction false} MappedSetSize(s: seq<Log>)
    ensures |set l | l in s :: l.date| <= |s|
  {
    if |s| > 0 {
      MappedSetSize(s[1..]);
      assert (set l | l in s :: l.date) == {s[0].date} + (set l | l in s[1..] :: l.date);
    }
  }

  lemma {:induction false} SeqSetSize(s: seq<Date>)
    ensures |set d | d in s| <= |s|
  {
    if |s| > 0 {
      SeqSetSize(s[1..]);
      assert (set d | d in s) == {s[0]} + (set d | d in s[1..]);
    }
  }

  lemma SubsetSize(a: set<Date>, b: set<Date>)
    requires a <= b
    ensures |a| <= |b|
  {
    assert b == a + (b - a);
    assert a * (b - a) == {};
  }

  /** Days with completions: at most seven, and never more than the total. */
  function DaysWithCompletions(logs: seq<Log>, today: Date): (n: nat)
    requires Valid(today)
    ensures n <= 7
    ensures n <= TotalCompletions(logs, today)
  {
    var week := WeekDates(today);
    MappedSetSize(FullWeekLogs(logs, week));
    SeqSetSize(week);
    SubsetSize(CompletedDays(logs, today), set d | d in week);
    |CompletedDays(logs, today)|
  }

  /** `Math.round((daysWithCompletions / 7) * 100)`. */
  function CompletionRate(logs: seq<Log>, today: Date): (r: int)
    requires Valid(today)
    ensures 0 <= r <= 100
    ensures 14 * r <= 200 * DaysWithCompletions(logs, today) + 7 < 14 * (r + 1)
  {
    RoundPercent(DaysWithCompletions(logs, today), 7)
  }

  /** A second full log on a day already counted raises the total but not
      the number of days. */
  lemma DuplicateRaisesTotalOnly(logs: seq<Log>, l: Log, today: Date)
    requires Valid(today)
    requires l in logs && l.kind == Full && l.date in WeekDates(today)
    ensures TotalCompletions(logs + [l], today) == TotalCompletions(logs, today) + 1
    ensures DaysWithCompletions(logs + [l], today) == DaysWithCompletions(logs, today)
  {
    var week := WeekDates(today);
    FullWeekAppend(logs, l, week);
    assert CompletedDays(logs + [l], today) == CompletedDays(logs, today);
  }

  lemma {:induction false} FullWeekAppend(logs: seq<Log>, l: Log, week: seq<Date>)
    ensures FullWeekLogs(logs + [l], week)
         == FullWeekLogs(logs, week) + (if l.kind == Full && l.date in week then [l] else [])
  {
    if |logs| > 0 {
      assert (logs + [l])[1..] == logs[1..] + [l];
      FullWeekAppend(logs[1..], l, week);
    } else {
      assert (logs + [l])[1..] == [];
    }
  }

  predicate Eligible(hb: RecapHabit) {
    !hb.archived && hb.id.Some? && hb.id.value != 0
  }

  /** `habits.reduce((max, habit) => habit.id ? Math.max(max, streak) : max, 0)`
      over the non-archived habits. A habit without an id, or with id 0,
      is skipped. */
  function LongestStreak(habits: seq<RecapHabit>, logs: seq<Log>, today: Date): (r: nat)
    requires AllDatesValid(logs) && Valid(today)
    ensures forall hb :: hb in habits && Eligible(hb) ==> CurrentStreak(logs, hb.id.value, FullOnly, today) <= r
    ensures r == 0 || exists hb :: hb in habits && Eligible(hb) && CurrentStreak(logs, hb.id.value, FullOnly, today) == r
  {
    if |habits| == 0 then 0
    else
      var rest := LongestStreak(habits[1..], logs, today);
      assert forall hb :: hb in habits[1..] ==> hb in habits;
      var hb := habits[0];
      if !Eligible(hb) then rest
      else
        var s := CurrentStreak(logs, hb.id.value, FullOnly, today);
        if s > rest then s else rest
  }

  datatype Recap = Recap(totalCompletions: nat, completionRate: int, longestStreak: nat)

  function ComputeRecap(habits: seq<RecapHabit>, logs: seq<Log>, today: Date): Recap
    requires AllDatesValid(logs) && Valid(today)
  {
    Recap(TotalCompletions(logs, today), CompletionRate(logs, today), LongestStreak(habits, logs, today))
  }

  /** The card is rendered unless both the total and the longest streak are 0. */
  predicate Visible(r: Recap) {
    r.totalCompletions != 0 || r.longestStreak != 0
  }

  /** The card hides exactly when no full log falls in the week and no
      eligible habit has a running full-only streak. */
  lemma HiddenIffNoActivity(habits: seq<RecapHabit>, logs: seq<Log>, today: Date)
    requires AllDatesValid(logs) && Valid(today)
    ensures !Visible(ComputeRecap(habits, logs, today)) <==>
              (forall l :: l in logs && l.kind == Full ==> l.date !in WeekDates(today))
              && (forall hb :: hb in habits && Eligible(hb) ==> CurrentStreak(logs, hb.id.value, FullOnly, today) == 0)
  {
    var week := WeekDates(today);
    var full := FullWeekLogs(logs, week);
    if |full| > 0 {
      assert full[0] in full;
    }
  }
}

=== FILE: wrappers.dfy ===
/** The optional value used wherever the source has `undefined`, `null` or
    an absent database row. */
module Wrappers {

  datatype Option<+T> = None | Some(value: T) {

    /** Returns the value in Some, or the given default for None */
    function GetOr(default: T): T {
      match this
      case Some(v) => v
      case None => default
    }
  }
}
